=== FILE: README.md ===
# BeatPatterns in Dafny

BeatPatterns builds Beat Saber beatmaps out of a library of hand-written
note patterns. The project models its pattern engine and the pure data
operations around it, as immutable Dafny values and functions.

- **Note vocabulary** (`NoteVocabulary`): level and pattern difficulties,
  cube colours and the nine cut directions. It covers their string and
  integer codecs, the colour swap and the left/right and up/down mirrors.
- **Pattern library** (`Patterns`, `PatternJson`): the library is a sequence
  of patterns. A transformation's link to its source pattern is an index into
  that sequence.
  - Per-level weights and cumulative-weight selection of a pattern and of a
    starting cell.
  - Derivation of a transformed pattern, with its cache.
  - Name-to-pattern linking.
  - The JSON field mapping.
- **Generators** (`Generators`): the song editor's variant inserts notes at
  an index; the library's variant appends them.
  - Settings and their defaults.
  - The eligibility filter and the selection fallbacks.
  - Placement of a pattern's notes on beats and grid cells.
  - The `ceil`-snapped scheduling loop that fills a whole song.
- **Saber trackers** (`SaberLocations`): the library's tracker with
  `reset`/`apply`, and the editor's hand tracker.
- **Beatmap queries** (`Beatmaps`): gap statistics, colour and direction
  counts, the previous/next "distinct time" neighbour search, and
  get-or-create for difficulties and beatmaps.
- **Preferences** (`Preferences`): the most-recently-used history, the
  lookup of per-difficulty defaults with its `All` fallback, and the JSON
  round trips of both programs' preference files.
- **Utility layer**:
  - `StringMethods`: trim, `digitsOnly`, `replaceAll`, `stringStartsWith`
    and control-character escaping.
  - `StringVectors`: `remove` and `tokenize`.
  - `OptionHandler`: help text, the `getopt_long` option array and its
    short-option string, and the searches.
  - `JsonValues`: a JSON datatype with the defaulting accessors and vector
    (de)serialisation.
  - `PointerMaps`: `contains`, `get` and `eraseAll`.

Some things the code takes from outside become parameters:

- `rand()` becomes a multiplier `m` in [0, 1], or an explicit draw with its
  `RAND_MAX`.
- Beat times and durations are `real`.
- C++ exceptions are `Err` values of a `Result`:
  - `at` out of range;
  - `back()` on an empty vector;
  - a JSON value of the wrong type.
- The library generator's call to the preferences singleton (the pattern
  library and the difficulty defaults) becomes function arguments.

## Model

| member | source | states |
|---|---|---|
| NoteVocabulary.LevelDifficultyToString | Library/src/song_editor/Common.cpp:9-33 | the name is one of the six level names and `toLevelDifficulty` reads it back as the same level |
| NoteVocabulary.ToLevelDifficulty | Library/src/song_editor/Common.cpp:22-33 | any string that is not a level name reads as Easy |
| NoteVocabulary.FirstLevel | SongEditor/Song.cpp:155-160 | the first position holding the level, or none when no position does; the difficulty list and the defaults list both search this way |
| NoteVocabulary.PatternDifficultyToString | Library/src/song_editor/Common.cpp:41-59 | the name is one of the three pattern difficulty names and reads back as the same difficulty |
| NoteVocabulary.ToPatternDifficulty | Library/src/song_editor/Common.cpp:52-59 | an unknown name reads as Easy |
| NoteVocabulary.CubeTypeToString | Library/src/song_editor/Common.cpp:67-96 | the name is one of the three colour names and `toCubeType` reads it back as the same colour |
| NoteVocabulary.ToCubeType | Library/src/song_editor/Common.cpp:89-96 | an unknown name reads as Red |
| NoteVocabulary.CubeTypeToInt | Library/src/song_editor/Common.cpp:77-86 | the code lies in 0..3 and is never 2; it is the red code exactly for Red and the blue code exactly for Blue |
| NoteVocabulary.CubeTypeToIntInjective | Library/src/song_editor/Common.cpp:77-86 | two colours with the same code are the same colour |
| NoteVocabulary.SwapCubeType | Library/src/song_editor/Common.cpp:98-106 | a bomb stays a bomb and is the only colour that does; Red and Blue change |
| NoteVocabulary.SwapCubeTypeInvolution | Library/src/song_editor/Common.cpp:98-106 | swapping twice gives back the original colour |
| NoteVocabulary.CutDirectionToString | Library/src/song_editor/Common.cpp:120-168 | the name is one of the nine direction names and `toCutDirection` reads it back as the same direction |
| NoteVocabulary.ToCutDirection | Library/src/song_editor/Common.cpp:156-168 | an unknown name reads as Down |
| NoteVocabulary.DirectionCellInjective | Library/src/song_editor/Pattern.h:51-58 | a direction is determined by its cell in the documented 3x3 grid |
| NoteVocabulary.CutDirectionToInt | Library/src/song_editor/Common.cpp:138-154 | the code lies in 0..8 and is the number printed in the direction's grid cell; it is NoteDirection_None exactly for Center; decoding the code gives the direction back |
| NoteVocabulary.ToCutDirectionCode | Library/src/beat_patterns/SaberLocation.cpp:18 | a code outside 0..8 reads as Down |
| NoteVocabulary.CutDirectionCodeBijective | Library/src/song_editor/Common.cpp:138-154 | every code 0..8 belongs to exactly one direction, so the code map is a bijection onto 0..8 |
| NoteVocabulary.MirrorLeftRight | Library/src/song_editor/Common.cpp:190-208 | reflects the direction's grid cell horizontally; fixes exactly Up, Down and Center |
| NoteVocabulary.MirrorUpDown | Library/src/song_editor/Common.cpp:170-188 | reflects the direction's grid cell vertically; fixes exactly Left, Right and Center |
| NoteVocabulary.MirrorsAreCommutingInvolutions | Library/src/song_editor/Common.cpp:170-208 | each mirror undoes itself, and the two mirrors commute |
| NoteVocabulary.MirrorCutDirection | Library/src/song_editor/Common.cpp:213-221 | the column is reflected iff left/right is asked for and the row iff up/down is; with neither flag the direction is unchanged |
| NoteVocabulary.MirrorCutDirectionInvolution | Library/src/song_editor/Common.cpp:213-221 | mirroring twice with the same flags gives the direction back, and Center is never moved |
| Patterns.DerivedPattern | Library/src/beat_patterns/Pattern.cpp:125-158 | the derived object has only a note sequence; its weights and transformation are the defaults and it has no starting cells |
| Patterns.GetWeight | Library/src/beat_patterns/Pattern.cpp:83-94 | the weight is the matching field, and All uses the easy weight |
| Patterns.DefaultWeights | Library/src/song_editor/Pattern.h:25-45 | a default-constructed pattern has weight 500 at every level, All included |
| Patterns.ScanExceeding | Library/src/beat_patterns/Pattern.cpp:277-288 | the scan stops at the first index whose running sum exceeds `select`, or at the last index when none does |
| Patterns.Weights | Library/src/beat_patterns/Pattern.cpp:268-271 | one weight per pattern, in order, each the pattern's weight at the level |
| Patterns.SelectPattern | Library/src/beat_patterns/Pattern.cpp:264-289 | null exactly for an empty list; otherwise the selection rule holds at `total * m` |
| Patterns.SelectedUnique | Library/src/beat_patterns/Pattern.cpp:277-288 | the selection rule picks a single index |
| Patterns.SelectNeverZeroWeight | Library/src/beat_patterns/Pattern.cpp:264-289 | with non-negative weights, a positive total and m < 1, a pattern is selected and its weight is positive |
| Patterns.SelectedHasWeight | Library/src/beat_patterns/Pattern.cpp:277-288 | with non-negative weights and 0 <= select < total, the selected weight is positive |
| Patterns.LocationWeights | Library/src/beat_patterns/Pattern.cpp:170-172 | a preferred cell counts 10 and any other 3, so every weight is positive |
| Patterns.ScanReaching | Library/src/beat_patterns/Pattern.cpp:177-185 | the first index whose running weight reaches `select` (`>=`), or none when no running sum does |
| Patterns.FirstReaching | Library/src/beat_patterns/Pattern.cpp:177-185 | the scan started at the first cell with a zero running sum: the first index whose running weight reaches `select`, or none |
| Patterns.StartingIndex | Library/src/beat_patterns/Pattern.cpp:167-186 | the chosen cell is the first whose running weight (10 for a preferred cell, 3 otherwise) reaches m times the total weight; no cell is chosen only when no running weight reaches it |
| Patterns.GetStartingLocation | Library/src/beat_patterns/Pattern.cpp:167-186 | with no cells both out-parameters are unchanged; otherwise they take the chosen cell's layer and index |
| Patterns.StartingLocationChosen | Library/src/beat_patterns/Pattern.cpp:167-186 | with at least one cell and m in [0, 1], some cell is always chosen |
| Patterns.TransformNote | Library/src/beat_patterns/Pattern.cpp:147-152 | the colour is swapped iff `swapColors`; X is negated iff `mirrorLeftRight`; Y is kept; the arrow's grid column and row are reflected per the two flags |
| Patterns.TransformSet | Library/src/beat_patterns/Pattern.cpp:144-155 | one transformed note per note, in order |
| Patterns.TransformSequence | Library/src/beat_patterns/Pattern.cpp:143-159 | the same groups in the same order, each transformed |
| Patterns.TransformSequenceInvolution | Library/src/beat_patterns/Pattern.cpp:143-159 | transforming twice with the same flags gives back the original notes |
| Patterns.MirrorLocation | Library/src/beat_patterns/Pattern.cpp:130-136 | layer and `preferred` are kept; the column becomes 3 - column iff mirroring; a cell in the grid stays in the grid |
| Patterns.MirrorLocationInvolution | Library/src/beat_patterns/Pattern.cpp:130-136 | mirroring a cell twice gives it back |
| Patterns.MirrorLocations | Library/src/beat_patterns/Pattern.cpp:130-140 | one mirrored cell per source cell, in order |
| Patterns.GetTransformation | Library/src/beat_patterns/Pattern.cpp:107-162 | a pattern with no source name or an unresolved link is returned as itself. Otherwise pattern i ends up with a cache and the derived pattern returned is that cache; a call on a built cache changes nothing. Definitions are unchanged, links stay valid and a built cache is never touched again |
| Patterns.GetTransformationIdempotent | Library/src/beat_patterns/Pattern.cpp:119-161 | asking again changes nothing and returns the same pattern |
| Patterns.TransformationOfResolvedSource | Library/src/beat_patterns/Pattern.cpp:119-161 | on the first call, for any source: the source is resolved over the library in which pattern i already has an empty cache. The derived notes are the resolved source notes transformed, the derived pattern has no starting cells, pattern i gains the resolved source cells mirrored, and every other pattern is as the resolution left it |
| Patterns.TransformationOfPlainSource | Library/src/beat_patterns/Pattern.cpp:119-161 | from a plain source, the derived notes are the transformed source notes. The receiver gains the mirrored source cells and the derived pattern gets none |
| Patterns.TransformationOfTransformation | Library/src/beat_patterns/Pattern.cpp:127 | a source that is itself derived is resolved first, and its derived notes are transformed again |
| Patterns.FirstNamed | Library/src/beat_patterns/Pattern.cpp:246-248 | the first index with the name, or none when no pattern has it |
| Patterns.InsertNames | Library/src/beat_patterns/Pattern.cpp:245-248 | every name becomes a key; an existing entry is kept and a new key maps to the first pattern with that name |
| Patterns.LinkPattern | Library/src/beat_patterns/Pattern.cpp:251-257 | only the link changes, and only when the source name is non-empty and a key |
| Patterns.MapInto | Library/src/beat_patterns/Pattern.cpp:243-259 | the keys are the old keys plus every pattern name; the first pattern with a name wins; every pattern is linked through the final map |
| Patterns.MapIntoLinksValid | Library/src/beat_patterns/Pattern.cpp:243-259 | when the map points into the library, every link does so afterwards |
| PatternJson.UseWeightsToJson | Library/src/beat_patterns/Pattern.cpp:332-338 | only positive weights are written |
| PatternJson.UseWeightsFromJson | Library/src/beat_patterns/Pattern.cpp:321-327 | an empty object reads as all zeros |
| PatternJson.UseWeightsRoundTrip | Library/src/beat_patterns/Pattern.cpp:321-338 | writing and reading maps each weight w to max(w, 0) |
| PatternJson.TransformationToJson | Library/src/beat_patterns/Pattern.cpp:304-312 | the source name is always written, each flag only when set |
| PatternJson.TransformationFromJson | Library/src/beat_patterns/Pattern.cpp:294-302 | the link is always null after reading |
| PatternJson.TransformationRoundTrip | Library/src/beat_patterns/Pattern.cpp:294-312 | the name and all four flags come back exactly and the link is reset |
| PatternJson.LocationToJson | Library/src/beat_patterns/Pattern.cpp:382-388 | `preferred` is written exactly when it is set |
| PatternJson.LocationRoundTrip | Library/src/beat_patterns/Pattern.cpp:376-388 | a starting cell survives writing and reading |
| PatternJson.NoteToJson | Library/src/beat_patterns/Pattern.cpp:357-362 | colour and direction are written by name |
| PatternJson.NoteFromJson | Library/src/beat_patterns/Pattern.cpp:347-352 | a missing or unknown colour reads as Red and direction as Down |
| PatternJson.NoteRoundTrip | Library/src/beat_patterns/Pattern.cpp:347-362 | a note survives writing and reading |
| PatternJson.NoteSetToJson | Library/src/beat_patterns/Pattern.cpp:365-372 | one object per note, as the vector writer produces it |
| PatternJson.NoteSequenceRoundTrip | Library/src/beat_patterns/Pattern.cpp:365-372 | the groups, their order and every note survive writing and reading |
| PatternJson.LocationsRoundTrip | Library/src/showpage/JSON_Serializable.h:64-83 | the starting cells survive writing and reading |
| PatternJson.PatternFields | Library/src/beat_patterns/Pattern.cpp:56-78 | a pattern with a source name writes its transformation and no cells or notes; any other pattern writes cells and notes and no transformation |
| PatternJson.PatternFromJson | Library/src/beat_patterns/Pattern.cpp:33-51 | no cache and no link after reading; a missing transformation leaves the default |
| PatternJson.DerivedPatternRoundTrip | Library/src/beat_patterns/Pattern.cpp:33-78 | a derived pattern comes back with its name, difficulty, clamped weights and transformation but with no cells or notes |
| PatternJson.PlainPatternRoundTrip | Library/src/beat_patterns/Pattern.cpp:33-78 | a plain pattern comes back with its cells and notes, clamped weights and a default transformation |
| JsonValues.Put | Library/src/beat_patterns/Pattern.cpp:65-67 | assigning a key works on null or an object and fails on anything else; the key gets the value and other keys are unchanged |
| JsonValues.Set | Library/src/beat_patterns/Pattern.cpp:65-67 | on an object the key gets the value and nothing else changes |
| JsonValues.SetIf | Library/src/showpage/JSON_Serializable.cpp:159-164 | the key is written exactly when the condition holds; other keys are unchanged |
| JsonValues.PushBack | Library/src/showpage/JSON_Serializable.h:81 | appending works on null or an array and fails otherwise; the value goes at the end |
| JsonValues.Elements | Library/src/showpage/JSON_Serializable.h:65 | iterating null gives nothing and an array gives its items; an object gives one value per key |
| JsonValues.TruncateToward0 | Library/src/showpage/JSON_Serializable.cpp:56-74 | a double becomes the integer nearest to it on the side of zero |
| JsonValues.StringValue | Library/src/showpage/JSON_Serializable.cpp:37-48 | a missing or null key gives ""; otherwise the stored string, and an error for any other type |
| JsonValues.IntValue | Library/src/showpage/JSON_Serializable.cpp:56-67 | a missing or null key gives 0; otherwise the stored number converted |
| JsonValues.LongValue | Library/src/showpage/JSON_Serializable.cpp:94-105 | a missing or null key gives 0; otherwise the stored number converted |
| JsonValues.DoubleValue | Library/src/showpage/JSON_Serializable.cpp:75-86 | a missing or null key gives 0.0; otherwise the stored number converted |
| JsonValues.BoolValue | Library/src/showpage/JSON_Serializable.cpp:113-124 | a missing or null key gives false; otherwise the stored boolean |
| JsonValues.JsonValue | Library/src/showpage/JSON_Serializable.cpp:131-138 | the stored value, null included, when the key is present; an empty object otherwise |
| JsonValues.SetStringValue | Library/src/showpage/JSON_Serializable.cpp:159-164 | writes the key only when key and value are both non-empty; then the key reads back as the value and other keys are unchanged |
| JsonValues.FillString | Library/src/showpage/JSON_Serializable.h:27-39 | the stored string when the key holds a string, "" in every other case |
| JsonValues.AppendAll | Library/src/showpage/JSON_Serializable.h:64-72 | succeeds iff every item decodes; then the existing elements are kept and one decoded element per item follows in order |
| JsonValues.VectorFromJson | Library/src/showpage/JSON_Serializable.h:64-72 | appends one element per array entry, in order, after the existing contents |
| JsonValues.PushAll | Library/src/showpage/JSON_Serializable.h:77-83 | pushes one value per element in order; with no elements the target is untouched |
| JsonValues.VectorToJson | Library/src/showpage/JSON_Serializable.h:77-83 | one object per element, in vector order, each written by the element's writer |
| JsonValues.AppendAllDecodes | Library/src/showpage/JSON_Serializable.h:64-72 | items that each decode to the matching element of v append exactly v |
| JsonValues.VectorRoundTrip | Library/src/showpage/JSON_Serializable.h:64-83 | given an element round trip, writing a vector and reading it after existing contents appends the vector |
| PointerMaps.Get | Library/src/showpage/PointerMap.h:28-34 | exactly the stored pointer for a present key; null for a missing key, which is not inserted |
| PointerMaps.Put | SongEditor/Song.cpp:202 | the `map[key] = value` assignment PointerMap inherits from `std::map`, as `getBeatmap` uses it: afterwards the key is present with the value and every other key is unchanged |
| PointerMaps.EraseAll | Library/src/showpage/PointerMap.h:39-47 | afterwards no key is present |
| StringMethods.StartsWith | Library/src/showpage/StringMethods.cpp:17-27 | true iff the prefix is a prefix of the string, so the empty prefix always matches |
| StringMethods.LTrim | Library/src/showpage/StringMethods.cpp:211-233 | a suffix of s after a run of whitespace, not starting with a space; unchanged when s starts with a non-space |
| StringMethods.RTrim | Library/src/showpage/StringMethods.cpp:236-242 | a prefix of s before a run of whitespace, not ending with a space; unchanged when s ends with a non-space |
| StringMethods.Trim | Library/src/showpage/StringMethods.cpp:245-250 | neither starts nor ends with a space |
| StringMethods.TrimIsSlice | Library/src/showpage/StringMethods.cpp:245-250 | the result is a contiguous slice of s with only whitespace cut off either side |
| StringMethods.TrimIdempotent | Library/src/showpage/StringMethods.cpp:245-250 | trimming twice trims nothing more, and a whitespace-only string trims to "" |
| StringMethods.DigitsOnly | Library/src/showpage/StringMethods.cpp:287-297 | only digits, no longer than s, and s itself when s is all digits; each digit occurs exactly as often as in s and no other character occurs |
| StringMethods.KeepDigitsCounts | Library/src/showpage/StringMethods.cpp:290-294 | the characters the loop keeps and the non-digits it drops together make up s exactly, counted with multiplicity |
| StringMethods.KeepDigitsAppend | Library/src/showpage/StringMethods.cpp:290-294 | the loop over a + b appends what it keeps of b after what it keeps of a |
| StringMethods.DigitsOnlyAppend | Library/src/showpage/StringMethods.cpp:287-297 | filtering distributes over concatenation, so digits keep their order |
| StringMethods.DigitsOnlyIdempotent | Library/src/showpage/StringMethods.cpp:287-297 | idempotent, and the identity exactly on all-digit strings |
| StringMethods.Find | Library/src/showpage/StringMethods.cpp:279 | the first occurrence at or after the position, or none |
| StringMethods.Splice | Library/src/showpage/StringMethods.cpp:281 | the text before and after the replaced span is kept and the replacement sits in between |
| StringMethods.ReplaceAll | Library/src/showpage/StringMethods.cpp:276-285 | a string without the pattern comes back unchanged |
| StringMethods.ReplaceFromStep | Library/src/showpage/StringMethods.cpp:279-282 | a found occurrence is replaced and the next search starts at the start of the replacement |
| StringMethods.ReplaceFromSettles | Library/src/showpage/StringMethods.cpp:279-282 | when the loop finishes, the text before its starting position is untouched, and either there was no occurrence and the string comes back as it was, or the last replacement is still in place and no occurrence starts at or after it |
| StringMethods.ReplaceAllResult | Library/src/showpage/StringMethods.cpp:274-285 | on a string whose first occurrence is at i, a finished `replaceAll` keeps the text before i, and a copy of the replacement at some q >= i is followed by no occurrence of the pattern |
| StringMethods.ReplaceAllRereads | Library/src/showpage/StringMethods.cpp:279-282 | the search resumes inside its own replacement: replacing "ab" by "a" in "abb" gives "a" |
| StringMethods.FindFinds | Library/src/showpage/StringMethods.cpp:279 | any occurrence at or after the position makes the search succeed |
| StringMethods.ReplaceAllEmptyDiverges | Library/src/showpage/StringMethods.cpp:276-285 | an empty pattern is found forever, so no amount of fuel finishes |
| StringMethods.FindInSplice | Library/src/showpage/StringMethods.cpp:279-282 | a replacement containing the pattern is found again from the splice point |
| StringMethods.ReplaceAllSelfContainingDiverges | Library/src/showpage/StringMethods.cpp:276-285 | when the replacement contains the pattern and the pattern occurs, the loop never ends |
| StringMethods.ReplaceAllShrinkingTerminates | Library/src/showpage/StringMethods.cpp:276-285 | a strictly shorter replacement always finishes within |s| replacements |
| StringMethods.Escape | Library/src/showpage/StringMethods.cpp:321-344 | printable bytes are copied. 0, CR and LF get their escapes; other bytes 1..26 become '^' and a letter; the remaining bytes get a backslash and hex. Every byte gives at least one character |
| StringMethods.EscapeAll | Library/src/showpage/StringMethods.cpp:319-345 | the output is at least as long as the input |
| StringMethods.ControlStringFromBytes | Library/src/showpage/StringMethods.cpp:316-347 | null data or a non-positive length gives ""; otherwise the escapes of the first `length` bytes, which are at least `length` characters |
| StringMethods.EscapeAllOne | Library/src/showpage/StringMethods.cpp:319-345 | no bytes give "", and one byte gives its own escape; with EscapeAllAppend this fixes the output on every input |
| StringMethods.EscapeAllAppend | Library/src/showpage/StringMethods.cpp:319-345 | escaping works byte by byte: the escape of a concatenation is the concatenation of the escapes |
| StringMethods.EscapeAllPrintable | Library/src/showpage/StringMethods.cpp:338-340 | printable bytes come through unchanged |
| StringVectors.FirstIndexOf | Library/src/showpage/StringVector.cpp:20-22 | the first non-null element equal to the value, or none |
| StringVectors.Remove | Library/src/showpage/StringVector.cpp:18-27 | one shorter exactly when the value is present. Only the first copy goes and the order is kept; with the value absent nothing changes |
| StringVectors.RunLength | Library/src/showpage/StringVector.cpp:39 | the length of the leading run of non-delimiters |
| StringVectors.Tokens | Library/src/showpage/StringVector.cpp:32-47 | every token is non-empty and free of delimiters |
| StringVectors.Tokenize | Library/src/showpage/StringVector.cpp:32-47 | the existing contents are kept, followed by exactly the tokens of the string, in order, each as a non-null entry |
| StringVectors.KeptAppend | Library/src/showpage/StringVector.cpp:32-47 | dropping delimiters distributes over concatenation |
| StringVectors.KeptOfRun | Library/src/showpage/StringVector.cpp:39 | a run without delimiters is kept whole |
| StringVectors.TokensConcat | Library/src/showpage/StringVector.cpp:32-47 | the tokens concatenate to the input's non-delimiter characters, so nothing else is lost |
| StringVectors.TokensOfDelimiters | Library/src/showpage/StringVector.cpp:39-43 | a string made only of delimiters adds nothing |
| StringVectors.TokensOfJoin | Library/src/showpage/StringVector.cpp:32-47 | joining non-empty, delimiter-free tokens with a delimiter and tokenizing gives the tokens back |
| StringVectors.RunLengthAppend | Library/src/showpage/StringVector.cpp:39 | a leading run ends inside the first part of a concatenation when a delimiter occurs there, and otherwise continues into the second part |
| StringVectors.TokensOfRun | Library/src/showpage/StringVector.cpp:39-43 | a non-empty string without a delimiter is a single token |
| StringVectors.TokensSplit | Library/src/showpage/StringVector.cpp:39-43 | tokens are maximal runs: cutting the string at any delimiter cuts the token list at the same place |
| OptionHandler.ArgumentForHelp | Library/src/showpage/OptionHandler.cpp:104-123 | "--name", then " (-c)" when the code is printable; without a name "-c" when printable; " text" at the end when there is text; empty exactly when there is nothing to show |
| OptionHandler.PaddedArgument | Library/src/showpage/OptionHandler.cpp:137-146 | starts with the help text and is padded with spaces to the requested length, never truncated |
| OptionHandler.AddAll | Library/src/showpage/OptionHandler.cpp:171-183 | appends, in order, every entry before the first sentinel |
| OptionHandler.SentinelIndex | Library/src/showpage/OptionHandler.cpp:174-181 | the index of the first sentinel |
| OptionHandler.BuildOptions | Library/src/showpage/OptionHandler.cpp:208-227 | one entry per argument, then the all-zero entry |
| OptionHandler.ShortArgsRoundTrip | Library/src/showpage/OptionHandler.cpp:209-222 | parsing the short-option string gives each non-zero code in order, with whether it takes an argument |
| OptionHandler.ShortArgsHead | Library/src/showpage/OptionHandler.cpp:209-222 | the string never starts with ':' when no code is ':' |
| OptionHandler.GetOptionsAsWritten | Library/src/showpage/OptionHandler.cpp:203-231 | as written: rebuilds when the stored count differs from the size, but stores size + 1 |
| OptionHandler.GetOptionsAsWrittenStale | Library/src/showpage/OptionHandler.cpp:203-231 | the same table is rebuilt on every call, but after one argument is added the stale array is returned |
| OptionHandler.GetOptions | Library/src/showpage/OptionHandler.cpp:203-231 | with the count compared as stored, the array is rebuilt unless it was built for a table of the same size |
| OptionHandler.GetOptionsCurrent | Library/src/showpage/OptionHandler.cpp:203-231 | the returned array and string describe the table unless it was edited without changing its size |
| OptionHandler.SearchForLongName | Library/src/showpage/OptionHandler.cpp:239-250 | the first argument with the name, or none |
| OptionHandler.SearchForShortCode | Library/src/showpage/OptionHandler.cpp:253-264 | the first argument with the code, or none |
| OptionHandler.AnyHaveHelpText | Library/src/showpage/OptionHandler.cpp:266-277 | true iff some argument has argument text or help text |
| Beatmaps.Gaps | SongEditor/Song.cpp:483-505 | the song's gaps, one per note plus the gap after the last note |
| Beatmaps.MaxOrZeroIsMaximum | SongEditor/Song.cpp:483-505 | the largest gap is at least 0 and every gap; it is 0 or one of the gaps |
| Beatmaps.CountAbove | SongEditor/Song.cpp:510-530 | at most one per value |
| Beatmaps.MaxOrZeroSnoc | SongEditor/Song.cpp:487-503 | one loop step of `largestGap` keeps the larger value |
| Beatmaps.CountAboveSnoc | SongEditor/Song.cpp:514-528 | one loop step of `numberLargeGaps` counts the new gap iff it exceeds the bound |
| Beatmaps.LargestGap | SongEditor/Song.cpp:483-505 | the maximum of 0, the gaps between notes (from time 0) and the gap to the song's end, with times scaled by bpm/60 |
| Beatmaps.NumberLargeGaps | SongEditor/Song.cpp:510-530 | how many of the same gaps exceed 5.0; between 0 and |notes| + 1 |
| Beatmaps.MaxAboveIffSomeAbove | SongEditor/Song.cpp:483-530 | the maximum exceeds a non-negative bound iff some value does |
| Beatmaps.LargestGapIffLargeGaps | SongEditor/Song.cpp:483-530 | the largest gap exceeds 5 iff at least one gap is counted as large |
| Beatmaps.Types | SongEditor/Song.cpp:532-542 | each note's type, in order |
| Beatmaps.Directions | SongEditor/Song.cpp:544-573 | each note's direction code, in order |
| Beatmaps.CountCodes | SongEditor/Song.cpp:532-573 | at most one per code, and 0 iff no code is wanted |
| Beatmaps.CountCodesIsMultiplicity | SongEditor/Song.cpp:532-542 | counting one code is its multiplicity |
| Beatmaps.CountCodesDisjointUnion | SongEditor/Song.cpp:544-573 | counts over disjoint code sets add up |
| Beatmaps.GetCutsCount | SongEditor/Song.cpp:532-542 | the number of notes whose type is the colour's code |
| Beatmaps.GetUpDownCuts | SongEditor/Song.cpp:544-552 | the number of up and down notes |
| Beatmaps.GetLeftRightCuts | SongEditor/Song.cpp:554-562 | the number of left and right notes |
| Beatmaps.GetDiagonalCuts | SongEditor/Song.cpp:564-573 | the number of notes in the four diagonal directions |
| Beatmaps.CutCountsBounded | SongEditor/Song.cpp:532-573 | red plus blue is at most |notes|, and so are the three direction counts together |
| Beatmaps.CenterNotCounted | SongEditor/Song.cpp:544-573 | a centre note changes no direction count |
| Beatmaps.GetNote | SongEditor/Song.cpp:587-592 | the note when the index is in range, null otherwise |
| Beatmaps.SearchBack | SongEditor/Song.cpp:600-610 | the nearest earlier note more than 0.1 beats before the base time, or none |
| Beatmaps.GetPreviousNote | SongEditor/Song.cpp:594-611 | null for index <= 0; an error for an index past the end; otherwise the nearest earlier note more than 0.1 beats earlier, or null |
| Beatmaps.SearchForward | SongEditor/Song.cpp:620-635 | the nearest later note more than 0.1 beats after the reference, or none |
| Beatmaps.GetNextNote | SongEditor/Song.cpp:613-636 | null at or past the end. A negative index searches from time 0; otherwise the result is the nearest later note more than 0.1 beats after the indexed one, or null |
| Beatmaps.BeatmapFilename | SongEditor/Song.cpp:181 | the level's name followed by ".dat", so the level can be read back from it |
| Beatmaps.FindDifficulty | SongEditor/Song.cpp:155-160 | the first entry for the level, or none when no entry has it |
| Beatmaps.GetDifficulty | SongEditor/Song.cpp:150-163 | searches only the first difficulty set; null when there is none |
| Beatmaps.CreateDifficulty | SongEditor/Song.cpp:165-186 | a first set exists afterwards and `getDifficulty` finds the entry. An existing entry changes nothing; otherwise one entry named "<level>.dat" is appended to the first set |
| Beatmaps.CreateDifficultyIdempotent | SongEditor/Song.cpp:165-186 | creating twice creates once |
| Beatmaps.GetBeatmap | SongEditor/Song.cpp:191-206 | get-or-create on the filename: a stored beatmap is returned unchanged; otherwise an empty one is stored and returned; other files are untouched |
| SaberLocations.Reset | Library/src/beat_patterns/SaberLocation.h:16-22 | any tracker resets to row 1, column 2, beat 0.0, direction Center |
| SaberLocations.Apply | Library/src/beat_patterns/SaberLocation.cpp:14-20 | row and column from the note's layer and index, the beat from the argument, the direction decoded from the note's code (Down when out of range) |
| SaberLocations.ResetIdempotent | Library/src/beat_patterns/SaberLocation.h:16-22 | resetting twice is resetting once, and a fresh tracker is already reset |
| SaberLocations.ApplyLastWins | Library/src/beat_patterns/SaberLocation.cpp:14-20 | the result depends only on the last note applied |
| SaberLocations.ResetBlue | Library/src/song_editor/Generator.h:117-123 | the right hand goes to row 1, column 2 |
| SaberLocations.ResetRed | Library/src/song_editor/Generator.h:117-124 | the left hand goes to the same row, one column left |
| Preferences.RemoveKeepsNoNulls | Library/src/beat_patterns/Preferences.cpp:147-151 | removal introduces no null entry |
| Preferences.PushHistory | Library/src/beat_patterns/Preferences.cpp:147-151 | the directory ends up last. When it was absent it is appended; otherwise its first occurrence is removed and every other entry keeps its order |
| Preferences.PushHistoryKeepsNoNulls | SongEditor/Preferences.cpp:113-117 | the history never gains a null entry |
| Preferences.RemoveLast | Library/src/showpage/StringVector.cpp:18-27 | removing a value just appended to a vector without it gives the vector back |
| Preferences.PushHistoryIdempotent | Library/src/beat_patterns/Preferences.cpp:147-151 | pushing the same directory twice is pushing it once, and it then occurs once |
| Preferences.HistoryEntryFromJson | Library/src/beat_patterns/Preferences.cpp:162-164 | a string reads as that entry; anything else is an error |
| Preferences.HistoryFromJson | Library/src/beat_patterns/Preferences.cpp:158-166 | one non-null entry per stored string, in array order; null reads as an empty history |
| Preferences.HistoryToJson | Library/src/beat_patterns/Preferences.cpp:179-182 | an array of the entries, oldest first |
| Preferences.HistoryRoundTrip | Library/src/beat_patterns/Preferences.cpp:153-189 | writing and reading the history gives it back |
| Preferences.DefaultsToJson | Library/src/beat_patterns/Preferences.cpp:224-229 | the difficulty by name and the three numbers by key |
| Preferences.DefaultsFromJson | Library/src/beat_patterns/Preferences.cpp:217-222 | an empty object reads as Easy with zeros |
| Preferences.DefaultsRoundTrip | Library/src/beat_patterns/Preferences.cpp:217-229 | the difficulty and all three numbers come back |
| Preferences.Find | Library/src/beat_patterns/Preferences.cpp:234-246 | the first entry for the difficulty, else the first entry for All; none exactly when neither exists |
| Preferences.GetOrBuild | Library/src/beat_patterns/Preferences.cpp:202-211 | an entry `find` returns; nothing is built when the difficulty or All is present, otherwise one entry for the difficulty is appended |
| Preferences.GetOrBuildIdempotent | Library/src/beat_patterns/Preferences.cpp:202-211 | a repeat call builds nothing, and the list grows by at most one |
| Preferences.LibraryFields | Library/src/beat_patterns/Preferences.cpp:174-189 | the four keys `toJSON` writes hold the path, the author, the history and the defaults |
| Preferences.LibraryPreferencesFromJson | Library/src/beat_patterns/Preferences.cpp:153-172 | the history is replaced by the stored one; the defaults are appended to the existing ones |
| Preferences.LibraryPreferencesRoundTrip | Library/src/beat_patterns/Preferences.cpp:153-189 | writing and reading into preferences with no defaults gives everything back |
| Preferences.DefaultsVectorRoundTrip | Library/src/beat_patterns/Preferences.cpp:168-188 | the stored defaults are appended, in order, after the existing ones |
| Preferences.EditorFields | SongEditor/Preferences.cpp:134-144 | only the path and the history are written |
| Preferences.EditorPreferencesFromJson | SongEditor/Preferences.cpp:119-132 | the author name is untouched; missing keys give an empty path and an empty history |
| Preferences.EditorPreferencesRoundTrip | SongEditor/Preferences.cpp:119-144 | path and history come back, and the author name stays the receiver's |
| Generators.SetPatternSnapTo | Library/src/song_editor/Generator.h:171 | only the snap setting changes |
| Generators.SetMinimumInitialWhitespace | Library/src/song_editor/Generator.h:179 | only the initial whitespace changes |
| Generators.SetMinimumDelayBetweenPatterns | Library/src/song_editor/Generator.h:193-196 | only the minimum delay changes |
| Generators.SetMaximumDelayBetweenPatterns | Library/src/song_editor/Generator.h:209-212 | only the maximum delay changes |
| Generators.SettersOverwrite | Library/src/song_editor/Generator.h:158-212 | setting all four fields, in either order, gives the same settings whatever they were before |
| Generators.ConstructLibraryGenerator | Library/src/beat_patterns/Generator.cpp:25-35 | the three timings are copied from the entry for the difficulty, else from the All entry, else from a new entry that is appended; snapping stays 1 |
| Generators.Ceil | Library/src/beat_patterns/Generator.cpp:47 | the least integer at or above x |
| Generators.DivFraction | Library/src/song_editor/Generator.cpp:15 | integer `rand() / RAND_MAX` is 1 for the maximum draw and 0 otherwise |
| Generators.RandomValueAsWritten | Library/src/song_editor/Generator.cpp:14-20 | as written, the value is b for the maximum draw and a for every other draw |
| Generators.RandomValue | Library/src/beat_patterns/Generator.cpp:14-20 | with floating division the value is a for draw 0, b for the maximum draw, and always between a and b |
| Generators.RandomValueAsWrittenIgnoresDraw | Library/src/beat_patterns/Generator.cpp:14-20 | for every draw strictly between 0 and the maximum, the value as written is a, while the intended value lies strictly between a and b |
| Generators.Delay | Library/src/beat_patterns/Generator.cpp:14-20 | the delay for a draw under either division: a and b at the extreme draws and never outside them; dividing integers gives a for every draw below the maximum |
| Generators.DivisionsPlaceDifferently | Library/src/beat_patterns/Generator.cpp:62-63 | with delays of 0.05 to 4 seconds, RAND_MAX 2, a draw of 1, a last note on beat 8 and half a second per beat, the next pattern starts on beat 9 as written and on beat 13 when corrected |
| Generators.EligibleFrom | Library/src/song_editor/Generator.cpp:141-149 | every kept index is in range and has positive weight |
| Generators.EligibleFromIncreasing | Library/src/song_editor/Generator.cpp:143-148 | kept indices are in library order |
| Generators.EligibleFromComplete | Library/src/song_editor/Generator.cpp:143-148 | every index with positive weight is kept |
| Generators.PossiblePatterns | Library/src/beat_patterns/Generator.cpp:159-167 | only patterns with positive weight are eligible |
| Generators.PossiblePatternsExact | Library/src/beat_patterns/Generator.cpp:159-167 | exactly the patterns with positive weight, in library order |
| Generators.Gather | Library/src/beat_patterns/Generator.cpp:164 | the patterns at the given indices, in order |
| Generators.ChoosePattern | Library/src/beat_patterns/Generator.cpp:95-106 | an error exactly for an empty library. With an eligible pattern the choice is the one weighted selection picks among the eligible patterns, and it has positive weight; with none it falls back to the first library pattern |
| Generators.EveryoneEligible | Library/src/song_editor/Generator.cpp:143-148 | when every weight is positive, every index is kept, in order |
| Generators.ChooseAmongAll | Library/src/song_editor/Generator.cpp:90-91 | when every weight is positive, the choice is the library-wide selection |
| Generators.GatherEveryone | Library/src/song_editor/Generator.cpp:141-149 | when every weight is positive, the eligible list is the library itself |
| Generators.NeverUsedNeverChosen | Library/src/song_editor/Generator.cpp:90-101 | a pattern with weight <= 0 is never chosen while some pattern has positive weight |
| Generators.PlacedNote | Library/src/song_editor/Generator.cpp:117-123 | a placed note has the beat, the start cell plus the note's offset, and the note's type and direction codes |
| Generators.PlaceGroup | Library/src/beat_patterns/Generator.cpp:121-137 | one placed note per note of a group, in order |
| Generators.PlaceNotes | Library/src/beat_patterns/Generator.cpp:120-142 | one placed note per pattern note |
| Generators.ChronologicalIsSorted | Library/src/song_editor/Generator.cpp:49-62 | adjacent notes in time order iff all notes in time order |
| Generators.PlacedInOrder | Library/src/song_editor/Generator.cpp:115-132 | placed notes lie between the start beat and start + groups - 1, in time order |
| Generators.PlacedAt | Library/src/beat_patterns/Generator.cpp:120-142 | note j of group k is placed at beat start + k, in the cell start + offset |
| Generators.ResolveChosen | Library/src/beat_patterns/Generator.cpp:109-111 | a pattern without a resolved link is placed as is; a linked one is resolved, with no starting cells of its own |
| Generators.PickAndPlace | Library/src/song_editor/Generator.cpp:86-132 | an error exactly for an empty library. Otherwise the chosen pattern is resolved; a plain pattern starts at the cell its starting-location choice gives from (0, 2), a derived one at (0, 2); its notes are placed from the beat |
| Generators.PickPlacesInOrder | Library/src/song_editor/Generator.cpp:115-132 | placed notes are at or after the start beat and in time order |
| Generators.PickAndApplyInsert | Library/src/song_editor/Generator.cpp:85-135 | the notes are inserted consecutively from the index, the others keep their order, and the result is index + placed - 1 |
| Generators.InsertAt | Library/src/song_editor/Generator.cpp:112-126 | the prefix, then the new notes, then the rest |
| Generators.PickAndApplyAppend | Library/src/beat_patterns/Generator.cpp:130-144 | every note is appended at the end and the result is -2 |
| Generators.InsertAtEndIsAppend | Library/src/beat_patterns/Generator.cpp:130-144 | inserting at the end is appending |
| Generators.GenerateRange | Library/src/song_editor/Generator.cpp:68-70 | the beatmap is left untouched |
| Generators.FirstBeatAfterWhitespace | Library/src/song_editor/Generator.h:173-179 | the first beat is the first whole beat at or after the initial whitespace |
| Generators.NextBeatAfter | Library/src/song_editor/Generator.cpp:56-57 | with a positive delay, the next start beat is after the last note's beat |
| Generators.BeatBelowBound | Library/src/song_editor/Generator.cpp:49 | a beat with more than half a second left lies below ceil(duration / beat duration) |
| Generators.ResetTrackers | Library/src/song_editor/Generator.cpp:45-47 | the editor resets its hands to (1, 2) and (1, 1); the library resets both sabers to the fresh state |
| Generators.PickRound | Library/src/beat_patterns/Generator.cpp:56 | an error exactly for an empty library; otherwise the placed notes follow the old ones, at or after the beat and in time order |
| Generators.PlacedSorted | Library/src/beat_patterns/Generator.cpp:55-67 | sorted notes before the beat followed by sorted notes from the beat are sorted |
| Generators.AtOrAfterMeans | Library/src/beat_patterns/Generator.cpp:120-142 | the recursive "at or after" test means every note is at or after the beat |
| Generators.AtOrAfterAppend | Library/src/beat_patterns/Generator.cpp:130-131 | a concatenation is at or after a beat iff both parts are |
| Generators.PlayRound | Library/src/beat_patterns/Generator.cpp:55-67 | one loop pass. An empty library fails; so does a pick that leaves no notes (`at(-1)`/`back()` on an empty vector). Otherwise the placed notes follow the old ones, and the next start beat is the last note's time plus the delay for the draw, rounded up to a whole beat; with positive delays the notes stay in time order, all before the next start beat |
| Generators.GenerateEntireSong | Library/src/beat_patterns/Generator.cpp:40-68 | clears the notes, sets `hasChanged`, resets the trackers and starts at ceil(whitespace / beat duration). No notes iff no time remains then; an empty library with time remaining fails. The loop runs until under half a second is left; with positive delays the notes end in time order. The delays come from `randomValue` as written or corrected, chosen by a parameter |

## Left out

- File and parse I/O: pattern directory loading, song open/save/close, `readFileContents`, preference `load`/`save`/`setupForCLI`/`lookForDirectory` and FileUtilities. The model works on the values these read and write.
- The SongInfo, SongDifficulty and Event JSON field mappings in `SongEditor/Song.cpp`: mechanical glue around the modelled data.
- `indexAfter`: it depends on a binary search that is not part of this model.
- Concurrency (WorkQueue, WaitCondition, the preference singletons' locks), the Qt user interface, SFML audio, both command-line front ends, `handleOptions` and `autoHelp` printing: not sequential data logic.
- Clock and formatting helpers (TimeParts, `intToZeroPaddedString`, `timeValue`, the enum macros). `hexString` is a function parameter of `Escape`, because it streams a character rather than hex digits.
- `rand()`: a multiplier in [0, 1] for the two weighted selections, and an explicit draw with its `RAND_MAX` for `randomValue`. The song loop takes the division as a parameter: `IntegerDivision` is the code as written, and `FloatingDivision` is the corrected form from "## Findings".
- IEEE doubles and C++ integer widths: the model uses `real` and unbounded `int`. The gap statistics use the bpm/60 factor exactly as written, but without rounding.
- `Song::fixBeatDuration`, called by the library generator's constructor: the beat duration is a parameter of the generation loop.
- The preference singleton (`getPatterns`, `getDifficultyDefaults`): the library and the defaults are arguments.
- The difficulty-default field initialisers: `Library/src/beat_patterns/Preferences.h` is not part of this model, so a new entry is a given `blank` value with its difficulty set.
- `toCutDirection(int)`: its body is not part of this model. It is taken as the inverse of `cutDirectionToInt` on 0..8, and Down otherwise.
- Features declared or documented but absent from the code: `patternSnapTo` snapping (the setting is stored, never used), the `maxDuration` filter (the argument is ignored), `duplicateCubes` merging, `compatibleWithSaberLocations`, and saber-aware pattern choice. The trackers are only reset, never applied, although the generator's comment says `pickAndApplyPattern` updates them.
- The fallback to the first eligible pattern after a null selection: with an eligible pattern the selection is never null, so the model only keeps the fall back to the first library pattern.
- Iterator invalidation in the editor's insertion loop (`position++` after `vector::insert`): the model inserts by index, as intended.
- Partially updated objects after a JSON exception: a failed read returns `Err` and no partial value.
- StringMethods.ReplaceAll: takes a `fuel` bound on the number of replacements and returns None when it runs out. The source's loop does not always terminate, which the divergence lemmas show. Its result is described by ReplaceAllResult: the text before the first occurrence is kept, and the last replacement is in place with no occurrence after it. The model does not give the exact text of the result, because the loop rescans its own replacements.
- Generators.GenerateEntireSong: stops with `stalled` when a round would not advance the start beat. That happens only when a pattern places no notes, or when the delays are not positive. The model stops at the first round that does not advance. The source instead draws again on the next pass, and may then advance (a new selection may place notes, or the maximum draw may give a longer delay) or keep spinning.

Behaviours of the code worth knowing:

- `UseWeights::fromJSON` reads a missing weight as 0, although the class default is 500.
- `selectPattern` with a zero total returns the last pattern; it does not fail.
- A pattern has no step tables: each note group is placed one beat after the previous one.
- `replaceAll` resumes its search at the start of the replacement it has just made, so it rescans its own output: replacing "ab" by "a" in "abb" gives "a".

## Findings

| source | as written | input that shows it | evidently intended | confidence | as-written member | corrected member |
|---|---|---|---|---|---|---|
| Library/src/song_editor/Generator.cpp:15 and Library/src/beat_patterns/Generator.cpp:15 | `rand() / RAND_MAX` is integer division, so `randomValue(a, b)` is a except when `rand() == RAND_MAX` | a = 0.05, b = 4.0, any draw with 0 < rand() < RAND_MAX gives 0.05 | a value spread between a and b, with floating division | high, not executed | Generators.RandomValueAsWrittenIgnoresDraw | Generators.RandomValue |
| Library/src/showpage/OptionHandler.cpp:203-231 | the rebuild test compares `optionsCount` with `size()` but stores `size() + 1` | a table of one argument, `getOptions`, add a second argument, `getOptions`: the stale one-entry array comes back | the count compared the way it is stored, so a size change rebuilds | high, not executed | OptionHandler.GetOptionsAsWrittenStale | OptionHandler.GetOptionsCurrent |

=== FILE: beatmap.dfy ===
/**
 * The beatmap data of one difficulty (what a `Normal.dat` holds) and the
 * queries the editor runs over its notes: gap statistics, cut counts and
 * the search for the previous or next note at a distinct time; plus the
 * get-or-create of a song's difficulties and beatmaps.
 *
 * A note's time is in beats. The C++ keeps notes as owned pointers in a
 * vector; here the beatmap holds the note values and a found note is
 * reported by its index.
 */
module Beatmaps {
  import opened Results
  import opened NoteVocabulary
  import opened PointerMaps

  datatype BeatNote = BeatNote(time: real, lineIndex: int, lineLayer: int, noteType: int, cutDirection: int)

  datatype BeatEvent = BeatEvent(time: real, eventType: int, value: int)

  datatype BeatmapData = BeatmapData(version: string, events: seq<BeatEvent>, notes: seq<BeatNote>, hasChanged: bool)

  /** `new SongBeatmapData()` */
  const EmptyBeatmap: BeatmapData := BeatmapData("", [], [], false)

  //======================================================================
  // Gaps
  //======================================================================

  /**
   * The factor both gap statistics multiply a note's beat time by:
   * `bpm / 60`. The C++ names it seconds per beat, but it is beats per
   * second; the model keeps the factor as written.
   */
  function GapFactor(bpm: int): real {
    bpm as real / 60.0
  }

  /** A note's beat time scaled by the gap factor. */
  function ScaledTime(bpm: int, n: BeatNote): real {
    GapFactor(bpm) * n.time
  }

  /**
   * Gap i of the |notes| + 1 gaps the statistics look at: from the previous
   * note (time 0 before the first) to note i, and, for i == |notes|, from
   * the last note to the end of the song.
   */
  function Gap(notes: seq<BeatNote>, songLength: real, bpm: int, i: nat): real
    requires i <= |notes|
  {
    var previous := if i == 0 then 0.0 else ScaledTime(bpm, notes[i - 1]);
    if i < |notes| then ScaledTime(bpm, notes[i]) - previous else songLength - previous
  }

  function Gaps(notes: seq<BeatNote>, songLength: real, bpm: int): (g: seq<real>)
    ensures |g| == |notes| + 1
    ensures forall i :: 0 <= i <= |notes| ==> g[i] == Gap(notes, songLength, bpm, i)
  {
    seq(|notes| + 1, i requires 0 <= i <= |notes| => Gap(notes, songLength, bpm, i))
  }

  /** The largest of 0 and the values of g. */
  function MaxOrZero(g: seq<real>): real {
    if |g| == 0 then 0.0
    else
      var m := MaxOrZero(g[..|g| - 1]);
      if g[|g| - 1] > m then g[|g| - 1] else m
  }

  /** MaxOrZero is an upper bound of 0 and of every value, and is 0 or one of the values. */
  lemma {:induction false} MaxOrZeroIsMaximum(g: seq<real>)
    ensures MaxOrZero(g) >= 0.0
    ensures forall i :: 0 <= i < |g| ==> g[i] <= MaxOrZero(g)
    ensures MaxOrZero(g) == 0.0 || exists i :: 0 <= i < |g| && g[i] == MaxOrZero(g)
  {
    if |g| > 0 {
      var init := g[..|g| - 1];
      MaxOrZeroIsMaximum(init);
      assert forall i :: 0 <= i < |init| ==> g[i] == init[i];
    }
  }

  /** How many values of g exceed the bound. */
  function CountAbove(g: seq<real>, bound: real): (r: nat)
    ensures r <= |g|
  {
    if |g| == 0 then 0
    else CountAbove(g[..|g| - 1], bound) + (if g[|g| - 1] > bound then 1 else 0)
  }

  lemma MaxOrZeroSnoc(g: seq<real>, i: nat)
    requires i < |g|
    ensures MaxOrZero(g[..i + 1]) == if g[i] > MaxOrZero(g[..i]) then g[i] else MaxOrZero(g[..i])
  {
    assert g[..i + 1][..i] == g[..i];
  }

  lemma CountAboveSnoc(g: seq<real>, bound: real, i: nat)
    requires i < |g|
    ensures CountAbove(g[..i + 1], bound) == CountAbove(g[..i], bound) + if g[i] > bound then 1 else 0
  {
    assert g[..i + 1][..i] == g[..i];
  }

  /** `largestGap`: the largest gap, or 0 when every gap is negative or zero. */
  method LargestGap(notes: seq<BeatNote>, songLength: real, bpm: int) returns (r: real)
    ensures r == MaxOrZero(Gaps(notes, songLength, bpm))
    ensures r >= 0.0 && forall i :: 0 <= i <= |notes| ==> Gap(notes, songLength, bpm, i) <= r
    ensures r == 0.0 || exists i :: 0 <= i <= |notes| && Gap(notes, songLength, bpm, i) == r
  {
    var g := Gaps(notes, songLength, bpm);
    r := 0.0;
    var timeOfLastNote := 0.0;
    var i := 0;
    while i < |notes|
      invariant 0 <= i <= |notes|
      invariant timeOfLastNote == if i == 0 then 0.0 else ScaledTime(bpm, notes[i - 1])
      invariant r == MaxOrZero(g[..i])
    {
      var thisTime := ScaledTime(bpm, notes[i]);
      var delta := thisTime - timeOfLastNote;
      assert delta == g[i];
      MaxOrZeroSnoc(g, i);
      if delta > r {
        r := delta;
      }
      timeOfLastNote := thisTime;
      i := i + 1;
    }
    var delta := songLength - timeOfLastNote;
    assert delta == g[|notes|];
    MaxOrZeroSnoc(g, |notes|);
    assert g[..|notes| + 1] == g;
    if delta > r {
      r := delta;
    }
    MaxOrZeroIsMaximum(g);
    if r != 0.0 {
      var j :| 0 <= j < |g| && g[j] == r;
      assert Gap(notes, songLength, bpm, j) == r;
    }
  }

  /** `numberLargeGaps`: how many of the same gaps exceed 5 (seconds, as documented). */
  method NumberLargeGaps(notes: seq<BeatNote>, songLength: real, bpm: int) returns (r: int)
    ensures r == CountAbove(Gaps(notes, songLength, bpm), 5.0)
    ensures 0 <= r <= |notes| + 1
  {
    var g := Gaps(notes, songLength, bpm);
    r := 0;
    var timeOfLastNote := 0.0;
    var i := 0;
    while i < |notes|
      invariant 0 <= i <= |notes|
      invariant timeOfLastNote == if i == 0 then 0.0 else ScaledTime(bpm, notes[i - 1])
      invariant r == CountAbove(g[..i], 5.0)
    {
      var thisTime := ScaledTime(bpm, notes[i]);
      assert thisTime - timeOfLastNote == g[i];
      CountAboveSnoc(g, 5.0, i);
      if thisTime - timeOfLastNote > 5.0 {
        r := r + 1;
      }
      timeOfLastNote := thisTime;
      i := i + 1;
    }
    assert songLength - timeOfLastNote == g[|notes|];
    CountAboveSnoc(g, 5.0, |notes|);
    assert g[..|notes| + 1] == g;
    if songLength - timeOfLastNote > 5.0 {
      r := r + 1;
    }
  }

  /** The largest gap exceeds the bound exactly when at least one gap does. */
  lemma {:induction false} MaxAboveIffSomeAbove(g: seq<real>, bound: real)
    requires bound >= 0.0
    ensures MaxOrZero(g) > bound <==> CountAbove(g, bound) >= 1
  {
    if |g| > 0 {
      var init := g[..|g| - 1];
      MaxAboveIffSomeAbove(init, bound);
      if CountAbove(init, bound) >= 1 {
        assert MaxOrZero(init) <= MaxOrZero(g) by {
          assert forall i :: 0 <= i < |init| ==> init[i] == g[i];
        }
      }
    }
  }

  /** `largestGap(...) > 5` exactly when `numberLargeGaps(...) >= 1`, for the same song. */
  lemma LargestGapIffLargeGaps(notes: seq<BeatNote>, songLength: real, bpm: int)
    ensures MaxOrZero(Gaps(notes, songLength, bpm)) > 5.0 <==> CountAbove(Gaps(notes, songLength, bpm), 5.0) >= 1
  {
    MaxAboveIffSomeAbove(Gaps(notes, songLength, bpm), 5.0);
  }

  //======================================================================
  // Cut counts
  //======================================================================

  function Types(notes: seq<BeatNote>): (r: seq<int>)
    ensures |r| == |notes| && forall i :: 0 <= i < |notes| ==> r[i] == notes[i].noteType
  {
    seq(|notes|, i requires 0 <= i < |notes| => notes[i].noteType)
  }

  function Directions(notes: seq<BeatNote>): (r: seq<int>)
    ensures |r| == |notes| && forall i :: 0 <= i < |notes| ==> r[i] == notes[i].cutDirection
  {
    seq(|notes|, i requires 0 <= i < |notes| => notes[i].cutDirection)
  }

  /** How many codes lie in the wanted set. */
  function CountCodes(codes: seq<int>, wanted: set<int>): (r: nat)
    ensures r <= |codes|
    ensures r == 0 <==> forall i :: 0 <= i < |codes| ==> codes[i] !in wanted
  {
    if |codes| == 0 then 0
    else (if codes[0] in wanted then 1 else 0) + CountCodes(codes[1..], wanted)
  }

  lemma {:induction false} CountCodesIsMultiplicity(codes: seq<int>, x: int)
    ensures CountCodes(codes, {x}) == multiset(codes)[x]
  {
    if |codes| > 0 {
      assert codes == [codes[0]] + codes[1..];
      CountCodesIsMultiplicity(codes[1..], x);
    }
  }

  lemma {:induction false} CountCodesDisjointUnion(codes: seq<int>, a: set<int>, b: set<int>)
    requires a !! b
    ensures CountCodes(codes, a) + CountCodes(codes, b) == CountCodes(codes, a + b)
  {
    if |codes| > 0 {
      CountCodesDisjointUnion(codes[1..], a, b);
    }
  }

  const UpDownCodes: set<int> := {NoteDirectionUp, NoteDirectionDown}
  const LeftRightCodes: set<int> := {NoteDirectionLeft, NoteDirectionRight}
  const DiagonalCodes: set<int> := {NoteDirectionUpLeft, NoteDirectionUpRight, NoteDirectionDownLeft, NoteDirectionDownRight}

  /** `getCutsCount`: the number of notes of the given colour, i.e. its multiplicity among the note types. */
  function GetCutsCount(notes: seq<BeatNote>, c: CubeType): (r: nat)
    ensures r == multiset(Types(notes))[CubeTypeToInt(c)]
    ensures r == 0 <==> forall i :: 0 <= i < |notes| ==> notes[i].noteType != CubeTypeToInt(c)
  {
    CountCodesIsMultiplicity(Types(notes), CubeTypeToInt(c));
    CountCodes(Types(notes), {CubeTypeToInt(c)})
  }

  /** Counting codes in a set of two is counting each of the two. */
  lemma CountCodesPair(codes: seq<int>, a: int, b: int)
    requires a != b
    ensures CountCodes(codes, {a, b}) == multiset(codes)[a] + multiset(codes)[b]
  {
    assert {a, b} == {a} + {b};
    CountCodesDisjointUnion(codes, {a}, {b});
    CountCodesIsMultiplicity(codes, a);
    CountCodesIsMultiplicity(codes, b);
  }

  /** `getUpDownCuts` */
  function GetUpDownCuts(notes: seq<BeatNote>): (r: nat)
    ensures r == multiset(Directions(notes))[NoteDirectionUp] + multiset(Directions(notes))[NoteDirectionDown]
  {
    CountCodesPair(Directions(notes), NoteDirectionUp, NoteDirectionDown);
    CountCodes(Directions(notes), UpDownCodes)
  }

  /** `getLeftRightCuts` */
  function GetLeftRightCuts(notes: seq<BeatNote>): (r: nat)
    ensures r == multiset(Directions(notes))[NoteDirectionLeft] + multiset(Directions(notes))[NoteDirectionRight]
  {
    CountCodesPair(Directions(notes), NoteDirectionLeft, NoteDirectionRight);
    CountCodes(Directions(notes), LeftRightCodes)
  }

  /** `getDiagonalCuts` */
  function GetDiagonalCuts(notes: seq<BeatNote>): (r: nat)
    ensures r == multiset(Directions(notes))[NoteDirectionUpLeft] + multiset(Directions(notes))[NoteDirectionUpRight]
                 + multiset(Directions(notes))[NoteDirectionDownLeft] + multiset(Directions(notes))[NoteDirectionDownRight]
  {
    var d := Directions(notes);
    var upper := {NoteDirectionUpLeft, NoteDirectionUpRight};
    var lower := {NoteDirectionDownLeft, NoteDirectionDownRight};
    CountCodesPair(d, NoteDirectionUpLeft, NoteDirectionUpRight);
    CountCodesPair(d, NoteDirectionDownLeft, NoteDirectionDownRight);
    CountCodesDisjointUnion(d, upper, lower);
    assert upper + lower == DiagonalCodes;
    CountCodes(d, DiagonalCodes)
  }

  /**
   * No note is counted twice: the red and blue counts together, and the
   * three direction counts together with the centre notes (which none of
   * them counts), are at most the number of notes.
   */
  lemma CutCountsBounded(notes: seq<BeatNote>)
    ensures GetCutsCount(notes, Red) + GetCutsCount(notes, Blue) <= |notes|
    ensures GetUpDownCuts(notes) + GetLeftRightCuts(notes) + GetDiagonalCuts(notes)
            + CountCodes(Directions(notes), {NoteDirectionNone}) <= |notes|
  {
    var t := Types(notes);
    CountCodesIsMultiplicity(t, 0);
    CountCodesIsMultiplicity(t, 1);
    CountCodesDisjointUnion(t, {0}, {1});
    var d := Directions(notes);
    CountCodesDisjointUnion(d, UpDownCodes, LeftRightCodes);
    CountCodesDisjointUnion(d, UpDownCodes + LeftRightCodes, DiagonalCodes);
    CountCodesDisjointUnion(d, UpDownCodes + LeftRightCodes + DiagonalCodes, {NoteDirectionNone});
  }

  /** Adding a centre note changes none of the direction counts. */
  lemma CenterNotCounted(notes: seq<BeatNote>, n: BeatNote)
    requires n.cutDirection == NoteDirectionNone
    ensures GetUpDownCuts(notes + [n]) == GetUpDownCuts(notes)
    ensures GetLeftRightCuts(notes + [n]) == GetLeftRightCuts(notes)
    ensures GetDiagonalCuts(notes + [n]) == GetDiagonalCuts(notes)
  {
    assert Directions(notes + [n]) == Directions(notes) + [NoteDirectionNone];
  }

  //======================================================================
  // Neighbour search
  //======================================================================

  /** `getNote`: the note at index, or null when the index is out of range. */
  function GetNote(notes: seq<BeatNote>, index: int): (r: Option<BeatNote>)
    ensures r.Some? <==> 0 <= index < |notes|
    ensures r.Some? ==> r.value == notes[index]
  {
    if 0 <= index < |notes| then Some(notes[index]) else None
  }

  /** Notes closer than this (in beats) count as played together. */
  const DistinctTime: real := 0.1

  /** The search of `getPreviousNote` from j down to 0. */
  function SearchBack(notes: seq<BeatNote>, base: real, j: int): (r: Option<nat>)
    requires j < |notes|
    ensures r.Some? ==> r.value <= j && base - notes[r.value].time > DistinctTime
                        && forall k :: r.value < k <= j ==> base - notes[k].time <= DistinctTime
    ensures r.None? ==> forall k :: 0 <= k <= j ==> base - notes[k].time <= DistinctTime
    decreases j + 1
  {
    if j < 0 then None
    else if base - notes[j].time > DistinctTime then Some(j)
    else SearchBack(notes, base, j - 1)
  }

  /**
   * `getPreviousNote`: null for an index at or before the first note;
   * otherwise the nearest earlier note more than 0.1 beat before it. An
   * index past the end makes `notes.at` throw.
   */
  function GetPreviousNote(notes: seq<BeatNote>, index: int): (r: Result<Option<nat>>)
    ensures index <= 0 ==> r == Ok(None)
    ensures r.Err? <==> index > 0 && index >= |notes|
    ensures r.Ok? && r.value.Some? ==>
              var j := r.value.value;
              j < index && notes[index].time - notes[j].time > DistinctTime
              && forall k :: j < k < index ==> notes[index].time - notes[k].time <= DistinctTime
    ensures r.Ok? && r.value.None? && index > 0 ==>
              forall k :: 0 <= k < index ==> notes[index].time - notes[k].time <= DistinctTime
  {
    if index <= 0 then Ok(None)
    else if index >= |notes| then Err(OutOfRange("vector::at"))
    else Ok(SearchBack(notes, notes[index].time, index - 1))
  }

  /** The search of `getNextNote` from j up to the last note. */
  function SearchForward(notes: seq<BeatNote>, compareTo: real, j: nat): (r: Option<nat>)
    ensures r.Some? ==> j <= r.value < |notes| && notes[r.value].time - compareTo > DistinctTime
                        && forall k :: j <= k < r.value ==> notes[k].time - compareTo <= DistinctTime
    ensures r.None? ==> forall k :: j <= k < |notes| ==> notes[k].time - compareTo <= DistinctTime
    decreases |notes| - j
  {
    if j >= |notes| then None
    else if notes[j].time - compareTo > DistinctTime then Some(j)
    else SearchForward(notes, compareTo, j + 1)
  }

  /**
   * `getNextNote`: a negative index searches from the start against time
   * 0; an index at or past the end finds nothing; otherwise the nearest
   * later note more than 0.1 beat after the note at index.
   */
  function GetNextNote(notes: seq<BeatNote>, index: int): (r: Option<nat>)
    ensures index >= |notes| ==> r == None
    ensures r.Some? ==>
              var from := if index < 0 then -1 else index;
              var compareTo := if index < 0 then 0.0 else notes[index].time;
              from < r.value < |notes| && notes[r.value].time - compareTo > DistinctTime
              && forall k :: from < k < r.value ==> notes[k].time - compareTo <= DistinctTime
    ensures r.None? && index < |notes| ==>
              var from := if index < 0 then -1 else index;
              var compareTo := if index < 0 then 0.0 else notes[index].time;
              forall k :: from < k < |notes| ==> notes[k].time - compareTo <= DistinctTime
  {
    var from := if index < 0 then -1 else index;
    if from >= 0 && from >= |notes| then None
    else
      var compareTo := if from >= 0 then notes[from].time else 0.0;
      SearchForward(notes, compareTo, from + 1)
  }

  //======================================================================
  // Difficulties and beatmaps of a song
  //======================================================================

  datatype SongDifficulty = SongDifficulty(
    difficulty: LevelDifficulty,
    difficultyRank: int,
    beatmapFilename: string,
    noteJumpMovementSpeed: int,
    noteJumpStartBeatOffset: int)

  datatype SongDifficultySet = SongDifficultySet(beatmapCharacteristicName: string, difficulties: seq<SongDifficulty>)

  /** `new SongDifficultySet()` */
  const NewDifficultySet: SongDifficultySet := SongDifficultySet("Standard", [])

  /** The file a new difficulty's beatmap goes to, e.g. "Expert.dat". */
  function BeatmapFilename(d: LevelDifficulty): (r: string)
    ensures |r| > 4 && r[|r| - 4..] == ".dat"
    ensures ToLevelDifficulty(r[..|r| - 4]) == d
  {
    var name := LevelDifficultyToString(d);
    assert |name| > 0 by { assert name in LevelDifficultyNames; }
    assert (name + ".dat")[..|name|] == name;
    name + ".dat"
  }

  /** `createDifficulty`'s new entry: the class defaults plus the difficulty and its file name. */
  function NewSongDifficulty(d: LevelDifficulty): SongDifficulty {
    SongDifficulty(d, 3, BeatmapFilename(d), 10, 0)
  }

  function LevelOfDifficulty(sd: SongDifficulty): LevelDifficulty {
    sd.difficulty
  }

  /** The first entry of difficulties with this level, if any. */
  function FindDifficulty(ds: seq<SongDifficulty>, d: LevelDifficulty): (r: Option<nat>)
    ensures r.Some? ==> r.value < |ds| && ds[r.value].difficulty == d
                        && forall k :: 0 <= k < r.value ==> ds[k].difficulty != d
    ensures r.None? ==> forall k :: 0 <= k < |ds| ==> ds[k].difficulty != d
  {
    FirstLevel(LevelsOf(ds, LevelOfDifficulty), d)
  }

  /** `getDifficulty`: searches only the first difficulty set; null when there is none. */
  function GetDifficulty(sets: seq<SongDifficultySet>, d: LevelDifficulty): (r: Option<nat>)
    ensures |sets| == 0 ==> r == None
    ensures |sets| > 0 ==> r == FindDifficulty(sets[0].difficulties, d)
  {
    if |sets| > 0 then FindDifficulty(sets[0].difficulties, d) else None
  }

  datatype Created = Created(sets: seq<SongDifficultySet>, index: nat)

  /**
   * `createDifficulty`: makes sure a first set exists, returns the entry
   * for the level if there is one, and otherwise appends a new entry to
   * the first set.
   */
  function CreateDifficulty(sets: seq<SongDifficultySet>, d: LevelDifficulty): (r: Created)
    ensures |r.sets| >= 1 && |r.sets| == if |sets| == 0 then 1 else |sets|
    ensures GetDifficulty(r.sets, d) == Some(r.index)
    ensures r.sets[1..] == if |sets| == 0 then [] else sets[1..]
    ensures GetDifficulty(sets, d).Some? ==> r.sets == sets
    ensures GetDifficulty(sets, d).None? ==>
              var first := if |sets| == 0 then NewDifficultySet else sets[0];
              r.sets[0] == first.(difficulties := first.difficulties + [NewSongDifficulty(d)])
              && r.index == |first.difficulties|
  {
    var sets1 := if |sets| == 0 then [NewDifficultySet] else sets;
    match GetDifficulty(sets1, d)
    case Some(i) => Created(sets1, i)
    case None =>
      var first := sets1[0];
      var ds := first.difficulties + [NewSongDifficulty(d)];
      assert FindDifficulty(ds, d) == Some(|first.difficulties|) by {
        assert ds[|first.difficulties|].difficulty == d;
      }
      Created(sets1[0 := first.(difficulties := ds)], |first.difficulties|)
  }

  /** Creating a difficulty twice creates it once: the second call finds the first one's entry. */
  lemma {:induction false} CreateDifficultyIdempotent(sets: seq<SongDifficultySet>, d: LevelDifficulty)
    ensures CreateDifficulty(CreateDifficulty(sets, d).sets, d) == CreateDifficulty(sets, d)
  {
    var r := CreateDifficulty(sets, d);
    assert GetDifficulty(r.sets, d) == Some(r.index);
  }

  datatype Fetched = Fetched(beatmaps: PointerMap<string, BeatmapData>, data: Option<BeatmapData>)

  /** `getBeatmap`: the stored beatmap for the file, or a new empty one stored under its name. */
  function GetBeatmap(beatmaps: PointerMap<string, BeatmapData>, filename: string): (r: Fetched)
    ensures Contains(r.beatmaps, filename) && Get(r.beatmaps, filename) == r.data
    ensures Contains(beatmaps, filename) ==> r.beatmaps == beatmaps
    ensures !Contains(beatmaps, filename) ==> r.data == Some(EmptyBeatmap)
    ensures forall f :: f != filename ==> Get(r.beatmaps, f) == Get(beatmaps, f) && (Contains(r.beatmaps, f) <==> Contains(beatmaps, f))
  {
    if filename in beatmaps then Fetched(beatmaps, beatmaps[filename])
    else Fetched(Put(beatmaps, filename, EmptyBeatmap), Some(EmptyBeatmap))
  }
}

=== FILE: generator.dfy ===
/**
 * The beatmap generator, in its two variants: the song editor's, which
 * inserts each pattern's notes at an index, and the pattern library's,
 * which appends them and takes its delays from the difficulty defaults.
 *
 * `rand()` is a parameter throughout: a selection multiplier in [0, 1]
 * for choosing a pattern and a starting cell, and a raw draw in
 * 0..RAND_MAX for the delay between patterns. Beat times, durations and
 * delays are reals; `std::ceil` is written with `Floor`.
 */
module Generators {
  import opened Results
  import opened NoteVocabulary
  import opened Patterns
  import opened Beatmaps
  import opened SaberLocations
  import opened Preferences

  //======================================================================
  // Settings
  //======================================================================

  /** The tunables of a generator; the getters of the C++ are the field reads. */
  datatype Settings = Settings(
    patternSnapTo: int,
    minimumInitialWhitespace: real,
    minimumDelayBetweenPatterns: real,
    maximumDelayBetweenPatterns: real)

  /** The member initialisers. */
  const DefaultSettings: Settings := Settings(1, 4.0, 0.05, 4.0)

  function SetPatternSnapTo(s: Settings, value: int): (r: Settings)
    ensures r.patternSnapTo == value
    ensures r.minimumInitialWhitespace == s.minimumInitialWhitespace
    ensures r.minimumDelayBetweenPatterns == s.minimumDelayBetweenPatterns
    ensures r.maximumDelayBetweenPatterns == s.maximumDelayBetweenPatterns
  {
    s.(patternSnapTo := value)
  }

  function SetMinimumInitialWhitespace(s: Settings, value: real): (r: Settings)
    ensures r.minimumInitialWhitespace == value
    ensures r.patternSnapTo == s.patternSnapTo
    ensures r.minimumDelayBetweenPatterns == s.minimumDelayBetweenPatterns
    ensures r.maximumDelayBetweenPatterns == s.maximumDelayBetweenPatterns
  {
    s.(minimumInitialWhitespace := value)
  }

  function SetMinimumDelayBetweenPatterns(s: Settings, value: real): (r: Settings)
    ensures r.minimumDelayBetweenPatterns == value
    ensures r.patternSnapTo == s.patternSnapTo
    ensures r.minimumInitialWhitespace == s.minimumInitialWhitespace
    ensures r.maximumDelayBetweenPatterns == s.maximumDelayBetweenPatterns
  {
    s.(minimumDelayBetweenPatterns := value)
  }

  function SetMaximumDelayBetweenPatterns(s: Settings, value: real): (r: Settings)
    ensures r.maximumDelayBetweenPatterns == value
    ensures r.patternSnapTo == s.patternSnapTo
    ensures r.minimumInitialWhitespace == s.minimumInitialWhitespace
    ensures r.minimumDelayBetweenPatterns == s.minimumDelayBetweenPatterns
  {
    s.(maximumDelayBetweenPatterns := value)
  }

  /** Setting every field, in either order, gives the same settings whatever they were before. */
  lemma SettersOverwrite(s: Settings, t: Settings, snap: int, whitespace: real, minimumDelay: real, maximumDelay: real)
    ensures SetMaximumDelayBetweenPatterns(SetMinimumDelayBetweenPatterns(SetMinimumInitialWhitespace(SetPatternSnapTo(s, snap), whitespace), minimumDelay), maximumDelay)
            == SetPatternSnapTo(SetMinimumInitialWhitespace(SetMinimumDelayBetweenPatterns(SetMaximumDelayBetweenPatterns(t, maximumDelay), minimumDelay), whitespace), snap)
  {
  }

  /** The settings take the delays and whitespace of this entry. */
  predicate CopiesDefaults(s: Settings, dd: DifficultyDefaults) {
    s.minimumInitialWhitespace == dd.minimumInitialWhitespace
    && s.minimumDelayBetweenPatterns == dd.minimumDelayBetweenPatterns
    && s.maximumDelayBetweenPatterns == dd.maximumDelayBetweenPatterns
  }

  datatype Constructed = Constructed(settings: Settings, defaults: seq<DifficultyDefaults>)

  /**
   * The pattern library's constructor: the whitespace and delays come from
   * the preferences' entry for the song's difficulty, else the entry for
   * All, else a new entry (with the values `blank` holds) that is added to
   * the preferences.
   */
  function ConstructLibraryGenerator(defaults: seq<DifficultyDefaults>, d: LevelDifficulty, blank: DifficultyDefaults): (r: Constructed)
    ensures r.settings.patternSnapTo == DefaultSettings.patternSnapTo
    ensures FirstLevel(Levels(defaults), d).Some? ==>
              r.defaults == defaults && CopiesDefaults(r.settings, defaults[FirstLevel(Levels(defaults), d).value])
    ensures FirstLevel(Levels(defaults), d).None? && FirstLevel(Levels(defaults), All).Some? ==>
              r.defaults == defaults && CopiesDefaults(r.settings, defaults[FirstLevel(Levels(defaults), All).value])
    ensures FirstLevel(Levels(defaults), d).None? && FirstLevel(Levels(defaults), All).None? ==>
              r.defaults == defaults + [blank.(difficulty := d)] && CopiesDefaults(r.settings, blank)
  {
    var built := GetOrBuild(defaults, d, blank);
    var dd := built.defaults[built.index];
    Constructed(DefaultSettings.(minimumInitialWhitespace := dd.minimumInitialWhitespace,
                                 minimumDelayBetweenPatterns := dd.minimumDelayBetweenPatterns,
                                 maximumDelayBetweenPatterns := dd.maximumDelayBetweenPatterns),
                built.defaults)
  }

  //======================================================================
  // Rounding and the random delay
  //======================================================================

  /** `std::ceil` */
  function Ceil(x: real): (r: int)
    ensures r as real - 1.0 < x <= r as real
  {
    -((-x).Floor)
  }

  /** `rand() / RAND_MAX` on integers in range is 1 at RAND_MAX and 0 below it. */
  lemma DivFraction(draw: int, randMax: int)
    requires randMax > 0 && 0 <= draw <= randMax
    ensures draw / randMax == if draw == randMax then 1 else 0
  {
  }

  lemma MulNonnegative(x: real, y: real)
    requires x >= 0.0 && y >= 0.0
    ensures x * y >= 0.0
  {
  }

  /** `randomValue` as written: `rand() / RAND_MAX` divides integers, so the draw only ever picks an endpoint. */
  function RandomValueAsWritten(a: real, b: real, draw: int, randMax: int): (r: real)
    requires randMax > 0 && 0 <= draw <= randMax
    ensures r == if draw == randMax then b else a
  {
    DivFraction(draw, randMax);
    var random := (draw / randMax) as real;
    a + random * (b - a)
  }

  /** A fraction of a difference lies between 0 and that difference. */
  lemma ScaleWithin(f: real, diff: real)
    requires 0.0 <= f <= 1.0
    ensures diff >= 0.0 ==> 0.0 <= f * diff <= diff
    ensures diff <= 0.0 ==> diff <= f * diff <= 0.0
  {
    if diff >= 0.0 {
      MulNonnegative(f, diff);
      MulNonnegative(1.0 - f, diff);
      assert (1.0 - f) * diff == diff - f * diff;
    } else {
      MulNonnegative(f, -diff);
      MulNonnegative(1.0 - f, -diff);
      assert (1.0 - f) * (-diff) == f * diff - diff;
      assert f * (-diff) == -(f * diff);
    }
  }

  /** `randomValue` with the division done in floating point: a value between the two endpoints. */
  function RandomValue(a: real, b: real, draw: int, randMax: int): (r: real)
    requires randMax > 0 && 0 <= draw <= randMax
    ensures draw == 0 ==> r == a
    ensures draw == randMax ==> r == b
    ensures a <= b ==> a <= r <= b
    ensures b <= a ==> b <= r <= a
  {
    var random := draw as real / randMax as real;
    assert 0.0 <= random <= 1.0;
    ScaleWithin(random, b - a);
    a + random * (b - a)
  }

  /**
   * Every draw below RAND_MAX gives the minimum as written, while the
   * floating-point division moves strictly above it for any positive draw.
   */
  lemma RandomValueAsWrittenIgnoresDraw(a: real, b: real, draw: int, randMax: int)
    requires randMax > 0 && 0 < draw < randMax && a < b
    ensures RandomValueAsWritten(a, b, draw, randMax) == a
    ensures a < RandomValue(a, b, draw, randMax) < b
  {
    var random := draw as real / randMax as real;
    assert 0.0 < random < 1.0;
    assert random * (b - a) > 0.0;
    assert (1.0 - random) * (b - a) > 0.0;
  }

  /**
   * Which `randomValue` the song loop draws its delays from: the one as
   * written, dividing integers, or the corrected one, dividing in floating
   * point.
   */
  datatype Division = IntegerDivision | FloatingDivision

  /** The delay between two patterns for a draw. */
  function Delay(division: Division, a: real, b: real, draw: int, randMax: int): (r: real)
    requires randMax > 0 && 0 <= draw <= randMax
    ensures division == IntegerDivision ==> r == if draw == randMax then b else a
    ensures draw == 0 ==> r == a
    ensures draw == randMax ==> r == b
    ensures a <= b ==> a <= r <= b
    ensures b <= a ==> b <= r <= a
  {
    match division
    case IntegerDivision => RandomValueAsWritten(a, b, draw, randMax)
    case FloatingDivision => RandomValue(a, b, draw, randMax)
  }

  /**
   * The two divisions move the song on differently: with delays of 0.05
   * to 4 seconds, RAND_MAX 2, a draw of 1, a last note on beat 8 and half
   * a second per beat, the next pattern starts on beat 9 as written and on
   * beat 13 when corrected.
   */
  lemma DivisionsPlaceDifferently()
    ensures Delay(IntegerDivision, 0.05, 4.0, 1, 2) == 0.05
    ensures Delay(FloatingDivision, 0.05, 4.0, 1, 2) == 2.025
    ensures NextBeat(8.0, Delay(IntegerDivision, 0.05, 4.0, 1, 2), 0.5) == 9
    ensures NextBeat(8.0, Delay(FloatingDivision, 0.05, 4.0, 1, 2), 0.5) == 13
  {
    assert (8.0 * 0.5 + 0.05) / 0.5 == 8.1;
    assert (8.0 * 0.5 + 2.025) / 0.5 == 12.05;
  }

  //======================================================================
  // Choosing a pattern
  //======================================================================

  /** The library indices from n on whose weight at the level is positive, in order. */
  function EligibleFrom(lib: Library, d: LevelDifficulty, n: nat): (r: seq<nat>)
    ensures forall i :: 0 <= i < |r| ==> n <= r[i] < |lib| && GetWeight(lib[r[i]], d) > 0
    decreases |lib| - n
  {
    if n >= |lib| then []
    else (if GetWeight(lib[n], d) > 0 then [n] else []) + EligibleFrom(lib, d, n + 1)
  }

  predicate Increasing(r: seq<nat>) {
    forall i, j :: 0 <= i < j < |r| ==> r[i] < r[j]
  }

  /** The eligible indices keep library order. */
  lemma {:induction false} EligibleFromIncreasing(lib: Library, d: LevelDifficulty, n: nat)
    ensures Increasing(EligibleFrom(lib, d, n))
    decreases |lib| - n
  {
    if n < |lib| {
      EligibleFromIncreasing(lib, d, n + 1);
      var rest := EligibleFrom(lib, d, n + 1);
      var r := EligibleFrom(lib, d, n);
      if GetWeight(lib[n], d) > 0 {
        assert r == [n] + rest;
        forall i, j | 0 <= i < j < |r|
          ensures r[i] < r[j]
        {
          assert r[j] == rest[j - 1] && n + 1 <= rest[j - 1];
          if 0 < i {
            assert r[i] == rest[i - 1];
          }
        }
      } else {
        assert r == rest;
      }
    }
  }

  /** Nothing usable from n on is left out. */
  lemma {:induction false} EligibleFromComplete(lib: Library, d: LevelDifficulty, n: nat)
    ensures forall k :: n <= k < |lib| && GetWeight(lib[k], d) > 0 ==> k in EligibleFrom(lib, d, n)
    decreases |lib| - n
  {
    if n < |lib| {
      EligibleFromComplete(lib, d, n + 1);
      var rest := EligibleFrom(lib, d, n + 1);
      var r := EligibleFrom(lib, d, n);
      if GetWeight(lib[n], d) > 0 {
        assert r == [n] + rest;
      } else {
        assert r == rest;
      }
      assert forall k :: k in rest ==> k in r;
    }
  }

  /** `possiblePatterns`: the patterns with a positive weight; the duration is not used. */
  function PossiblePatterns(lib: Library, d: LevelDifficulty): (r: seq<nat>)
    ensures forall i :: 0 <= i < |r| ==> r[i] < |lib| && GetWeight(lib[r[i]], d) > 0
  {
    EligibleFrom(lib, d, 0)
  }

  /** Every pattern with a positive weight is possible, in library order. */
  lemma PossiblePatternsExact(lib: Library, d: LevelDifficulty)
    ensures Increasing(PossiblePatterns(lib, d))
    ensures forall k :: 0 <= k < |lib| ==> (k in PossiblePatterns(lib, d) <==> GetWeight(lib[k], d) > 0)
  {
    var r := PossiblePatterns(lib, d);
    EligibleFromIncreasing(lib, d, 0);
    EligibleFromComplete(lib, d, 0);
    forall k | 0 <= k < |lib| && k in r
      ensures GetWeight(lib[k], d) > 0
    {
      var i :| 0 <= i < |r| && r[i] == k;
    }
  }

  function Gather(lib: Library, indices: seq<nat>): (r: seq<Pattern>)
    requires forall i :: 0 <= i < |indices| ==> indices[i] < |lib|
    ensures |r| == |indices| && forall i :: 0 <= i < |indices| ==> r[i] == lib[indices[i]]
  {
    seq(|indices|, i requires 0 <= i < |indices| => lib[indices[i]])
  }

  /**
   * The pattern `pickAndApplyPattern` uses: the one selection picks among
   * the eligible patterns, else the first library pattern (which throws
   * for an empty library). The C++ also falls back to the first eligible
   * pattern, but selection only returns null when there is none.
   */
  function ChoosePattern(lib: Library, d: LevelDifficulty, m: real): (r: Result<nat>)
    ensures r.Err? <==> |lib| == 0
    ensures r.Ok? ==> r.value < |lib|
    ensures |PossiblePatterns(lib, d)| > 0 ==> r.Ok? && r.value in PossiblePatterns(lib, d) && GetWeight(lib[r.value], d) > 0
    ensures |PossiblePatterns(lib, d)| == 0 && |lib| > 0 ==> r == Ok(0)
    ensures var eligible := PossiblePatterns(lib, d);
            |eligible| > 0 ==> r == Ok(eligible[SelectPattern(Gather(lib, eligible), d, m).value])
  {
    var eligible := PossiblePatterns(lib, d);
    var selected := SelectPattern(Gather(lib, eligible), d, m);
    if selected.Some? then Ok(eligible[selected.value])
    else if |lib| > 0 then Ok(0)
    else Err(OutOfRange("vector::at"))
  }

  /** When every pattern from n on is used at the level, all of them are eligible, in order. */
  lemma {:induction false} EveryoneEligible(lib: Library, d: LevelDifficulty, n: nat)
    requires n <= |lib|
    requires forall k :: n <= k < |lib| ==> GetWeight(lib[k], d) > 0
    ensures |EligibleFrom(lib, d, n)| == |lib| - n
    ensures forall i :: 0 <= i < |lib| - n ==> EligibleFrom(lib, d, n)[i] == n + i
    decreases |lib| - n
  {
    if n < |lib| {
      EveryoneEligible(lib, d, n + 1);
      assert EligibleFrom(lib, d, n) == [n] + EligibleFrom(lib, d, n + 1);
    }
  }

  /**
   * With every pattern in use, choosing among the eligible patterns is the
   * same as selecting over the whole library.
   */
  lemma ChooseAmongAll(lib: Library, d: LevelDifficulty, m: real)
    requires |lib| > 0
    requires forall k :: 0 <= k < |lib| ==> GetWeight(lib[k], d) > 0
    ensures SelectPattern(lib, d, m).Some?
    ensures ChoosePattern(lib, d, m) == Ok(SelectPattern(lib, d, m).value)
  {
    GatherEveryone(lib, d);
    var selected := SelectPattern(lib, d, m);
    assert PossiblePatterns(lib, d)[selected.value] == selected.value;
  }

  lemma GatherEveryone(lib: Library, d: LevelDifficulty)
    requires forall k :: 0 <= k < |lib| ==> GetWeight(lib[k], d) > 0
    ensures |PossiblePatterns(lib, d)| == |lib|
    ensures forall i :: 0 <= i < |lib| ==> PossiblePatterns(lib, d)[i] == i
    ensures Gather(lib, PossiblePatterns(lib, d)) == lib
  {
    EveryoneEligible(lib, d, 0);
    var gathered := Gather(lib, PossiblePatterns(lib, d));
    assert forall i :: 0 <= i < |lib| ==> gathered[i] == lib[i];
  }

  /** Whatever the multiplier, a pattern that is never used at the level is never chosen unless nothing else is. */
  lemma NeverUsedNeverChosen(lib: Library, d: LevelDifficulty, m: real, k: nat)
    requires k < |lib| && GetWeight(lib[k], d) <= 0
    requires exists j :: 0 <= j < |lib| && GetWeight(lib[j], d) > 0
    ensures ChoosePattern(lib, d, m) != Ok(k)
  {
    var j :| 0 <= j < |lib| && GetWeight(lib[j], d) > 0;
    PossiblePatternsExact(lib, d);
    assert j in PossiblePatterns(lib, d);
  }

  //======================================================================
  // Placing a pattern's notes
  //======================================================================

  /** A pattern note placed in the grid from a starting cell, at a beat. */
  function PlacedNote(n: Note, beat: real, layer: int, index: int): (r: BeatNote)
    ensures r.time == beat
    ensures r.lineIndex - index == n.relativeX && r.lineLayer - layer == n.relativeY
    ensures ToCutDirectionCode(r.cutDirection) == n.cutDirection
    ensures r.noteType == CubeTypeToInt(n.cubeType)
  {
    BeatNote(beat, index + n.relativeX, layer + n.relativeY, CubeTypeToInt(n.cubeType), CutDirectionToInt(n.cutDirection))
  }

  function PlaceGroup(s: NoteSet, beat: real, layer: int, index: int): (r: seq<BeatNote>)
    ensures |r| == |s| && forall i :: 0 <= i < |s| ==> r[i] == PlacedNote(s[i], beat, layer, index)
  {
    seq(|s|, i requires 0 <= i < |s| => PlacedNote(s[i], beat, layer, index))
  }

  /** How many notes a sequence of groups holds. */
  function NoteCount(ns: NoteSequence): nat {
    if |ns| == 0 then 0 else |ns[0]| + NoteCount(ns[1..])
  }

  /** Where group k's notes begin once the groups are laid end to end. */
  function GroupOffset(ns: NoteSequence, k: nat): nat
    requires k <= |ns|
  {
    if k == 0 then 0 else |ns[0]| + GroupOffset(ns[1..], k - 1)
  }

  /**
   * The placement loops: group k's notes, in order, at beat `beat + k`;
   * no note is clamped to the grid.
   */
  function PlaceNotes(ns: NoteSequence, beat: real, layer: int, index: int): (r: seq<BeatNote>)
    ensures |r| == NoteCount(ns)
  {
    if |ns| == 0 then []
    else PlaceGroup(ns[0], beat, layer, index) + PlaceNotes(ns[1..], beat + 1.0, layer, index)
  }

  /** Note times never go back. */
  predicate NotesSorted(notes: seq<BeatNote>) {
    forall i, j :: 0 <= i <= j < |notes| ==> notes[i].time <= notes[j].time
  }

  /** Each note is no earlier than the one before it. */
  predicate Chronological(notes: seq<BeatNote>)
    decreases |notes|
  {
    |notes| <= 1 || (notes[0].time <= notes[1].time && Chronological(notes[1..]))
  }

  /** Neighbours in order is the same as every pair in order. */
  lemma {:induction false} ChronologicalIsSorted(notes: seq<BeatNote>)
    ensures Chronological(notes) <==> NotesSorted(notes)
    decreases |notes|
  {
    if |notes| > 1 {
      var rest := notes[1..];
      ChronologicalIsSorted(rest);
      if Chronological(notes) {
        forall i, j | 0 <= i <= j < |notes|
          ensures notes[i].time <= notes[j].time
        {
          if 0 < i {
            assert notes[i] == rest[i - 1] && notes[j] == rest[j - 1];
          } else if 0 < j {
            assert notes[1] == rest[0] && notes[j] == rest[j - 1];
          }
        }
      }
      if NotesSorted(notes) {
        assert forall i, j :: 0 <= i <= j < |rest| ==> rest[i] == notes[i + 1] && rest[j] == notes[j + 1];
        assert NotesSorted(rest);
      }
    }
  }

  /** Every note falls between two beats. */
  predicate NotesWithin(notes: seq<BeatNote>, lo: real, hi: real) {
    forall i :: 0 <= i < |notes| ==> lo <= notes[i].time <= hi
  }

  /** The placed notes start at the beat, end at `beat + |ns| - 1`, and never go back in time. */
  lemma {:induction false} PlacedInOrder(ns: NoteSequence, beat: real, layer: int, index: int)
    ensures NotesWithin(PlaceNotes(ns, beat, layer, index), beat, beat + |ns| as real - 1.0)
    ensures NotesSorted(PlaceNotes(ns, beat, layer, index))
  {
    if |ns| > 0 {
      var r := PlaceNotes(ns, beat, layer, index);
      var head := PlaceGroup(ns[0], beat, layer, index);
      var tail := PlaceNotes(ns[1..], beat + 1.0, layer, index);
      PlacedInOrder(ns[1..], beat + 1.0, layer, index);
      assert r == head + tail;
      assert NotesWithin(tail, beat + 1.0, beat + |ns| as real - 1.0);
      assert NotesWithin(head, beat, beat);
      forall i | 0 <= i < |r|
        ensures beat <= r[i].time <= beat + |ns| as real - 1.0
      {
        if i < |head| { assert r[i] == head[i]; } else { assert r[i] == tail[i - |head|]; }
      }
      forall i, j | 0 <= i <= j < |r|
        ensures r[i].time <= r[j].time
      {
        if i < |head| { assert r[i] == head[i]; } else { assert r[i] == tail[i - |head|]; }
        if j < |head| { assert r[j] == head[j]; } else { assert r[j] == tail[j - |head|]; }
      }
    }
  }

  /** Note j of group k lands at position offset(k) + j, placed at beat `beat + k`. */
  lemma {:induction false} PlacedAt(ns: NoteSequence, beat: real, layer: int, index: int, k: nat, j: nat)
    requires k < |ns| && j < |ns[k]|
    ensures GroupOffset(ns, k) + j < |PlaceNotes(ns, beat, layer, index)|
    ensures PlaceNotes(ns, beat, layer, index)[GroupOffset(ns, k) + j] == PlacedNote(ns[k][j], beat + k as real, layer, index)
  {
    if k > 0 {
      PlacedAt(ns[1..], beat + 1.0, layer, index, k - 1, j);
      assert ns[1..][k - 1] == ns[k];
    }
  }

  //======================================================================
  // pickAndApplyPattern
  //======================================================================

  datatype Picked = Picked(lib: Library, chosen: nat, pattern: Pattern, layer: int, index: int, placed: seq<BeatNote>)

  /**
   * The pattern to place: `getTransformation` is consulted only when the
   * chosen pattern links to a source; otherwise the pattern is used as is.
   */
  function ResolveChosen(lib: Library, i: nat): (r: Resolution)
    requires i < |lib| && LinksValid(lib)
    ensures SameDefinitions(lib, r.lib) && LinksValid(r.lib)
    ensures IsPlain(lib[i]) ==> r == Resolution(lib, lib[i])
    ensures !IsPlain(lib[i]) ==> r.pattern.startingLocations == [] && r.lib[i].transformedPattern.Some?
                                 && r.pattern.noteSequence == r.lib[i].transformedPattern.value
  {
    if IsTransformation(lib[i]) then GetTransformation(lib, i) else Resolution(lib, lib[i])
  }

  /**
   * The part both variants share: choose, resolve, find the starting cell
   * from (0, 2), and place the notes.
   */
  function PickAndPlace(lib: Library, d: LevelDifficulty, beat: real, mSelect: real, mStart: real): (r: Result<Picked>)
    requires LinksValid(lib)
    ensures r.Err? <==> |lib| == 0
    ensures r.Ok? ==> r.value.chosen == ChoosePattern(lib, d, mSelect).value && r.value.chosen < |lib|
    ensures r.Ok? ==> var res := ResolveChosen(lib, r.value.chosen);
                      r.value.lib == res.lib && r.value.pattern == res.pattern
    ensures r.Ok? && !IsPlain(lib[r.value.chosen]) ==> r.value.layer == 0 && r.value.index == 2
    ensures r.Ok? && IsPlain(lib[r.value.chosen]) ==>
              (r.value.layer, r.value.index) == GetStartingLocation(lib[r.value.chosen].startingLocations, mStart, 0, 2)
    ensures r.Ok? ==> r.value.placed == PlaceNotes(r.value.pattern.noteSequence, beat, r.value.layer, r.value.index)
  {
    if |lib| == 0 then Err(OutOfRange("vector::at")) else
    var chosen := ChoosePattern(lib, d, mSelect).value;
    var res := ResolveChosen(lib, chosen);
    var start := GetStartingLocation(res.pattern.startingLocations, mStart, 0, 2);
    Ok(Picked(res.lib, chosen, res.pattern, start.0, start.1,
              PlaceNotes(res.pattern.noteSequence, beat, start.0, start.1)))
  }

  /** A picked pattern's notes start at the beat and never go back in time. */
  lemma PickPlacesInOrder(lib: Library, d: LevelDifficulty, beat: real, mSelect: real, mStart: real)
    requires LinksValid(lib)
    ensures var pick := PickAndPlace(lib, d, beat, mSelect, mStart);
            pick.Ok? ==> AtOrAfter(pick.value.placed, beat) && NotesSorted(pick.value.placed)
  {
    var pick := PickAndPlace(lib, d, beat, mSelect, mStart);
    if pick.Ok? {
      PlacedInOrder(pick.value.pattern.noteSequence, beat, pick.value.layer, pick.value.index);
      AtOrAfterMeans(pick.value.placed, beat);
    }
  }

  datatype Applied = Applied(lib: Library, notes: seq<BeatNote>, placed: seq<BeatNote>, result: int)

  /**
   * The song editor's `pickAndApplyPattern`: the notes go in consecutively
   * at atIndex, the notes around them keep their order, and the index of
   * the last note placed is returned.
   */
  function PickAndApplyInsert(lib: Library, d: LevelDifficulty, notes: seq<BeatNote>, atIndex: int,
                              beat: real, mSelect: real, mStart: real): (r: Result<Applied>)
    requires LinksValid(lib) && 0 <= atIndex <= |notes|
    ensures r.Err? <==> |lib| == 0
    ensures r.Ok? ==> PickAndPlace(lib, d, beat, mSelect, mStart).Ok?
                      && PickAndPlace(lib, d, beat, mSelect, mStart).value.lib == r.value.lib
                      && PickAndPlace(lib, d, beat, mSelect, mStart).value.placed == r.value.placed
    ensures r.Ok? ==> |r.value.notes| == |notes| + |r.value.placed|
    ensures r.Ok? ==> r.value.notes[..atIndex] == notes[..atIndex]
                      && r.value.notes[atIndex..atIndex + |r.value.placed|] == r.value.placed
                      && r.value.notes[atIndex + |r.value.placed|..] == notes[atIndex..]
    ensures r.Ok? ==> r.value.result == atIndex + |r.value.placed| - 1
  {
    var pick := PickAndPlace(lib, d, beat, mSelect, mStart);
    if pick.Err? then Err(pick.error) else
    var placed := pick.value.placed;
    Ok(Applied(pick.value.lib, InsertAt(notes, atIndex, placed), placed, atIndex + |placed| - 1))
  }

  /** `insert` at an index, one note after another: the new notes sit consecutively from that index. */
  function InsertAt(notes: seq<BeatNote>, atIndex: nat, placed: seq<BeatNote>): (r: seq<BeatNote>)
    requires atIndex <= |notes|
    ensures |r| == |notes| + |placed|
    ensures r[..atIndex] == notes[..atIndex]
    ensures r[atIndex..atIndex + |placed|] == placed
    ensures r[atIndex + |placed|..] == notes[atIndex..]
  {
    var r := notes[..atIndex] + placed + notes[atIndex..];
    assert r[atIndex..atIndex + |placed|] == placed;
    assert r[atIndex + |placed|..] == notes[atIndex..];
    r
  }

  /** The pattern library's `pickAndApplyPattern` with atIndex -1: every note appended, -2 returned. */
  function PickAndApplyAppend(lib: Library, d: LevelDifficulty, notes: seq<BeatNote>,
                              beat: real, mSelect: real, mStart: real): (r: Result<Applied>)
    requires LinksValid(lib)
    ensures r.Err? <==> |lib| == 0
    ensures r.Ok? ==> PickAndPlace(lib, d, beat, mSelect, mStart).Ok?
                      && PickAndPlace(lib, d, beat, mSelect, mStart).value.lib == r.value.lib
                      && PickAndPlace(lib, d, beat, mSelect, mStart).value.placed == r.value.placed
    ensures r.Ok? ==> r.value.notes == notes + r.value.placed && r.value.result == -2
  {
    var pick := PickAndPlace(lib, d, beat, mSelect, mStart);
    if pick.Err? then Err(pick.error) else
    Ok(Applied(pick.value.lib, notes + pick.value.placed, pick.value.placed, -1 - 1))
  }

  /** Inserting at the end is appending: the two variants build the same notes. */
  lemma InsertAtEndIsAppend(lib: Library, d: LevelDifficulty, notes: seq<BeatNote>, beat: real, mSelect: real, mStart: real)
    requires LinksValid(lib)
    ensures var ins := PickAndApplyInsert(lib, d, notes, |notes|, beat, mSelect, mStart);
            var app := PickAndApplyAppend(lib, d, notes, beat, mSelect, mStart);
            ins.Ok? == app.Ok?
            && (ins.Ok? ==> ins.value.notes == app.value.notes && ins.value.lib == app.value.lib
                            && ins.value.result == |app.value.notes| - 1)
  {
    assert notes[..|notes|] == notes;
    assert notes[|notes|..] == [];
  }

  /** `generateRange` has an empty body: the beatmap is left as it is. */
  function GenerateRange(data: BeatmapData, startingIndex: int, endingIndex: int): (r: BeatmapData)
    ensures r == data
  {
    data
  }

  //======================================================================
  // generateEntireSong
  //======================================================================

  /** Seconds from the start of the song to a beat. */
  function BeatTime(beat: int, beatDuration: real): real {
    beat as real * beatDuration
  }

  /** The first whole beat at or after the initial whitespace. */
  function FirstBeat(whitespace: real, beatDuration: real): int
    requires beatDuration > 0.0
  {
    Ceil(whitespace / beatDuration)
  }

  /** The first pattern starts at the earliest whole beat that leaves the whitespace clear. */
  lemma FirstBeatAfterWhitespace(whitespace: real, beatDuration: real)
    requires beatDuration > 0.0
    ensures BeatTime(FirstBeat(whitespace, beatDuration), beatDuration) >= whitespace
    ensures BeatTime(FirstBeat(whitespace, beatDuration) - 1, beatDuration) < whitespace
  {
    var q := whitespace / beatDuration;
    var c := FirstBeat(whitespace, beatDuration);
    assert q * beatDuration == whitespace;
    assert c as real * beatDuration >= q * beatDuration;
    assert (c - 1) as real * beatDuration < q * beatDuration;
    assert BeatTime(c - 1, beatDuration) == (c - 1) as real * beatDuration;
    assert BeatTime(c - 1, beatDuration) < whitespace;
  }

  /** The beat after a note at beat t and a delay in seconds, rounded up to a whole beat. */
  function NextBeat(t: real, delay: real, beatDuration: real): int
    requires beatDuration > 0.0
  {
    Ceil((t * beatDuration + delay) / beatDuration)
  }

  /** A positive delay always moves past the note. */
  lemma NextBeatAfter(t: real, delay: real, beatDuration: real)
    requires beatDuration > 0.0 && delay > 0.0
    ensures NextBeat(t, delay, beatDuration) as real > t
  {
    assert (t * beatDuration + delay) / beatDuration == t + delay / beatDuration;
  }

  /** While more than half a second remains, the beat is below the song's last beat. */
  lemma BeatBelowBound(beat: int, beatDuration: real, duration: real)
    requires beatDuration > 0.0 && duration - BeatTime(beat, beatDuration) > 0.5
    ensures beat < Ceil(duration / beatDuration)
  {
    var q := duration / beatDuration;
    assert q * beatDuration == duration;
    assert beat as real * beatDuration < q * beatDuration;
  }

  /** The three `rand()` results one round uses: the selection and starting-cell multipliers, and the delay draw. */
  datatype Draw = Draw(select: real, start: real, delay: int)

  /** The song editor inserts at an index and tracks hands; the pattern library appends and tracks sabers. */
  datatype Variant = Inserting | Appending

  datatype Trackers =
    | HandTrackers(blueHand: HandLocation, redHand: HandLocation)
    | SaberTrackers(blueSaber: SaberLocation, redSaber: SaberLocation)

  /** The trackers as `generateEntireSong` leaves them: reset, and not moved by any pattern. */
  function ResetTrackers(variant: Variant): (r: Trackers)
    ensures variant == Inserting ==> r.HandTrackers? && r.blueHand == NewHand && r.redHand == HandLocation(1, 1)
    ensures variant == Appending ==> r.SaberTrackers? && r.blueSaber == Fresh && r.redSaber == Fresh
  {
    match variant
    case Inserting => HandTrackers(ResetBlue(NewHand), ResetRed(NewHand))
    case Appending => SaberTrackers(Reset(Fresh), Reset(Fresh))
  }

  /**
   * One round of either variant's `pickAndApplyPattern`, always at the end
   * of the notes (the song editor's next index is the note count).
   */
  method PickRound(variant: Variant, lib: Library, d: LevelDifficulty, notes: seq<BeatNote>, beat: int, draw: Draw)
    returns (r: Result<Applied>)
    requires LinksValid(lib)
    ensures r.Err? <==> |lib| == 0
    ensures r.Ok? ==> SameDefinitions(lib, r.value.lib) && LinksValid(r.value.lib)
    ensures r.Ok? ==> r.value.notes == notes + r.value.placed
    ensures r.Ok? ==> AtOrAfter(r.value.placed, beat as real) && NotesSorted(r.value.placed)
  {
    match variant {
      case Inserting =>
        r := PickAndApplyInsert(lib, d, notes, |notes|, beat as real, draw.select, draw.start);
        if r.Ok? {
          assert notes[..|notes|] == notes;
          assert r.value.notes == r.value.notes[..|notes|] + r.value.notes[|notes|..];
        }
      case Appending =>
        r := PickAndApplyAppend(lib, d, notes, beat as real, draw.select, draw.start);
    }
    PickPlacesInOrder(lib, d, beat as real, draw.select, draw.start);
    if r.Ok? {
      var pick := PickAndPlace(lib, d, beat as real, draw.select, draw.start);
      assert r.value.placed == pick.value.placed;
      assert AtOrAfter(pick.value.placed, beat as real) && NotesSorted(pick.value.placed);
    }
  }

  /** Sorted notes before a beat, followed by sorted notes from that beat on, stay sorted. */
  lemma PlacedSorted(notes: seq<BeatNote>, placed: seq<BeatNote>, beat: real)
    requires NotesSorted(notes) && forall i :: 0 <= i < |notes| ==> notes[i].time < beat
    requires NotesSorted(placed) && forall i :: 0 <= i < |placed| ==> beat <= placed[i].time
    ensures NotesSorted(notes + placed)
  {
    var all := notes + placed;
    forall i, j | 0 <= i <= j < |all|
      ensures all[i].time <= all[j].time
    {
      if j < |notes| {
        assert all[i] == notes[i] && all[j] == notes[j];
      } else if i < |notes| {
        assert all[i] == notes[i] && all[j] == placed[j - |notes|];
      } else {
        assert all[i] == placed[i - |notes|] && all[j] == placed[j - |notes|];
      }
    }
  }

  lemma SameDefinitionsTransitive(a: Library, b: Library, c: Library)
    requires SameDefinitions(a, b) && SameDefinitions(b, c)
    ensures SameDefinitions(a, c)
  {
  }

  /** No note comes before the beat, checked note by note. */
  predicate AtOrAfter(notes: seq<BeatNote>, beat: real)
    decreases |notes|
  {
    |notes| == 0 || (beat <= notes[0].time && AtOrAfter(notes[1..], beat))
  }

  lemma {:induction false} AtOrAfterMeans(notes: seq<BeatNote>, beat: real)
    ensures AtOrAfter(notes, beat) <==> forall i :: 0 <= i < |notes| ==> beat <= notes[i].time
    decreases |notes|
  {
    if |notes| > 0 {
      AtOrAfterMeans(notes[1..], beat);
      assert forall i :: 0 < i < |notes| ==> notes[i] == notes[1..][i - 1];
    }
  }

  /** A note sequence is after a beat exactly when both its parts are. */
  lemma {:induction false} AtOrAfterAppend(a: seq<BeatNote>, b: seq<BeatNote>, beat: real)
    ensures AtOrAfter(a + b, beat) <==> AtOrAfter(a, beat) && AtOrAfter(b, beat)
    decreases |a|
  {
    if |a| == 0 {
      assert a + b == b;
    } else {
      AtOrAfterAppend(a[1..], b, beat);
      assert (a + b)[0] == a[0];
      assert (a + b)[1..] == a[1..] + b;
    }
  }

  lemma AtOrAfterEarlier(notes: seq<BeatNote>, beat: real, earlier: real)
    requires earlier <= beat && AtOrAfter(notes, beat)
    ensures AtOrAfter(notes, earlier)
  {
    AtOrAfterMeans(notes, beat);
    AtOrAfterMeans(notes, earlier);
  }

  /** Every note is before the beat. */
  predicate NotesBefore(notes: seq<BeatNote>, beat: real) {
    forall i :: 0 <= i < |notes| ==> notes[i].time < beat
  }

  /** In time order, with the last note before the beat. */
  predicate OrderedBefore(notes: seq<BeatNote>, beat: real) {
    Chronological(notes) && (|notes| == 0 || notes[|notes| - 1].time < beat)
  }

  /** The delays move forward. */
  predicate PositiveDelays(settings: Settings) {
    settings.minimumDelayBetweenPatterns > 0.0 && settings.maximumDelayBetweenPatterns > 0.0
  }

  datatype Round = Round(lib: Library, notes: seq<BeatNote>, placed: seq<BeatNote>, next: int)

  /**
   * One pass of the loop body: place a pattern at the beat, read the last
   * note, and work out the beat the next pattern starts on.
   */
  method PlayRound(variant: Variant, division: Division, lib: Library, d: LevelDifficulty, settings: Settings,
                   beatDuration: real, randMax: int, notes: seq<BeatNote>, beat: int, draw: Draw)
    returns (r: Result<Round>)
    requires LinksValid(lib) && beatDuration > 0.0 && randMax > 0 && 0 <= draw.delay <= randMax
    ensures |lib| == 0 ==> r.Err?
    ensures r.Err? ==> |lib| == 0 || |notes| == 0
    ensures r.Ok? ==> SameDefinitions(lib, r.value.lib) && LinksValid(r.value.lib)
    ensures r.Ok? ==> r.value.notes == notes + r.value.placed && 0 < |r.value.notes|
    ensures r.Ok? ==> r.value.next == NextBeat(r.value.notes[|r.value.notes| - 1].time,
                                               Delay(division, settings.minimumDelayBetweenPatterns,
                                                     settings.maximumDelayBetweenPatterns, draw.delay, randMax),
                                               beatDuration)
    ensures r.Ok? ==> AtOrAfter(r.value.placed, beat as real)
    ensures r.Ok? && PositiveDelays(settings) && OrderedBefore(notes, beat as real) ==>
              OrderedBefore(r.value.notes, r.value.next as real)
              && (r.value.next <= beat ==> |r.value.placed| == 0)
  {
    var applied := PickRound(variant, lib, d, notes, beat, draw);
    if applied.Err? {
      return Err(applied.error);
    }
    if |applied.value.notes| == 0 {
      return Err(if variant == Inserting then OutOfRange("vector::at") else Undefined("back() on an empty vector"));
    }
    var placed := applied.value.placed;
    var notes' := applied.value.notes;
    var last := notes'[|notes'| - 1];
    var delay := Delay(division, settings.minimumDelayBetweenPatterns, settings.maximumDelayBetweenPatterns, draw.delay, randMax);
    var next := NextBeat(last.time, delay, beatDuration);
    if PositiveDelays(settings) && OrderedBefore(notes, beat as real) {
      NextBeatAfter(last.time, delay, beatDuration);
      ChronologicalIsSorted(notes);
      assert NotesBefore(notes, beat as real) by {
        if |notes| > 0 {
          assert forall i :: 0 <= i < |notes| ==> notes[i].time <= notes[|notes| - 1].time;
        }
      }
      AtOrAfterMeans(placed, beat as real);
      PlacedSorted(notes, placed, beat as real);
      ChronologicalIsSorted(notes');
    }
    r := Ok(Round(applied.value.lib, notes', placed, next));
  }

  datatype Outcome = Outcome(
    data: BeatmapData,
    lib: Library,
    trackers: Trackers,
    lastNoteBeat: real,
    nextBeat: int,
    stalled: bool,
    emptyPicks: nat)

  /**
   * `generateEntireSong`: clear the notes, start at the first whole beat
   * after the whitespace, and while more than half a second of the song
   * remains, place a pattern there and move on by a random delay after the
   * last note, rounded up to a whole beat.
   *
   * When a round places nothing and the delay does not reach past the
   * current beat, the C++ loop draws again from the same beat and may or
   * may not move on; the model stops there and reports the round as
   * stalled. The delays come from `randomValue` with the given division. Reading the last note when there is none is an
   * error (`at(-1)` in the editor, `back()` on an empty vector in the
   * library).
   */
  method GenerateEntireSong(variant: Variant, division: Division, lib: Library, d: LevelDifficulty, settings: Settings,
                            beatDuration: real, duration: real, data: BeatmapData,
                            draws: nat -> Draw, randMax: int)
    returns (r: Result<Outcome>)
    requires LinksValid(lib) && beatDuration > 0.0 && randMax > 0
    requires forall n: nat :: 0 <= draws(n).delay <= randMax
    ensures var first := FirstBeat(settings.minimumInitialWhitespace, beatDuration);
            r.Err? ==> duration - BeatTime(first, beatDuration) > 0.5
    ensures var first := FirstBeat(settings.minimumInitialWhitespace, beatDuration);
            |lib| == 0 && duration - BeatTime(first, beatDuration) > 0.5 ==> r.Err?
    ensures r.Ok? ==> r.value.data == data.(notes := r.value.data.notes, hasChanged := true)
    ensures r.Ok? ==> SameDefinitions(lib, r.value.lib) && LinksValid(r.value.lib)
    ensures r.Ok? ==> r.value.trackers == ResetTrackers(variant) && r.value.lastNoteBeat == 0.0
    ensures var first := FirstBeat(settings.minimumInitialWhitespace, beatDuration);
            r.Ok? ==> (|r.value.data.notes| == 0 <==> duration - BeatTime(first, beatDuration) <= 0.5)
    ensures var first := FirstBeat(settings.minimumInitialWhitespace, beatDuration);
            r.Ok? ==> AtOrAfter(r.value.data.notes, first as real)
    ensures r.Ok? && !r.value.stalled ==> duration - BeatTime(r.value.nextBeat, beatDuration) <= 0.5
    ensures r.Ok? && PositiveDelays(settings) ==>
              OrderedBefore(r.value.data.notes, r.value.nextBeat as real) && (r.value.stalled ==> r.value.emptyPicks > 0)
  {
    var first := FirstBeat(settings.minimumInitialWhitespace, beatDuration);
    var beat := first;
    var notes: seq<BeatNote> := [];
    var current := lib;
    var nextIndex := 0;
    var round: nat := 0;
    var emptyPicks: nat := 0;
    while duration - BeatTime(beat, beatDuration) > 0.5
      invariant first <= beat
      invariant nextIndex == |notes|
      invariant round == 0 ==> beat == first && |notes| == 0
      invariant round > 0 ==> |notes| > 0 && |lib| > 0 && duration - BeatTime(first, beatDuration) > 0.5
      invariant SameDefinitions(lib, current) && LinksValid(current)
      invariant AtOrAfter(notes, first as real)
      invariant PositiveDelays(settings) ==> OrderedBefore(notes, beat as real)
      decreases Ceil(duration / beatDuration) - beat
    {
      BeatBelowBound(beat, beatDuration, duration);
      var played := PlayRound(variant, division, current, d, settings, beatDuration, randMax, notes, beat, draws(round));
      if played.Err? {
        return Err(played.error);
      }
      var placed := played.value.placed;
      AtOrAfterEarlier(placed, beat as real, first as real);
      AtOrAfterAppend(notes, placed, first as real);
      if |placed| == 0 {
        emptyPicks := emptyPicks + 1;
      }
      nextIndex := nextIndex + |placed|;
      notes := played.value.notes;
      SameDefinitionsTransitive(lib, current, played.value.lib);
      current := played.value.lib;
      round := round + 1;
      if played.value.next <= beat {
        return Ok(Outcome(data.(notes := notes, hasChanged := true), current, ResetTrackers(variant), 0.0,
                          played.value.next, true, emptyPicks));
      }
      beat := played.value.next;
    }
    r := Ok(Outcome(data.(notes := notes, hasChanged := true), current, ResetTrackers(variant), 0.0, beat, false, emptyPicks));
  }
}

=== FILE: json_values.dfy ===
/**
 * The JSON values the serialisers read and write, and the accessors of the
 * `JSON_Serializable` base class.
 *
 * An object is a `std::map` from keys to values: a key occurs once, and
 * iterating an object visits the values in ascending key order. Reading
 * a value as a given type follows the JSON library's conversions: numbers and booleans convert to int/long
 * and double (a real truncates toward zero), but a string is only read
 * from a string and a bool only from a bool; any other read is a type
 * error, which is where the C++ throws.
 */
module JsonValues {
  import opened Results

  datatype Json =
    | JNull
    | JBool(b: bool)
    | JInt(i: int)
    | JReal(r: real)
    | JString(s: string)
    | JArray(items: seq<Json>)
    | JObject(fields: map<string, Json>)

  /** `nlohmann::json::object()` */
  const EmptyObject: Json := JObject(map[])

  /** `nlohmann::json::array()` */
  const EmptyArray: Json := JArray([])

  //======================================================================
  // Key order of an object
  //======================================================================

  /** `std::string` comparison: lexicographic by character, a proper prefix first. */
  predicate KeyLess(a: string, b: string) {
    if |a| == 0 then |b| > 0
    else if |b| == 0 then false
    else if a[0] != b[0] then a[0] < b[0]
    else KeyLess(a[1..], b[1..])
  }

  lemma {:induction false} KeyLessAsymmetric(a: string, b: string)
    ensures !(KeyLess(a, b) && KeyLess(b, a))
  {
    if |a| > 0 && |b| > 0 && a[0] == b[0] {
      KeyLessAsymmetric(a[1..], b[1..]);
    }
  }

  lemma {:induction false} KeyLessTransitive(a: string, b: string, c: string)
    requires KeyLess(a, b) && KeyLess(b, c)
    ensures KeyLess(a, c)
  {
    if |a| > 0 && |b| > 0 && |c| > 0 && a[0] == b[0] && b[0] == c[0] {
      KeyLessTransitive(a[1..], b[1..], c[1..]);
    }
  }

  lemma {:induction false} KeyLessTotal(a: string, b: string)
    requires a != b
    ensures KeyLess(a, b) || KeyLess(b, a)
  {
    if |a| > 0 && |b| > 0 && a[0] == b[0] {
      assert a == [a[0]] + a[1..] && b == [b[0]] + b[1..];
      KeyLessTotal(a[1..], b[1..]);
    }
  }

  predicate IsSmallest(keys: set<string>, m: string) {
    m in keys && forall k :: k in keys && k != m ==> KeyLess(m, k)
  }

  lemma {:induction false} SmallestExists(keys: set<string>)
    requires keys != {}
    ensures exists m :: IsSmallest(keys, m)
    decreases |keys|
  {
    var x :| x in keys;
    var rest := keys - {x};
    if rest == {} {
      assert keys == {x};
      assert IsSmallest(keys, x);
    } else {
      SmallestExists(rest);
      var m :| IsSmallest(rest, m);
      if KeyLess(x, m) {
        forall k | k in keys && k != x
          ensures KeyLess(x, k)
        {
          if k != m {
            KeyLessTransitive(x, m, k);
          }
        }
        assert IsSmallest(keys, x);
      } else {
        if x != m {
          KeyLessTotal(x, m);
        }
        assert IsSmallest(keys, m);
      }
    }
  }

  /** The smallest key of a non-empty set. */
  function SmallestKey(keys: set<string>): (m: string)
    requires keys != {}
    ensures IsSmallest(keys, m)
  {
    SmallestExists(keys);
    forall a, b | IsSmallest(keys, a) && IsSmallest(keys, b)
      ensures a == b
    {
      KeyLessAsymmetric(a, b);
    }
    var m :| IsSmallest(keys, m);
    m
  }

  /** The keys of an object in iteration order. */
  function SortedKeys(keys: set<string>): (r: seq<string>)
    ensures |r| == |keys|
    ensures forall i :: 0 <= i < |r| ==> r[i] in keys
    ensures forall i, j :: 0 <= i < j < |r| ==> KeyLess(r[i], r[j])
    decreases |keys|
  {
    if keys == {} then []
    else
      var m := SmallestKey(keys);
      var rest := SortedKeys(keys - {m});
      [m] + rest
  }

  //======================================================================
  // Structural operations
  //======================================================================

  /** `json.find(key)`: only an object has keys. */
  function Lookup(j: Json, key: string): Option<Json> {
    if j.JObject? && key in j.fields then Some(j.fields[key]) else None
  }

  /** `json[key] = v`: a null value first becomes an empty object; other non-objects throw. */
  function Put(j: Json, key: string, v: Json): (r: Result<Json>)
    ensures (j.JNull? || j.JObject?) <==> r.Ok?
    ensures r.Ok? ==> Lookup(r.value, key) == Some(v)
    ensures r.Ok? ==> forall k :: k != key ==> Lookup(r.value, k) == Lookup(j, k)
  {
    match j
    case JNull => Ok(JObject(map[key := v]))
    case JObject(fields) => Ok(JObject(fields[key := v]))
    case _ => Err(TypeError("cannot use operator[] with a string argument"))
  }

  /** `json[key] = v` on a value known to be an object. */
  function Set(j: Json, key: string, v: Json): (r: Json)
    requires j.JObject?
    ensures r.JObject? && Put(j, key, v) == Ok(r)
    ensures Lookup(r, key) == Some(v)
    ensures forall k :: k != key ==> Lookup(r, k) == Lookup(j, k)
  {
    JObject(j.fields[key := v])
  }

  /** `if (cond) json[key] = v;` */
  function SetIf(j: Json, cond: bool, key: string, v: Json): (r: Json)
    requires j.JObject?
    ensures r.JObject?
    ensures cond ==> Lookup(r, key) == Some(v)
    ensures !cond ==> r == j
    ensures forall k :: k != key ==> Lookup(r, k) == Lookup(j, k)
  {
    if cond then Set(j, key, v) else j
  }

  /** `json.push_back(v)`: a null value first becomes an empty array; other non-arrays throw. */
  function PushBack(j: Json, v: Json): (r: Result<Json>)
    ensures (j.JNull? || j.JArray?) <==> r.Ok?
    ensures r.Ok? ==> r.value == JArray(Elements(j) + [v])
  {
    match j
    case JNull => assert Elements(j) + [v] == [v]; Ok(JArray([v]))
    case JArray(items) => Ok(JArray(items + [v]))
    case _ => Err(TypeError("cannot use push_back()"))
  }

  /**
   * The values a range-for over `json` visits: nothing for null, the items
   * of an array, the values of an object in ascending key order, and a
   * primitive value itself.
   */
  function Elements(j: Json): (r: seq<Json>)
    ensures j.JNull? ==> r == []
    ensures j.JArray? ==> r == j.items
    ensures j.JObject? ==> |r| == |j.fields| && forall x :: x in r ==> x in j.fields.Values
  {
    match j
    case JNull => []
    case JArray(items) => items
    case JObject(fields) =>
      var keys := SortedKeys(fields.Keys);
      seq(|keys|, i requires 0 <= i < |keys| => fields[keys[i]])
    case _ => [j]
  }

  //======================================================================
  // Conversions (nlohmann::json::get<T>())
  //======================================================================

  /** Conversion of a double to an integer in C++: toward zero. */
  function TruncateToward0(x: real): (r: int)
    ensures x >= 0.0 ==> 0 <= r && r as real <= x < r as real + 1.0
    ensures x < 0.0 ==> r <= 0 && r as real - 1.0 < x <= r as real
  {
    if x >= 0.0 then x.Floor else -((-x).Floor)
  }

  function AsInt(v: Json): Result<int> {
    match v
    case JInt(i) => Ok(i)
    case JReal(x) => Ok(TruncateToward0(x))
    case JBool(b) => Ok(if b then 1 else 0)
    case _ => Err(TypeError("type must be number"))
  }

  function AsReal(v: Json): Result<real> {
    match v
    case JInt(i) => Ok(i as real)
    case JReal(x) => Ok(x)
    case JBool(b) => Ok(if b then 1.0 else 0.0)
    case _ => Err(TypeError("type must be number"))
  }

  function AsBool(v: Json): Result<bool> {
    if v.JBool? then Ok(v.b) else Err(TypeError("type must be boolean"))
  }

  function AsString(v: Json): Result<string> {
    if v.JString? then Ok(v.s) else Err(TypeError("type must be string"))
  }

  /** True when `key` is missing from `j` or holds null: every accessor then returns its default. */
  predicate Absent(j: Json, key: string) {
    Lookup(j, key) == None || Lookup(j, key) == Some(JNull)
  }

  //======================================================================
  // JSON_Serializable accessors
  //======================================================================

  /** `stringValue`: "" when the key is missing or null, else the stored string. */
  function StringValue(j: Json, key: string): (r: Result<string>)
    ensures Absent(j, key) ==> r == Ok("")
    ensures !Absent(j, key) ==> r == AsString(Lookup(j, key).value)
  {
    match Lookup(j, key)
    case None => Ok("")
    case Some(v) => if v.JNull? then Ok("") else AsString(v)
  }

  /** `intValue`: 0 when the key is missing or null. */
  function IntValue(j: Json, key: string): (r: Result<int>)
    ensures Absent(j, key) ==> r == Ok(0)
    ensures !Absent(j, key) ==> r == AsInt(Lookup(j, key).value)
  {
    match Lookup(j, key)
    case None => Ok(0)
    case Some(v) => if v.JNull? then Ok(0) else AsInt(v)
  }

  /** `longValue`: reads like `intValue` (integer widths are not modelled). */
  function LongValue(j: Json, key: string): (r: Result<int>)
    ensures Absent(j, key) ==> r == Ok(0)
    ensures !Absent(j, key) ==> r == AsInt(Lookup(j, key).value)
  {
    IntValue(j, key)
  }

  /** `doubleValue`: 0.0 when the key is missing or null. */
  function DoubleValue(j: Json, key: string): (r: Result<real>)
    ensures Absent(j, key) ==> r == Ok(0.0)
    ensures !Absent(j, key) ==> r == AsReal(Lookup(j, key).value)
  {
    match Lookup(j, key)
    case None => Ok(0.0)
    case Some(v) => if v.JNull? then Ok(0.0) else AsReal(v)
  }

  /** `boolValue`: false when the key is missing or null. */
  function BoolValue(j: Json, key: string): (r: Result<bool>)
    ensures Absent(j, key) ==> r == Ok(false)
    ensures !Absent(j, key) ==> r == AsBool(Lookup(j, key).value)
  {
    match Lookup(j, key)
    case None => Ok(false)
    case Some(v) => if v.JNull? then Ok(false) else AsBool(v)
  }

  /** `jsonValue`: the stored value, even null, when the key is present; an empty object otherwise. */
  function JsonValue(j: Json, key: string): (r: Json)
    ensures Lookup(j, key).Some? ==> r == Lookup(j, key).value
    ensures Lookup(j, key).None? ==> r == EmptyObject
  {
    match Lookup(j, key)
    case None => EmptyObject
    case Some(v) => v
  }

  /** `setStringValue`: writes `obj[key]` only when both the key and the value are non-empty. */
  function SetStringValue(obj: Json, key: string, value: string): (r: Result<Json>)
    ensures (|key| == 0 || |value| == 0) ==> r == Ok(obj)
    ensures |key| > 0 && |value| > 0 && r.Ok? ==> StringValue(r.value, key) == Ok(value)
    ensures |key| > 0 && |value| > 0 && r.Ok? ==> forall k :: k != key ==> Lookup(r.value, k) == Lookup(obj, k)
    ensures |key| > 0 && |value| > 0 ==> (r.Ok? <==> obj.JNull? || obj.JObject?)
  {
    if |key| > 0 && |value| > 0 then Put(obj, key, JString(value)) else Ok(obj)
  }

  /** `fillString`: the stored string when the key holds one, "" in every other case. */
  function FillString(j: Json, key: string): (r: string)
    ensures (exists s :: Lookup(j, key) == Some(JString(s))) ==> Lookup(j, key) == Some(JString(r))
    ensures (forall s :: Lookup(j, key) != Some(JString(s))) ==> r == ""
  {
    match Lookup(j, key)
    case Some(JString(s)) => s
    case _ => ""
  }

  //======================================================================
  // JSON_Serializable_Vector
  //======================================================================

  /** Appends one element per JSON item, in order; the first item that cannot be read aborts. */
  function AppendAll<T>(existing: seq<T>, items: seq<Json>, elem: Json -> Result<T>): (r: Result<seq<T>>)
    ensures r.Ok? <==> forall i :: 0 <= i < |items| ==> elem(items[i]).Ok?
    ensures r.Ok? ==> |r.value| == |existing| + |items| && r.value[..|existing|] == existing
    ensures r.Ok? ==> forall i :: 0 <= i < |items| ==> elem(items[i]) == Ok(r.value[|existing| + i])
    decreases |items|
  {
    if |items| == 0 then Ok(existing)
    else
      match elem(items[0])
      case Err(e) => Err(e)
      case Ok(x) =>
        var r := AppendAll(existing + [x], items[1..], elem);
        assert forall i :: 1 <= i < |items| ==> items[i] == items[1..][i - 1];
        r
  }

  /** `JSON_Serializable_Vector::fromJSON`: appends to the existing contents. */
  function VectorFromJson<T>(existing: seq<T>, source: Json, elem: Json -> Result<T>): (r: Result<seq<T>>)
    ensures r.Ok? ==> |r.value| == |existing| + |Elements(source)| && r.value[..|existing|] == existing
    ensures r.Ok? ==> forall i :: 0 <= i < |Elements(source)| ==> elem(Elements(source)[i]) == Ok(r.value[|existing| + i])
  {
    AppendAll(existing, Elements(source), elem)
  }

  /** Pushes one JSON value per element, in order; with nothing to push the value is left as it is. */
  function PushAll<T>(into: Json, v: seq<T>, elem: T -> Json): (r: Result<Json>)
    ensures r.Ok? <==> (|v| == 0 || into.JNull? || into.JArray?)
    ensures |v| == 0 ==> r == Ok(into)
    ensures |v| > 0 && r.Ok? ==>
              r.value.JArray?
              && |r.value.items| == |Elements(into)| + |v|
              && r.value.items[..|Elements(into)|] == Elements(into)
              && forall i :: 0 <= i < |v| ==> r.value.items[|Elements(into)| + i] == elem(v[i])
    decreases |v|
  {
    if |v| == 0 then Ok(into)
    else
      match PushBack(into, elem(v[0]))
      case Err(e) => Err(e)
      case Ok(next) =>
        var r := PushAll(next, v[1..], elem);
        assert |Elements(next)| == |Elements(into)| + 1;
        assert Elements(next)[..|Elements(into)|] == Elements(into);
        assert forall i :: 1 <= i < |v| ==> v[i] == v[1..][i - 1];
        r
  }

  /** `JSON_Serializable_Vector::toJSON`: one object per element, written by the element's own toJSON. */
  function VectorToJson<T>(v: seq<T>, into: Json, elem: T -> Json): (r: Result<Json>)
    ensures r.Ok? <==> (|v| == 0 || into.JNull? || into.JArray?)
    ensures |v| == 0 ==> r == Ok(into)
    ensures |v| > 0 && r.Ok? ==>
              r.value.JArray?
              && |r.value.items| == |Elements(into)| + |v|
              && r.value.items[..|Elements(into)|] == Elements(into)
              && forall i :: 0 <= i < |v| ==> r.value.items[|Elements(into)| + i] == elem(v[i])
  {
    PushAll(into, v, elem)
  }

  /** Reading items that each decode to the matching element of v appends v. */
  lemma {:induction false} AppendAllDecodes<T>(existing: seq<T>, items: seq<Json>, v: seq<T>, elem: Json -> Result<T>)
    requires |items| == |v|
    requires forall i :: 0 <= i < |items| ==> elem(items[i]) == Ok(v[i])
    ensures AppendAll(existing, items, elem) == Ok(existing + v)
    decreases |items|
  {
    if |items| == 0 {
      assert existing + v == existing;
    } else {
      assert elem(items[0]) == Ok(v[0]);
      assert AppendAll(existing, items, elem) == AppendAll(existing + [v[0]], items[1..], elem);
      AppendAllDecodes(existing + [v[0]], items[1..], v[1..], elem);
      assert existing + [v[0]] + v[1..] == existing + v;
    }
  }

  /**
   * Given an element round trip, writing a vector and reading it back
   * appends it, in order, to what the receiving vector already holds.
   */
  lemma VectorRoundTrip<T>(existing: seq<T>, v: seq<T>, toJson: T -> Json, fromJson: Json -> Result<T>)
    requires forall x :: fromJson(toJson(x)) == Ok(x)
    ensures VectorToJson(v, EmptyArray, toJson).Ok?
    ensures VectorFromJson(existing, VectorToJson(v, EmptyArray, toJson).value, fromJson) == Ok(existing + v)
  {
    var j := VectorToJson(v, EmptyArray, toJson).value;
    var items := Elements(j);
    assert |items| == |v|;
    assert forall i :: 0 <= i < |items| ==> items[i] == toJson(v[i]);
    AppendAllDecodes(existing, items, v, fromJson);
  }
}

=== FILE: note_vocabulary.dfy ===
/**
 * The note vocabulary shared by patterns and charts: level and pattern
 * difficulties, cube colours and the nine cut directions, their string
 * and integer codecs, the colour swap and the two direction mirrors.
 *
 * Cut directions are laid out on the 3x3 grid documented beside the
 * pattern `Note` class:
 *
 *     4 0 5        UpLeft   Up     UpRight
 *     2 8 3        Left     Center Right
 *     6 1 7        DownLeft Down   DownRight
 *
 * `DirectionRow`/`DirectionColumn` give a direction's cell on that grid
 * from its geometry alone; the mirrors are specified as reflections of
 * that cell.
 */
module NoteVocabulary {
  import opened Results

  // Chart encodings of cube colour and cut direction.
  const NoteTypeRed: int := 0
  const NoteTypeBlue: int := 1

  const NoteDirectionUp: int := 0
  const NoteDirectionDown: int := 1
  const NoteDirectionLeft: int := 2
  const NoteDirectionRight: int := 3
  const NoteDirectionUpLeft: int := 4
  const NoteDirectionUpRight: int := 5
  const NoteDirectionDownLeft: int := 6
  const NoteDirectionDownRight: int := 7
  const NoteDirectionNone: int := 8

  /** The documented 3x3 direction grid, row by row from the top. */
  const DirectionGrid: seq<seq<int>> := [[4, 0, 5], [2, 8, 3], [6, 1, 7]]

  datatype LevelDifficulty = Easy | Normal | Hard | Expert | ExpertPlus | All

  datatype PatternDifficulty = PatternEasy | PatternMedium | PatternHard

  datatype CubeType = Red | Blue | Bomb

  datatype CutDirection = Up | Down | Left | Right | UpLeft | UpRight | DownLeft | DownRight | Center

  //======================================================================
  // Level difficulty
  //======================================================================

  const LevelDifficultyNames: set<string> := {"Easy", "Normal", "Hard", "Expert", "ExpertPlus", "All"}

  function LevelDifficultyToString(d: LevelDifficulty): (s: string)
    ensures s in LevelDifficultyNames
    ensures ToLevelDifficulty(s) == d
  {
    match d
    case Easy => "Easy"
    case Normal => "Normal"
    case Hard => "Hard"
    case Expert => "Expert"
    case ExpertPlus => "ExpertPlus"
    case All => "All"
  }

  /** Decodes a level difficulty name; an unknown name reads as Easy. */
  function ToLevelDifficulty(s: string): (d: LevelDifficulty)
    ensures s !in LevelDifficultyNames ==> d == Easy
  {
    if s == "Easy" then Easy
    else if s == "Normal" then Normal
    else if s == "Hard" then Hard
    else if s == "Expert" then Expert
    else if s == "ExpertPlus" then ExpertPlus
    else if s == "All" then All
    else Easy
  }

  /** The level of each entry of v, in order, as `level` reads it. */
  function LevelsOf<T>(v: seq<T>, level: T -> LevelDifficulty): (r: seq<LevelDifficulty>)
    ensures |r| == |v| && forall k :: 0 <= k < |v| ==> r[k] == level(v[k])
  {
    seq(|v|, k requires 0 <= k < |v| => level(v[k]))
  }

  /**
   * The first position holding level d, if any: the search both the song's
   * difficulty list and the preferences' defaults list make.
   */
  function FirstLevel(levels: seq<LevelDifficulty>, d: LevelDifficulty): (r: Option<nat>)
    ensures r.Some? ==> r.value < |levels| && levels[r.value] == d
                        && forall k :: 0 <= k < r.value ==> levels[k] != d
    ensures r.None? ==> forall k :: 0 <= k < |levels| ==> levels[k] != d
  {
    if |levels| == 0 then None
    else if levels[0] == d then Some(0)
    else
      match FirstLevel(levels[1..], d)
      case None => None
      case Some(k) => Some(k + 1)
  }

  //======================================================================
  // Pattern difficulty
  //======================================================================

  const PatternDifficultyNames: set<string> := {"Easy", "Medium", "Hard"}

  function PatternDifficultyToString(d: PatternDifficulty): (s: string)
    ensures s in PatternDifficultyNames
    ensures ToPatternDifficulty(s) == d
  {
    match d
    case PatternEasy => "Easy"
    case PatternMedium => "Medium"
    case PatternHard => "Hard"
  }

  /** Decodes a pattern difficulty name; an unknown name reads as Easy. */
  function ToPatternDifficulty(s: string): (d: PatternDifficulty)
    ensures s !in PatternDifficultyNames ==> d == PatternEasy
  {
    if s == "Easy" then PatternEasy
    else if s == "Medium" then PatternMedium
    else if s == "Hard" then PatternHard
    else PatternEasy
  }

  //======================================================================
  // Cube type
  //======================================================================

  const CubeTypeNames: set<string> := {"Red", "Blue", "Bomb"}

  function CubeTypeToString(c: CubeType): (s: string)
    ensures s in CubeTypeNames
    ensures ToCubeType(s) == c
  {
    match c
    case Red => "Red"
    case Blue => "Blue"
    case Bomb => "Bomb"
  }

  /** Decodes a cube type name; an unknown name reads as Red. */
  function ToCubeType(s: string): (c: CubeType)
    ensures s !in CubeTypeNames ==> c == Red
  {
    if s == "Red" then Red
    else if s == "Blue" then Blue
    else if s == "Bomb" then Bomb
    else Red
  }

  /** The chart's `type` code for a cube; a bomb is written as 3, and 2 is never produced. */
  function CubeTypeToInt(c: CubeType): (r: int)
    ensures 0 <= r <= 3 && r != 2
    ensures r == NoteTypeRed <==> c == Red
    ensures r == NoteTypeBlue <==> c == Blue
  {
    match c
    case Red => 0
    case Blue => 1
    case Bomb => 3
  }

  lemma CubeTypeToIntInjective(a: CubeType, b: CubeType)
    requires CubeTypeToInt(a) == CubeTypeToInt(b)
    ensures a == b
  {
  }

  /** Exchanges the two saber colours; a bomb stays a bomb. */
  function SwapCubeType(c: CubeType): (r: CubeType)
    ensures c == Bomb <==> r == Bomb
    ensures c != Bomb ==> r != c
  {
    match c
    case Red => Blue
    case Blue => Red
    case Bomb => Bomb
  }

  lemma SwapCubeTypeInvolution(c: CubeType)
    ensures SwapCubeType(SwapCubeType(c)) == c
  {
  }

  //======================================================================
  // Cut direction
  //======================================================================

  const CutDirectionNames: set<string> :=
    {"Up", "Down", "Center", "Left", "Right", "UpLeft", "UpRight", "DownLeft", "DownRight"}

  function CutDirectionToString(d: CutDirection): (s: string)
    ensures s in CutDirectionNames
    ensures ToCutDirection(s) == d
  {
    match d
    case Up => "Up"
    case Down => "Down"
    case Center => "Center"
    case Left => "Left"
    case Right => "Right"
    case UpLeft => "UpLeft"
    case UpRight => "UpRight"
    case DownLeft => "DownLeft"
    case DownRight => "DownRight"
  }

  /** Decodes a cut direction name; an unknown name reads as Down. */
  function ToCutDirection(s: string): (d: CutDirection)
    ensures s !in CutDirectionNames ==> d == Down
  {
    if s == "Up" then Up
    else if s == "Down" then Down
    else if s == "Center" then Center
    else if s == "Left" then Left
    else if s == "Right" then Right
    else if s == "UpLeft" then UpLeft
    else if s == "UpRight" then UpRight
    else if s == "DownLeft" then DownLeft
    else if s == "DownRight" then DownRight
    else Down
  }

  /** Grid row of a direction: 0 for the upward ones, 2 for the downward ones. */
  function DirectionRow(d: CutDirection): int {
    match d
    case Up | UpLeft | UpRight => 0
    case Left | Center | Right => 1
    case Down | DownLeft | DownRight => 2
  }

  /** Grid column of a direction: 0 for the leftward ones, 2 for the rightward ones. */
  function DirectionColumn(d: CutDirection): int {
    match d
    case Left | UpLeft | DownLeft => 0
    case Up | Center | Down => 1
    case Right | UpRight | DownRight => 2
  }

  /** A direction is determined by its grid cell. */
  lemma DirectionCellInjective(a: CutDirection, b: CutDirection)
    requires DirectionRow(a) == DirectionRow(b) && DirectionColumn(a) == DirectionColumn(b)
    ensures a == b
  {
  }

  /** The chart's `cutDirection` code; it is the number written in the direction's grid cell. */
  function CutDirectionToInt(d: CutDirection): (r: int)
    ensures 0 <= r <= 8
    ensures DirectionGrid[DirectionRow(d)][DirectionColumn(d)] == r
    ensures r == NoteDirectionNone <==> d == Center
    ensures ToCutDirectionCode(r) == d
  {
    match d
    case Up => NoteDirectionUp
    case Down => NoteDirectionDown
    case Center => NoteDirectionNone
    case Left => NoteDirectionLeft
    case Right => NoteDirectionRight
    case UpLeft => NoteDirectionUpLeft
    case UpRight => NoteDirectionUpRight
    case DownLeft => NoteDirectionDownLeft
    case DownRight => NoteDirectionDownRight
  }

  /**
   * The integer overload of toCutDirection used by the saber tracker. Its
   * body is not part of this model: it is taken to invert CutDirectionToInt
   * on 0..8 and, like the string decoder, to read anything else as Down.
   */
  function ToCutDirectionCode(code: int): (d: CutDirection)
    ensures !(0 <= code <= 8) ==> d == Down
  {
    if code == NoteDirectionUp then Up
    else if code == NoteDirectionDown then Down
    else if code == NoteDirectionLeft then Left
    else if code == NoteDirectionRight then Right
    else if code == NoteDirectionUpLeft then UpLeft
    else if code == NoteDirectionUpRight then UpRight
    else if code == NoteDirectionDownLeft then DownLeft
    else if code == NoteDirectionDownRight then DownRight
    else if code == NoteDirectionNone then Center
    else Down
  }

  /** Every code 0..8 is the code of exactly one direction, so CutDirectionToInt is a bijection onto 0..8. */
  lemma CutDirectionCodeBijective(code: int)
    requires 0 <= code <= 8
    ensures CutDirectionToInt(ToCutDirectionCode(code)) == code
    ensures forall d :: CutDirectionToInt(d) == code ==> d == ToCutDirectionCode(code)
  {
  }

  /** Left/right mirror: reflects the direction's grid cell horizontally. */
  function MirrorLeftRight(d: CutDirection): (r: CutDirection)
    ensures DirectionRow(r) == DirectionRow(d)
    ensures DirectionColumn(r) == 2 - DirectionColumn(d)
    ensures r == d <==> d in {Up, Down, Center}
  {
    match d
    case Up | Down | Center => d
    case Left => Right
    case Right => Left
    case UpLeft => UpRight
    case UpRight => UpLeft
    case DownLeft => DownRight
    case DownRight => DownLeft
  }

  /** Up/down mirror: reflects the direction's grid cell vertically. */
  function MirrorUpDown(d: CutDirection): (r: CutDirection)
    ensures DirectionRow(r) == 2 - DirectionRow(d)
    ensures DirectionColumn(r) == DirectionColumn(d)
    ensures r == d <==> d in {Left, Right, Center}
  {
    match d
    case Left | Right | Center => d
    case Up => Down
    case Down => Up
    case UpLeft => DownLeft
    case UpRight => DownRight
    case DownLeft => UpLeft
    case DownRight => UpRight
  }

  lemma MirrorsAreCommutingInvolutions(d: CutDirection)
    ensures MirrorLeftRight(MirrorLeftRight(d)) == d
    ensures MirrorUpDown(MirrorUpDown(d)) == d
    ensures MirrorLeftRight(MirrorUpDown(d)) == MirrorUpDown(MirrorLeftRight(d))
  {
    DirectionCellInjective(MirrorLeftRight(MirrorLeftRight(d)), d);
    DirectionCellInjective(MirrorUpDown(MirrorUpDown(d)), d);
    DirectionCellInjective(MirrorLeftRight(MirrorUpDown(d)), MirrorUpDown(MirrorLeftRight(d)));
  }

  /** The three-argument mirror: left/right first, then up/down, each only when asked for. */
  function MirrorCutDirection(d: CutDirection, doLeftRight: bool, doUpDown: bool): (r: CutDirection)
    ensures DirectionRow(r) == if doUpDown then 2 - DirectionRow(d) else DirectionRow(d)
    ensures DirectionColumn(r) == if doLeftRight then 2 - DirectionColumn(d) else DirectionColumn(d)
    ensures !doLeftRight && !doUpDown ==> r == d
  {
    var afterLeftRight := if doLeftRight then MirrorLeftRight(d) else d;
    if doUpDown then MirrorUpDown(afterLeftRight) else afterLeftRight
  }

  /** Mirroring twice with the same flags gives back the original direction; Center is never moved. */
  lemma MirrorCutDirectionInvolution(d: CutDirection, doLeftRight: bool, doUpDown: bool)
    ensures MirrorCutDirection(MirrorCutDirection(d, doLeftRight, doUpDown), doLeftRight, doUpDown) == d
    ensures MirrorCutDirection(Center, doLeftRight, doUpDown) == Center
  {
    DirectionCellInjective(MirrorCutDirection(MirrorCutDirection(d, doLeftRight, doUpDown), doLeftRight, doUpDown), d);
    DirectionCellInjective(MirrorCutDirection(Center, doLeftRight, doUpDown), Center);
  }
}

=== FILE: option_handler.dfy ===
/**
 * The argument table of `OptionHandler`: help text for one argument,
 * copying a sentinel-terminated argument array, the `getopt_long` option
 * array with its short-option string, and searches over the table.
 *
 * Callback functions are not modelled; they play no part in these operations.
 */
module OptionHandler {
  import opened Results

  /** `no_argument` of getopt.h. */
  const NoArgument: int := 0

  datatype Argument = Argument(name: string, hasArg: int, val: char, argumentText: string, helpText: string)

  /** The all-empty entry that ends an argument array. */
  predicate IsSentinel(a: Argument) {
    |a.name| == 0 && a.val == 0 as char
  }

  /** `isprint` in the "C" locale. */
  predicate IsPrint(c: char) {
    ' ' <= c <= '~'
  }

  //======================================================================
  // Help text
  //======================================================================

  /** `argumentForHelp`: "--name (-c) text", with each part present only when it applies. */
  function ArgumentForHelp(a: Argument): (r: string)
    ensures |a.name| > 0 ==> "--" + a.name <= r
    ensures |a.name| > 0 && IsPrint(a.val) ==> "--" + a.name + " (-" + [a.val] + ")" <= r
    ensures |a.name| == 0 && IsPrint(a.val) ==> "-" + [a.val] <= r
    ensures |a.argumentText| > 0 ==> |r| > |a.argumentText| && r[|r| - |a.argumentText| - 1..] == " " + a.argumentText
    ensures |r| == (if |a.name| > 0 then 2 + |a.name| else 0)
                   + (if IsPrint(a.val) then (if |a.name| > 0 then 5 else 2) else 0)
                   + (if |a.argumentText| > 0 then 1 + |a.argumentText| else 0)
    ensures r == "" <==> |a.name| == 0 && !IsPrint(a.val) && |a.argumentText| == 0
  {
    var head :=
      if |a.name| > 0 then
        "--" + a.name + (if IsPrint(a.val) then " (-" + [a.val] + ")" else "")
      else if IsPrint(a.val) then "-" + [a.val]
      else "";
    var r := head + (if |a.argumentText| > 0 then " " + a.argumentText else "");
    assert |head| > 0 ==> r[0] == head[0];
    r
  }

  /**
   * `paddedArgument(length)`: the help text padded with spaces to at least
   * `length` characters. A negative length is compared as an unsigned
   * value and the padding string cannot be built, so it throws.
   */
  function PaddedArgument(a: Argument, length: int): (r: Result<string>)
    ensures length < 0 <==> r.Err?
    ensures r.Ok? ==> ArgumentForHelp(a) <= r.value
    ensures r.Ok? ==> |r.value| == if length > |ArgumentForHelp(a)| then length else |ArgumentForHelp(a)|
    ensures r.Ok? ==> forall i :: |ArgumentForHelp(a)| <= i < |r.value| ==> r.value[i] == ' '
  {
    var str := ArgumentForHelp(a);
    if length < 0 then Err(Undefined("basic_string: length_error"))
    else if |str| < length then Ok(str + seq(length - |str|, _ => ' '))
    else Ok(str)
  }

  //======================================================================
  // ArgumentVector
  //======================================================================

  /**
   * `addAll(Argument *)`: appends a copy of every entry before the first
   * sentinel. The array must contain a sentinel: the C++ reads until it finds one.
   */
  function AddAll(v: seq<Argument>, arguments: seq<Argument>): (r: seq<Argument>)
    requires exists i :: 0 <= i < |arguments| && IsSentinel(arguments[i])
    ensures exists k :: 0 <= k < |arguments| && IsSentinel(arguments[k])
                        && (forall j :: 0 <= j < k ==> !IsSentinel(arguments[j]))
                        && r == v + arguments[..k]
  {
    var k := SentinelIndex(arguments);
    v + arguments[..k]
  }

  function SentinelIndex(arguments: seq<Argument>): (k: nat)
    requires exists i :: 0 <= i < |arguments| && IsSentinel(arguments[i])
    ensures k < |arguments| && IsSentinel(arguments[k])
    ensures forall j :: 0 <= j < k ==> !IsSentinel(arguments[j])
  {
    if IsSentinel(arguments[0]) then 0
    else
      assert exists i :: 0 <= i < |arguments[1..]| && IsSentinel(arguments[1..][i]) by {
        var i :| 0 <= i < |arguments| && IsSentinel(arguments[i]);
        assert arguments[1..][i - 1] == arguments[i];
      }
      1 + SentinelIndex(arguments[1..])
  }

  /** `struct option`: a null name is `None`. */
  datatype OptionEntry = OptionEntry(name: Option<string>, hasArg: int, val: char)

  /** The option array `getOptions` builds: one entry per argument, then the all-zero entry. */
  function BuildOptions(v: seq<Argument>): (r: seq<OptionEntry>)
    ensures |r| == |v| + 1
    ensures forall i :: 0 <= i < |v| ==> r[i] == OptionEntry(Some(v[i].name), v[i].hasArg, v[i].val)
    ensures r[|v|] == OptionEntry(None, 0, 0 as char)
  {
    seq(|v|, i requires 0 <= i < |v| => OptionEntry(Some(v[i].name), v[i].hasArg, v[i].val))
      + [OptionEntry(None, 0, 0 as char)]
  }

  /** The short-option string: each non-zero `val`, followed by ':' when it takes an argument. */
  function ShortArgs(v: seq<Argument>): string {
    if |v| == 0 then ""
    else
      (if v[0].val != 0 as char then [v[0].val] + (if v[0].hasArg != NoArgument then ":" else "") else "")
        + ShortArgs(v[1..])
  }

  /** The short options a `getopt` option string declares, each with whether it takes an argument. */
  function ParseShortArgs(s: string): seq<(char, bool)>
    decreases |s|
  {
    if |s| == 0 then []
    else if |s| >= 2 && s[1] == ':' then [(s[0], true)] + ParseShortArgs(s[2..])
    else [(s[0], false)] + ParseShortArgs(s[1..])
  }

  /** The short options the argument table declares. */
  function DeclaredShortOptions(v: seq<Argument>): seq<(char, bool)> {
    if |v| == 0 then []
    else (if v[0].val != 0 as char then [(v[0].val, v[0].hasArg != NoArgument)] else []) + DeclaredShortOptions(v[1..])
  }

  /**
   * `getopt` reads the short-option string back as exactly the table's
   * short options, in order, as long as no argument uses ':' as its code.
   */
  lemma {:induction false} ShortArgsRoundTrip(v: seq<Argument>)
    requires forall i :: 0 <= i < |v| ==> v[i].val != ':'
    ensures ParseShortArgs(ShortArgs(v)) == DeclaredShortOptions(v)
    decreases |v|
  {
    if |v| > 0 {
      ShortArgsRoundTrip(v[1..]);
      var a := v[0];
      var rest := ShortArgs(v[1..]);
      if a.val != 0 as char {
        if a.hasArg != NoArgument {
          var s := [a.val, ':'] + rest;
          assert ShortArgs(v) == s;
          assert s[2..] == rest;
        } else {
          var s := [a.val] + rest;
          assert ShortArgs(v) == s;
          assert s[1..] == rest;
          ShortArgsHead(v[1..]);
        }
      } else {
        assert ShortArgs(v) == rest;
      }
    }
  }

  /** The short-option string never starts with ':' when no code is ':'. */
  lemma {:induction false} ShortArgsHead(v: seq<Argument>)
    requires forall i :: 0 <= i < |v| ==> v[i].val != ':'
    ensures |ShortArgs(v)| > 0 ==> ShortArgs(v)[0] != ':'
    decreases |v|
  {
    if |v| > 0 && v[0].val == 0 as char {
      ShortArgsHead(v[1..]);
    }
  }

  /** The cached option array and the count it was built for. */
  datatype OptionsCache = OptionsCache(options: Option<seq<OptionEntry>>, optionsCount: int, shortArgs: string)

  const NoCache: OptionsCache := OptionsCache(None, 0, "")

  datatype GetOptionsResult = GetOptionsResult(options: seq<OptionEntry>, shortArgs: string, cache: OptionsCache)

  /**
   * `getOptions` as written: rebuilds when there is no array or when
   * `optionsCount != size()`, but stores `size() + 1` as the count.
   */
  function GetOptionsAsWritten(v: seq<Argument>, cache: OptionsCache): (r: GetOptionsResult)
    ensures r.cache.options == Some(r.options) && r.cache.shortArgs == r.shortArgs
    ensures cache.options.None? || cache.optionsCount != |v| ==>
              r.options == BuildOptions(v) && r.shortArgs == ShortArgs(v) && r.cache.optionsCount == |v| + 1
    ensures cache.options.Some? && cache.optionsCount == |v| ==> r.cache == cache
  {
    if cache.options.None? || cache.optionsCount != |v| then
      var options := BuildOptions(v);
      var shortArgs := ShortArgs(v);
      GetOptionsResult(options, shortArgs, OptionsCache(Some(options), |v| + 1, shortArgs))
    else
      GetOptionsResult(cache.options.value, cache.shortArgs, cache)
  }

  /**
   * Calling `getOptions` again on the same table rebuilds every time, but
   * after exactly one argument is added it returns the stale array, which
   * does not mention the new argument.
   */
  lemma GetOptionsAsWrittenStale(a: Argument, b: Argument)
    ensures var first := GetOptionsAsWritten([a], NoCache);
            GetOptionsAsWritten([a], first.cache).options == BuildOptions([a])
            && GetOptionsAsWritten([a, b], first.cache).options != BuildOptions([a, b])
  {
    var first := GetOptionsAsWritten([a], NoCache);
    assert |GetOptionsAsWritten([a, b], first.cache).options| == 2;
  }

  /**
   * `getOptions` with the rebuild test the stored count calls for: the
   * array is rebuilt unless it was built for a table of the same size.
   */
  function GetOptions(v: seq<Argument>, cache: OptionsCache): (r: GetOptionsResult)
    ensures r.cache.options == Some(r.options) && r.cache.shortArgs == r.shortArgs
    ensures r.cache.optionsCount == |v| + 1
    ensures cache.options.None? || cache.optionsCount != |v| + 1 ==>
              r.options == BuildOptions(v) && r.shortArgs == ShortArgs(v)
  {
    if cache.options.None? || cache.optionsCount != |v| + 1 then
      var options := BuildOptions(v);
      var shortArgs := ShortArgs(v);
      GetOptionsResult(options, shortArgs, OptionsCache(Some(options), |v| + 1, shortArgs))
    else
      GetOptionsResult(cache.options.value, cache.shortArgs, cache)
  }

  /** The cache holds the option array and short-option string of table w. */
  predicate Describes(cache: OptionsCache, w: seq<Argument>) {
    cache.options == Some(BuildOptions(w)) && cache.shortArgs == ShortArgs(w) && cache.optionsCount == |w| + 1
  }

  /**
   * Starting from no array, or from the array of table w, a call on table v
   * describes v whenever v is w itself or has a different size; only a
   * same-size edit goes unseen, which the source's own comment warns about.
   */
  lemma GetOptionsCurrent(w: seq<Argument>, v: seq<Argument>, cache: OptionsCache)
    requires cache.options.None? || (Describes(cache, w) && (|w| != |v| || w == v))
    ensures GetOptions(v, cache).options == BuildOptions(v)
    ensures GetOptions(v, cache).shortArgs == ShortArgs(v)
    ensures Describes(GetOptions(v, cache).cache, v)
  {
  }

  /** `searchForLongName`: the first argument with that name. */
  function SearchForLongName(v: seq<Argument>, value: string): (r: Option<nat>)
    ensures r.Some? ==> r.value < |v| && v[r.value].name == value
    ensures r.Some? ==> forall j :: 0 <= j < r.value ==> v[j].name != value
    ensures r.None? ==> forall j :: 0 <= j < |v| ==> v[j].name != value
  {
    if |v| == 0 then None
    else if v[0].name == value then Some(0)
    else
      match SearchForLongName(v[1..], value)
      case None => None
      case Some(i) => Some(i + 1)
  }

  /** `searchForShortCode`: the first argument with that code. */
  function SearchForShortCode(v: seq<Argument>, code: char): (r: Option<nat>)
    ensures r.Some? ==> r.value < |v| && v[r.value].val == code
    ensures r.Some? ==> forall j :: 0 <= j < r.value ==> v[j].val != code
    ensures r.None? ==> forall j :: 0 <= j < |v| ==> v[j].val != code
  {
    if |v| == 0 then None
    else if v[0].val == code then Some(0)
    else
      match SearchForShortCode(v[1..], code)
      case None => None
      case Some(i) => Some(i + 1)
  }

  predicate HasHelpText(a: Argument) {
    |a.argumentText| > 0 || |a.helpText| > 0
  }

  /** `anyHaveHelpText` */
  function AnyHaveHelpText(v: seq<Argument>): (r: bool)
    ensures r <==> exists i :: 0 <= i < |v| && HasHelpText(v[i])
  {
    if |v| == 0 then false
    else if HasHelpText(v[0]) then true
    else
      var r := AnyHaveHelpText(v[1..]);
      assert forall i :: 1 <= i < |v| ==> v[i] == v[1..][i - 1];
      r
  }
}

=== FILE: pattern_json.dfy ===
/**
 * The JSON field mapping of the pattern library.
 *
 * Each `toJSON` writes into a fresh object; each `fromJSON` reads with the
 * accessor defaults, so a missing weight reads as 0, a missing flag as
 * false, and a pattern read from JSON always starts with an unresolved link.
 */
module PatternJson {
  import opened Results
  import opened NoteVocabulary
  import opened JsonValues
  import opened Patterns

  function Max0(w: int): int {
    if w > 0 then w else 0
  }

  //======================================================================
  // UseWeights
  //======================================================================

  /** Writes only the positive weights. */
  function UseWeightsToJson(u: UseWeights): (j: Json)
    ensures j.JObject?
    ensures Lookup(j, "easy") == if u.easy > 0 then Some(JInt(u.easy)) else None
    ensures Lookup(j, "normal") == if u.normal > 0 then Some(JInt(u.normal)) else None
    ensures Lookup(j, "hard") == if u.hard > 0 then Some(JInt(u.hard)) else None
    ensures Lookup(j, "expert") == if u.expert > 0 then Some(JInt(u.expert)) else None
    ensures Lookup(j, "expertPlus") == if u.expertPlus > 0 then Some(JInt(u.expertPlus)) else None
  {
    var j := SetIf(EmptyObject, u.easy > 0, "easy", JInt(u.easy));
    var j := SetIf(j, u.normal > 0, "normal", JInt(u.normal));
    var j := SetIf(j, u.hard > 0, "hard", JInt(u.hard));
    var j := SetIf(j, u.expert > 0, "expert", JInt(u.expert));
    SetIf(j, u.expertPlus > 0, "expertPlus", JInt(u.expertPlus))
  }

  /** Reads all five weights; a missing one reads as 0. */
  function UseWeightsFromJson(j: Json): (r: Result<UseWeights>)
    ensures j == EmptyObject ==> r == Ok(UseWeights(0, 0, 0, 0, 0))
  {
    var easy :- IntValue(j, "easy");
    var normal :- IntValue(j, "normal");
    var hard :- IntValue(j, "hard");
    var expert :- IntValue(j, "expert");
    var expertPlus :- IntValue(j, "expertPlus");
    Ok(UseWeights(easy, normal, hard, expert, expertPlus))
  }

  /** Writing then reading keeps each positive weight and turns every other weight into 0. */
  lemma UseWeightsRoundTrip(u: UseWeights)
    ensures UseWeightsFromJson(UseWeightsToJson(u))
            == Ok(UseWeights(Max0(u.easy), Max0(u.normal), Max0(u.hard), Max0(u.expert), Max0(u.expertPlus)))
  {
  }

  //======================================================================
  // Transformation
  //======================================================================

  /** Writes the source name, and each flag only when it is set. */
  function TransformationToJson(t: Transformation): (j: Json)
    ensures Lookup(j, "patternName") == Some(JString(t.patternName))
    ensures Lookup(j, "swapColors") == if t.swapColors then Some(JBool(true)) else None
    ensures Lookup(j, "mirrorLeftRight") == if t.mirrorLeftRight then Some(JBool(true)) else None
    ensures Lookup(j, "swapUpDown") == if t.swapUpDown then Some(JBool(true)) else None
    ensures Lookup(j, "duplicateCubes") == if t.duplicateCubes then Some(JBool(true)) else None
  {
    var j := Set(EmptyObject, "patternName", JString(t.patternName));
    var j := SetIf(j, t.swapColors, "swapColors", JBool(true));
    var j := SetIf(j, t.mirrorLeftRight, "mirrorLeftRight", JBool(true));
    var j := SetIf(j, t.duplicateCubes, "duplicateCubes", JBool(true));
    SetIf(j, t.swapUpDown, "swapUpDown", JBool(true))
  }

  /** Reads the name and the four flags; the link is always reset to null. */
  function TransformationFromJson(j: Json): (r: Result<Transformation>)
    ensures r.Ok? ==> r.value.pattern.None?
  {
    var patternName :- StringValue(j, "patternName");
    var swapColors :- BoolValue(j, "swapColors");
    var mirrorLeftRight :- BoolValue(j, "mirrorLeftRight");
    var swapUpDown :- BoolValue(j, "swapUpDown");
    var duplicateCubes :- BoolValue(j, "duplicateCubes");
    Ok(Transformation(patternName, None, swapColors, mirrorLeftRight, swapUpDown, duplicateCubes))
  }

  /** The name and all four flags come back exactly; only the link is lost. */
  lemma TransformationRoundTrip(t: Transformation)
    ensures TransformationFromJson(TransformationToJson(t)) == Ok(t.(pattern := None))
  {
  }

  //======================================================================
  // Location and Note
  //======================================================================

  function LocationToJson(loc: Location): (j: Json)
    ensures loc.preferred <==> Lookup(j, "preferred").Some?
  {
    var j := Set(EmptyObject, "lineIndex", JInt(loc.lineIndex));
    var j := Set(j, "lineLayer", JInt(loc.lineLayer));
    SetIf(j, loc.preferred, "preferred", JBool(true))
  }

  function LocationFromJson(j: Json): Result<Location> {
    var lineIndex :- IntValue(j, "lineIndex");
    var lineLayer :- IntValue(j, "lineLayer");
    var preferred :- BoolValue(j, "preferred");
    Ok(Location(lineIndex, lineLayer, preferred))
  }

  lemma LocationRoundTrip(loc: Location)
    ensures LocationFromJson(LocationToJson(loc)) == Ok(loc)
  {
  }

  function NoteToJson(n: Note): (j: Json)
    ensures Lookup(j, "cubeType") == Some(JString(CubeTypeToString(n.cubeType)))
    ensures Lookup(j, "cutDirection") == Some(JString(CutDirectionToString(n.cutDirection)))
  {
    var j := Set(EmptyObject, "cubeType", JString(CubeTypeToString(n.cubeType)));
    var j := Set(j, "cutDirection", JString(CutDirectionToString(n.cutDirection)));
    var j := Set(j, "relativeX", JInt(n.relativeX));
    Set(j, "relativeY", JInt(n.relativeY))
  }

  /** Reads a note; unknown colour and direction names read as Red and Down. */
  function NoteFromJson(j: Json): (r: Result<Note>)
    ensures r.Ok? && (forall s :: Lookup(j, "cubeType") != Some(JString(s)) || s !in CubeTypeNames) ==> r.value.cubeType == Red
    ensures r.Ok? && (forall s :: Lookup(j, "cutDirection") != Some(JString(s)) || s !in CutDirectionNames) ==> r.value.cutDirection == Down
  {
    var cubeType :- StringValue(j, "cubeType");
    var cutDirection :- StringValue(j, "cutDirection");
    var relativeX :- IntValue(j, "relativeX");
    var relativeY :- IntValue(j, "relativeY");
    Ok(Note(ToCubeType(cubeType), ToCutDirection(cutDirection), relativeX, relativeY))
  }

  lemma NoteRoundTrip(n: Note)
    ensures NoteFromJson(NoteToJson(n)) == Ok(n)
  {
  }

  //======================================================================
  // Vectors of them
  //======================================================================

  /** `NoteSet::toJSON` into a fresh array: one object per note. */
  function NoteSetToJson(s: NoteSet): (j: Json)
    ensures VectorToJson(s, EmptyArray, NoteToJson) == Ok(j)
  {
    match VectorToJson(s, EmptyArray, NoteToJson)
    case Ok(j) => j
    case Err(_) => JNull
  }

  function NoteSetFromJson(j: Json): Result<NoteSet> {
    VectorFromJson([], j, NoteFromJson)
  }

  /** `NoteSequence::toJSON`: one array per note group. */
  function NoteSequenceToJson(ns: NoteSequence): Json {
    match VectorToJson(ns, EmptyArray, NoteSetToJson)
    case Ok(j) => j
    case Err(_) => JNull
  }

  /** `NoteSequence::fromJSON` into an empty sequence. */
  function NoteSequenceFromJson(j: Json): Result<NoteSequence> {
    VectorFromJson([], j, NoteSetFromJson)
  }

  function LocationsToJson(locs: seq<Location>): Json {
    match VectorToJson(locs, EmptyArray, LocationToJson)
    case Ok(j) => j
    case Err(_) => JNull
  }

  function LocationsFromJson(j: Json): Result<seq<Location>> {
    VectorFromJson([], j, LocationFromJson)
  }

  /** Note groups, their order and every note in them survive a write and a read. */
  lemma NoteSequenceRoundTrip(ns: NoteSequence)
    ensures NoteSequenceFromJson(NoteSequenceToJson(ns)) == Ok(ns)
  {
    forall n: Note
      ensures NoteFromJson(NoteToJson(n)) == Ok(n)
    {
      NoteRoundTrip(n);
    }
    forall s: NoteSet
      ensures NoteSetFromJson(NoteSetToJson(s)) == Ok(s)
    {
      VectorRoundTrip([], s, NoteToJson, NoteFromJson);
    }
    VectorRoundTrip([], ns, NoteSetToJson, NoteSetFromJson);
  }

  lemma LocationsRoundTrip(locs: seq<Location>)
    ensures LocationsFromJson(LocationsToJson(locs)) == Ok(locs)
  {
    forall loc: Location
      ensures LocationFromJson(LocationToJson(loc)) == Ok(loc)
    {
      LocationRoundTrip(loc);
    }
    VectorRoundTrip([], locs, LocationToJson, LocationFromJson);
  }

  //======================================================================
  // Pattern
  //======================================================================

  /**
   * The object `Pattern::toJSON` writes, over already serialised parts: a
   * derived pattern writes its transformation instead of its starting
   * locations and notes.
   */
  function PatternFields(name: string, difficulty: string, weights: Json, derived: bool,
                         transformation: Json, locations: Json, notes: Json): (j: Json)
    ensures Lookup(j, "name") == Some(JString(name))
    ensures Lookup(j, "difficulty") == Some(JString(difficulty))
    ensures Lookup(j, "useWeights") == Some(weights)
    ensures Lookup(j, "transformation") == if derived then Some(transformation) else None
    ensures Lookup(j, "startingLocations") == if derived then None else Some(locations)
    ensures Lookup(j, "noteSequence") == if derived then None else Some(notes)
  {
    var j := Set(EmptyObject, "name", JString(name));
    var j := Set(j, "difficulty", JString(difficulty));
    var j := Set(j, "useWeights", weights);
    if derived then
      Set(j, "transformation", transformation)
    else
      var j := Set(j, "startingLocations", locations);
      Set(j, "noteSequence", notes)
  }

  /** `Pattern::toJSON` */
  function PatternToJson(p: Pattern): Json {
    PatternFields(p.name, PatternDifficultyToString(p.difficulty), UseWeightsToJson(p.useWeights),
                  |p.transformation.patternName| > 0, TransformationToJson(p.transformation),
                  LocationsToJson(p.startingLocations), NoteSequenceToJson(p.noteSequence))
  }

  /** `Pattern::fromJSON` into a freshly constructed pattern. */
  function PatternFromJson(j: Json): (r: Result<Pattern>)
    ensures r.Ok? ==> r.value.transformedPattern.None? && r.value.transformation.pattern.None?
    ensures r.Ok? && Lookup(j, "transformation").None? ==> r.value.transformation == DefaultTransformation
  {
    var name :- StringValue(j, "name");
    var difficulty :- StringValue(j, "difficulty");
    var useWeights :- UseWeightsFromJson(JsonValue(j, "useWeights"));
    var startingLocations :- LocationsFromJson(JsonValue(j, "startingLocations"));
    var noteSequence :- NoteSequenceFromJson(JsonValue(j, "noteSequence"));
    var transformation :-
      match Lookup(j, "transformation")
      case None => Ok(DefaultTransformation)
      case Some(tj) => TransformationFromJson(tj);
    Ok(Pattern(name, ToPatternDifficulty(difficulty), useWeights, startingLocations, noteSequence, transformation, None))
  }

  function Clamped(u: UseWeights): UseWeights {
    UseWeights(Max0(u.easy), Max0(u.normal), Max0(u.hard), Max0(u.expert), Max0(u.expertPlus))
  }

  /**
   * Writing and reading a derived pattern: name, difficulty and the
   * transformation (without its link) survive, weights are clamped at 0,
   * and it comes back with no cells and no notes.
   */
  lemma DerivedPatternRoundTrip(p: Pattern)
    requires |p.transformation.patternName| > 0
    ensures PatternFromJson(PatternToJson(p))
            == Ok(p.(useWeights := Clamped(p.useWeights), startingLocations := [], noteSequence := [],
                     transformation := p.transformation.(pattern := None), transformedPattern := None))
  {
    var j := PatternToJson(p);
    UseWeightsRoundTrip(p.useWeights);
    TransformationRoundTrip(p.transformation);
    assert StringValue(j, "name") == Ok(p.name);
    assert StringValue(j, "difficulty") == Ok(PatternDifficultyToString(p.difficulty));
    assert JsonValue(j, "useWeights") == UseWeightsToJson(p.useWeights);
    assert JsonValue(j, "startingLocations") == EmptyObject;
    assert JsonValue(j, "noteSequence") == EmptyObject;
    assert Lookup(j, "transformation") == Some(TransformationToJson(p.transformation));
  }

  /**
   * Writing and reading a plain pattern: name, difficulty, cells and notes
   * survive, weights are clamped at 0 and the transformation flags reset.
   */
  lemma PlainPatternRoundTrip(p: Pattern)
    requires |p.transformation.patternName| == 0
    ensures PatternFromJson(PatternToJson(p))
            == Ok(p.(useWeights := Clamped(p.useWeights), transformation := DefaultTransformation,
                     transformedPattern := None))
  {
    var j := PatternToJson(p);
    UseWeightsRoundTrip(p.useWeights);
    LocationsRoundTrip(p.startingLocations);
    NoteSequenceRoundTrip(p.noteSequence);
    assert StringValue(j, "name") == Ok(p.name);
    assert StringValue(j, "difficulty") == Ok(PatternDifficultyToString(p.difficulty));
    assert JsonValue(j, "useWeights") == UseWeightsToJson(p.useWeights);
    assert JsonValue(j, "startingLocations") == LocationsToJson(p.startingLocations);
    assert JsonValue(j, "noteSequence") == NoteSequenceToJson(p.noteSequence);
    assert Lookup(j, "transformation") == None;
  }
}

=== FILE: patterns.dfy ===
/**
 * The pattern library: weights per difficulty, note groups relative to a
 * starting cell, and transformations that derive one pattern from
 * another by swapping colours and mirroring.
 *
 * Patterns live in a library (an arena `seq<Pattern>`); a pointer to a
 * pattern is its index. A pattern's cached derived pattern is owned by
 * the pattern and only ever receives a note sequence, so it is stored as
 * `transformedPattern: Option<NoteSequence>` and viewed through
 * `DerivedPattern`.
 */
module Patterns {
  import opened Results
  import opened NoteVocabulary

  //======================================================================
  // Data shapes
  //======================================================================

  /** How often a pattern is used per level: 0 never, 500 average, 1000 twice as often. */
  datatype UseWeights = UseWeights(easy: int, normal: int, hard: int, expert: int, expertPlus: int)

  const DefaultWeight: int := 500

  const DefaultUseWeights: UseWeights := UseWeights(DefaultWeight, DefaultWeight, DefaultWeight, DefaultWeight, DefaultWeight)

  /** One cube, placed relative to the pattern's starting cell. */
  datatype Note = Note(cubeType: CubeType, cutDirection: CutDirection, relativeX: int, relativeY: int)

  /** Notes struck on the same beat. */
  type NoteSet = seq<Note>

  type NoteSequence = seq<NoteSet>

  /** A grid cell: lineIndex 0 (left) to 3 (right), lineLayer 0 (bottom) to 2 (top). */
  datatype Location = Location(lineIndex: int, lineLayer: int, preferred: bool)

  const GridColumns: int := 4
  const GridRows: int := 3

  predicate InGrid(loc: Location) {
    0 <= loc.lineIndex < GridColumns && 0 <= loc.lineLayer < GridRows
  }

  /** Derivation of a pattern from the pattern named `patternName`, resolved to the index `pattern`. */
  datatype Transformation = Transformation(
    patternName: string,
    pattern: Option<nat>,
    swapColors: bool,
    mirrorLeftRight: bool,
    swapUpDown: bool,
    duplicateCubes: bool)

  const DefaultTransformation: Transformation := Transformation("", None, false, false, false, false)

  datatype Pattern = Pattern(
    name: string,
    difficulty: PatternDifficulty,
    useWeights: UseWeights,
    startingLocations: seq<Location>,
    noteSequence: NoteSequence,
    transformation: Transformation,
    transformedPattern: Option<NoteSequence>)

  type Library = seq<Pattern>

  /** Every resolved link points into the library. */
  predicate LinksValid(lib: Library) {
    forall k :: 0 <= k < |lib| && lib[k].transformation.pattern.Some? ==> lib[k].transformation.pattern.value < |lib|
  }

  /**
   * The pattern `new Pattern()` creates for a derivation, holding only a
   * note sequence. Its difficulty is left uninitialised by the C++ and is
   * shown here as Easy.
   */
  function DerivedPattern(noteSequence: NoteSequence): (p: Pattern)
    ensures p.startingLocations == [] && p.noteSequence == noteSequence
    ensures p.useWeights == DefaultUseWeights && p.transformation == DefaultTransformation
  {
    Pattern("", PatternEasy, DefaultUseWeights, [], noteSequence, DefaultTransformation, None)
  }

  //======================================================================
  // Weights
  //======================================================================

  /** `getWeight`: the weight for a level; `All` uses the easy weight. */
  function GetWeight(p: Pattern, d: LevelDifficulty): (w: int)
    ensures d == Easy || d == All ==> w == p.useWeights.easy
    ensures d == Normal ==> w == p.useWeights.normal
    ensures d == Hard ==> w == p.useWeights.hard
    ensures d == Expert ==> w == p.useWeights.expert
    ensures d == ExpertPlus ==> w == p.useWeights.expertPlus
  {
    match d
    case Easy => p.useWeights.easy
    case Normal => p.useWeights.normal
    case Hard => p.useWeights.hard
    case Expert => p.useWeights.expert
    case ExpertPlus => p.useWeights.expertPlus
    case All => p.useWeights.easy
  }

  /** A default-constructed pattern uses 500 at every level, All included. */
  lemma DefaultWeights(p: Pattern, d: LevelDifficulty)
    requires p.useWeights == DefaultUseWeights
    ensures GetWeight(p, d) == DefaultWeight
  {
  }

  //======================================================================
  // Cumulative-weight selection
  //======================================================================

  function Sum(w: seq<int>): int {
    if |w| == 0 then 0 else Sum(w[..|w| - 1]) + w[|w| - 1]
  }

  /** The running sum after the first n weights. */
  function PrefixSum(w: seq<int>, n: nat): int
    requires n <= |w|
  {
    Sum(w[..n])
  }

  lemma PrefixSumStep(w: seq<int>, n: nat)
    requires n < |w|
    ensures PrefixSum(w, n + 1) == PrefixSum(w, n) + w[n]
  {
    assert w[..n + 1][..n] == w[..n];
  }

  /**
   * The rule `selectPattern` follows: the first index whose running sum
   * strictly exceeds `select`, or the last index when none does.
   */
  predicate IsSelected(w: seq<int>, select: real, i: nat) {
    i < |w|
    && (forall n :: 1 <= n <= i ==> PrefixSum(w, n) as real <= select)
    && (PrefixSum(w, i + 1) as real > select || i == |w| - 1)
  }

  /** The scan of `selectPattern` from index k, carrying the running sum of the earlier weights. */
  function ScanExceeding(w: seq<int>, select: real, k: nat, running: int): (r: nat)
    requires k < |w| && running == PrefixSum(w, k)
    requires forall n :: 1 <= n <= k ==> PrefixSum(w, n) as real <= select
    ensures IsSelected(w, select, r)
    decreases |w| - k
  {
    PrefixSumStep(w, k);
    var sum := running + w[k];
    if sum as real > select || k == |w| - 1 then k
    else ScanExceeding(w, select, k + 1, sum)
  }

  /** The weights of a list of patterns at a level. */
  function Weights(ps: seq<Pattern>, d: LevelDifficulty): (w: seq<int>)
    ensures |w| == |ps| && forall i :: 0 <= i < |ps| ==> w[i] == GetWeight(ps[i], d)
  {
    seq(|ps|, i requires 0 <= i < |ps| => GetWeight(ps[i], d))
  }

  /**
   * `selectPattern` with `m = rand() / RAND_MAX`: null for an empty list,
   * otherwise the pattern the cumulative rule picks for `select = m * total`.
   */
  function SelectPattern(ps: seq<Pattern>, d: LevelDifficulty, m: real): (r: Option<nat>)
    ensures r.None? <==> |ps| == 0
    ensures r.Some? ==> IsSelected(Weights(ps, d), Sum(Weights(ps, d)) as real * m, r.value)
  {
    if |ps| == 0 then None
    else
      var w := Weights(ps, d);
      Some(ScanExceeding(w, Sum(w) as real * m, 0, 0))
  }

  /** The selection rule picks one index only. */
  lemma SelectedUnique(w: seq<int>, select: real, i: nat, j: nat)
    requires IsSelected(w, select, i) && IsSelected(w, select, j)
    ensures i == j
  {
  }

  /**
   * With non-negative weights, a positive total and `m < 1`, the pattern
   * selected always has a positive weight: a "never use" pattern is never picked.
   */
  lemma SelectNeverZeroWeight(ps: seq<Pattern>, d: LevelDifficulty, m: real)
    requires forall i :: 0 <= i < |ps| ==> GetWeight(ps[i], d) >= 0
    requires Sum(Weights(ps, d)) > 0
    requires 0.0 <= m < 1.0
    ensures SelectPattern(ps, d, m).Some?
    ensures GetWeight(ps[SelectPattern(ps, d, m).value], d) > 0
  {
    var w := Weights(ps, d);
    var select := Sum(w) as real * m;
    var i := SelectPattern(ps, d, m).value;
    ScaleBelow(Sum(w), m, select);
    SelectedHasWeight(w, select, i);
  }

  /** With non-negative weights and `0 <= select < total`, the selected weight is positive. */
  lemma SelectedHasWeight(w: seq<int>, select: real, i: nat)
    requires forall k :: 0 <= k < |w| ==> w[k] >= 0
    requires 0.0 <= select < Sum(w) as real
    requires IsSelected(w, select, i)
    ensures w[i] > 0
  {
    assert PrefixSum(w, i + 1) as real > select by {
      if i == |w| - 1 {
        assert w[..|w|] == w;
      }
    }
    PrefixSumStep(w, i);
    if i > 0 {
      assert PrefixSum(w, i) as real <= select;
    } else {
      assert w[..0] == [];
    }
  }

  lemma ScaleBelow(total: int, m: real, select: real)
    requires total > 0 && 0.0 <= m < 1.0 && select == total as real * m
    ensures 0.0 <= select < total as real
  {
    var t := total as real;
    assert t * m >= 0.0;
    assert t * (1.0 - m) > 0.0;
    assert t * (1.0 - m) == t - t * m;
  }

  lemma ScaleAtMost(total: real, m: real)
    requires total >= 0.0 && 0.0 <= m <= 1.0
    ensures 0.0 <= total * m <= total
  {
    assert total * m <= total * 1.0;
  }

  //======================================================================
  // Starting location
  //======================================================================

  /** A preferred cell counts 10, any other 3. */
  function LocationWeight(loc: Location): int {
    if loc.preferred then 10 else 3
  }

  function LocationWeights(locs: seq<Location>): (w: seq<int>)
    ensures |w| == |locs| && forall i :: 0 <= i < |locs| ==> w[i] == LocationWeight(locs[i]) && w[i] > 0
  {
    seq(|locs|, i requires 0 <= i < |locs| => LocationWeight(locs[i]))
  }

  /**
   * The rule `getStartingLocation` follows: the first index whose running
   * weight reaches `select`.
   */
  predicate IsReaching(w: seq<int>, select: real, i: nat) {
    i < |w|
    && (forall n :: 1 <= n <= i ==> PrefixSum(w, n) as real < select)
    && PrefixSum(w, i + 1) as real >= select
  }

  /** No running weight reaches `select`. */
  predicate NoneReaching(w: seq<int>, select: real) {
    forall n :: 1 <= n <= |w| ==> PrefixSum(w, n) as real < select
  }

  /** The first index whose running weight reaches `select` (note: `>=`, unlike `selectPattern`). */
  function ScanReaching(w: seq<int>, select: real, k: nat, running: int): (r: Option<nat>)
    requires k <= |w| && running == PrefixSum(w, k)
    requires forall n :: 1 <= n <= k ==> PrefixSum(w, n) as real < select
    ensures r.Some? ==> k <= r.value && IsReaching(w, select, r.value)
    ensures r.None? ==> NoneReaching(w, select)
    decreases |w| - k
  {
    if k == |w| then None
    else
      PrefixSumStep(w, k);
      var sum := running + w[k];
      if sum as real >= select then Some(k)
      else ScanReaching(w, select, k + 1, sum)
  }

  /** The first index whose running weight reaches `select`, if any. */
  function FirstReaching(w: seq<int>, select: real): (r: Option<nat>)
    ensures r.Some? ==> IsReaching(w, select, r.value)
    ensures r.None? ==> NoneReaching(w, select)
  {
    assert w[..0] == [];
    ScanReaching(w, select, 0, 0)
  }

  /**
   * The cell `getStartingLocation` chooses, if any: the first one whose
   * running weight reaches `m` times the total weight.
   */
  function StartingIndex(locs: seq<Location>, m: real): (r: Option<nat>)
    ensures r.Some? ==> r.value < |locs|
    ensures r.Some? ==> IsReaching(LocationWeights(locs), Sum(LocationWeights(locs)) as real * m, r.value)
    ensures r.None? ==> NoneReaching(LocationWeights(locs), Sum(LocationWeights(locs)) as real * m)
  {
    FirstReaching(LocationWeights(locs), Sum(LocationWeights(locs)) as real * m)
  }

  /**
   * `getStartingLocation(lineLayer, lineIndex)`: overwrites both with the
   * chosen cell, or leaves them as they were when no cell is chosen.
   * Returns (lineLayer, lineIndex).
   */
  function GetStartingLocation(locs: seq<Location>, m: real, lineLayer: int, lineIndex: int): (r: (int, int))
    ensures |locs| == 0 ==> r == (lineLayer, lineIndex)
    ensures StartingIndex(locs, m).Some? ==>
              r == (locs[StartingIndex(locs, m).value].lineLayer, locs[StartingIndex(locs, m).value].lineIndex)
  {
    match StartingIndex(locs, m)
    case None => (lineLayer, lineIndex)
    case Some(i) => (locs[i].lineLayer, locs[i].lineIndex)
  }

  /** With at least one cell and `0 <= m <= 1`, some listed cell is always chosen. */
  lemma StartingLocationChosen(locs: seq<Location>, m: real)
    requires |locs| > 0 && 0.0 <= m <= 1.0
    ensures StartingIndex(locs, m).Some?
  {
    var w := LocationWeights(locs);
    var total := Sum(w);
    PositiveSum(w);
    assert w[..|w|] == w;
    ScaleAtMost(total as real, m);
    assert PrefixSum(w, |w|) == total;
  }

  lemma {:induction false} PositiveSum(w: seq<int>)
    requires forall i :: 0 <= i < |w| ==> w[i] > 0
    ensures Sum(w) >= 0
    ensures |w| > 0 ==> Sum(w) > 0
  {
    if |w| > 0 {
      PositiveSum(w[..|w| - 1]);
    }
  }

  //======================================================================
  // Transformations
  //======================================================================

  /** One note of a derived pattern: colours swapped, mirrored left/right, arrows flipped up/down. */
  function TransformNote(t: Transformation, n: Note): (r: Note)
    ensures r.cubeType == if t.swapColors then SwapCubeType(n.cubeType) else n.cubeType
    ensures r.relativeX == if t.mirrorLeftRight then -n.relativeX else n.relativeX
    ensures r.relativeY == n.relativeY
    ensures DirectionColumn(r.cutDirection) == if t.mirrorLeftRight then 2 - DirectionColumn(n.cutDirection) else DirectionColumn(n.cutDirection)
    ensures DirectionRow(r.cutDirection) == if t.swapUpDown then 2 - DirectionRow(n.cutDirection) else DirectionRow(n.cutDirection)
  {
    Note(
      if t.swapColors then SwapCubeType(n.cubeType) else n.cubeType,
      MirrorCutDirection(n.cutDirection, t.mirrorLeftRight, t.swapUpDown),
      if t.mirrorLeftRight then -n.relativeX else n.relativeX,
      n.relativeY)
  }

  function TransformSet(t: Transformation, s: NoteSet): (r: NoteSet)
    ensures |r| == |s| && forall k :: 0 <= k < |s| ==> r[k] == TransformNote(t, s[k])
  {
    seq(|s|, k requires 0 <= k < |s| => TransformNote(t, s[k]))
  }

  /** The derived note sequence: the same groups in the same order, each note transformed. */
  function TransformSequence(t: Transformation, ns: NoteSequence): (r: NoteSequence)
    ensures |r| == |ns| && forall k :: 0 <= k < |ns| ==> r[k] == TransformSet(t, ns[k])
  {
    seq(|ns|, k requires 0 <= k < |ns| => TransformSet(t, ns[k]))
  }

  /** Applying the same transformation twice gives back the original notes. */
  lemma TransformSequenceInvolution(t: Transformation, ns: NoteSequence)
    ensures TransformSequence(t, TransformSequence(t, ns)) == ns
  {
    forall k, m | 0 <= k < |ns| && 0 <= m < |ns[k]|
      ensures TransformNote(t, TransformNote(t, ns[k][m])) == ns[k][m]
    {
      var n := ns[k][m];
      SwapCubeTypeInvolution(n.cubeType);
      MirrorCutDirectionInvolution(n.cutDirection, t.mirrorLeftRight, t.swapUpDown);
    }
    forall k | 0 <= k < |ns|
      ensures TransformSet(t, TransformSet(t, ns[k])) == ns[k]
    {
    }
  }

  /** A starting cell as the receiver records it: column mirrored when mirroring left/right. */
  function MirrorLocation(t: Transformation, loc: Location): (r: Location)
    ensures r.lineLayer == loc.lineLayer && r.preferred == loc.preferred
    ensures r.lineIndex == if t.mirrorLeftRight then 3 - loc.lineIndex else loc.lineIndex
    ensures InGrid(loc) ==> InGrid(r)
  {
    Location(if t.mirrorLeftRight then 3 - loc.lineIndex else loc.lineIndex, loc.lineLayer, loc.preferred)
  }

  lemma MirrorLocationInvolution(t: Transformation, loc: Location)
    ensures MirrorLocation(t, MirrorLocation(t, loc)) == loc
  {
  }

  function MirrorLocations(t: Transformation, locs: seq<Location>): (r: seq<Location>)
    ensures |r| == |locs| && forall k :: 0 <= k < |locs| ==> r[k] == MirrorLocation(t, locs[k])
  {
    seq(|locs|, k requires 0 <= k < |locs| => MirrorLocation(t, locs[k]))
  }

  /** `isTransformation`: only the resolved link counts, not the name. */
  predicate IsTransformation(p: Pattern) {
    p.transformation.pattern.Some?
  }

  /** A pattern `getTransformation` returns as itself. */
  predicate IsPlain(p: Pattern) {
    |p.transformation.patternName| == 0 || p.transformation.pattern.None?
  }

  /** Indices whose derived pattern has not been built yet. */
  function Uncached(lib: Library): set<nat> {
    set k: nat | k < |lib| && lib[k].transformedPattern.None?
  }

  /** Only starting locations and derived-pattern caches ever change. */
  predicate SameDefinitions(lib: Library, lib': Library) {
    |lib'| == |lib|
    && forall k :: 0 <= k < |lib| ==>
         lib'[k].name == lib[k].name && lib'[k].difficulty == lib[k].difficulty
         && lib'[k].useWeights == lib[k].useWeights && lib'[k].noteSequence == lib[k].noteSequence
         && lib'[k].transformation == lib[k].transformation
  }

  /** Built derived patterns are never touched again, and neither is their owner. */
  predicate CachedKept(lib: Library, lib': Library)
    requires |lib'| == |lib|
  {
    forall k :: 0 <= k < |lib| && lib[k].transformedPattern.Some? ==> lib'[k] == lib[k]
  }

  datatype Resolution = Resolution(lib: Library, pattern: Pattern)

  /**
   * `getTransformation` on pattern i. A plain pattern is returned as itself.
   * Otherwise, on the first call, the cache is created first, the source is
   * resolved (recursively), the source's starting cells are mirrored and
   * appended to pattern i's OWN starting locations, and the source's notes
   * are transformed into the derived pattern, which is returned.
   */
  function GetTransformation(lib: Library, i: nat): (r: Resolution)
    requires i < |lib| && LinksValid(lib)
    ensures SameDefinitions(lib, r.lib) && LinksValid(r.lib)
    ensures CachedKept(lib, r.lib)
    ensures Uncached(r.lib) <= Uncached(lib)
    ensures IsPlain(lib[i]) ==> r == Resolution(lib, lib[i])
    ensures !IsPlain(lib[i]) ==>
              r.lib[i].transformedPattern.Some? && r.pattern == DerivedPattern(r.lib[i].transformedPattern.value)
    ensures !IsPlain(lib[i]) && lib[i].transformedPattern.Some? ==> r.lib == lib
    decreases |Uncached(lib)|
  {
    var p := lib[i];
    if IsPlain(p) then Resolution(lib, p)
    else if p.transformedPattern.Some? then Resolution(lib, DerivedPattern(p.transformedPattern.value))
    else
      var t := p.transformation;
      var lib1 := lib[i := p.(transformedPattern := Some([]))];
      assert Uncached(lib1) == Uncached(lib) - {i};
      var from := GetTransformation(lib1, t.pattern.value);
      var q := from.lib[i];
      var derived := q.transformedPattern.value + TransformSequence(t, from.pattern.noteSequence);
      var lib2 := from.lib[i := q.(startingLocations := q.startingLocations + MirrorLocations(t, from.pattern.startingLocations),
                                   transformedPattern := Some(derived))];
      assert Uncached(lib2) <= Uncached(from.lib);
      Resolution(lib2, DerivedPattern(derived))
  }

  /** Asking again changes nothing and returns the same pattern. */
  lemma GetTransformationIdempotent(lib: Library, i: nat)
    requires i < |lib| && LinksValid(lib)
    ensures GetTransformation(GetTransformation(lib, i).lib, i)
            == Resolution(GetTransformation(lib, i).lib, GetTransformation(lib, i).pattern)
  {
  }

  /**
   * The first call on a derived pattern, for any source: pattern i's cache
   * is created empty, the source is resolved over that library, and then
   * the derived notes are the resolved source's notes transformed, the
   * derived pattern has no starting cells, and pattern i gains the resolved
   * source's cells, mirrored. Every other pattern is as the source's
   * resolution left it.
   */
  lemma TransformationOfResolvedSource(lib: Library, i: nat)
    requires i < |lib| && LinksValid(lib)
    requires !IsPlain(lib[i]) && lib[i].transformedPattern.None?
    ensures var t := lib[i].transformation;
            var from := GetTransformation(lib[i := lib[i].(transformedPattern := Some([]))], t.pattern.value);
            var r := GetTransformation(lib, i);
            r.pattern.noteSequence == TransformSequence(t, from.pattern.noteSequence)
            && r.pattern.startingLocations == []
            && r.lib[i].startingLocations == lib[i].startingLocations + MirrorLocations(t, from.pattern.startingLocations)
            && r.lib[i].transformedPattern == Some(r.pattern.noteSequence)
            && forall k :: 0 <= k < |lib| && k != i ==> r.lib[k] == from.lib[k]
  {
    var t := lib[i].transformation;
    var lib1 := lib[i := lib[i].(transformedPattern := Some([]))];
    var from := GetTransformation(lib1, t.pattern.value);
    assert from.lib[i] == lib1[i];
    assert [] + TransformSequence(t, from.pattern.noteSequence) == TransformSequence(t, from.pattern.noteSequence);
  }

  /**
   * Deriving from a plain source: the derived pattern holds the source's
   * groups, transformed, and has no starting cells; the mirrored cells go
   * to the receiver's own list; the source itself is untouched.
   */
  lemma TransformationOfPlainSource(lib: Library, i: nat)
    requires i < |lib| && LinksValid(lib)
    requires !IsPlain(lib[i]) && lib[i].transformedPattern.None?
    requires lib[i].transformation.pattern.value != i
    requires IsPlain(lib[lib[i].transformation.pattern.value])
    ensures var t := lib[i].transformation;
            var source := lib[t.pattern.value];
            var r := GetTransformation(lib, i);
            r.pattern.noteSequence == TransformSequence(t, source.noteSequence)
            && r.pattern.startingLocations == []
            && r.lib[i].startingLocations == lib[i].startingLocations + MirrorLocations(t, source.startingLocations)
            && r.lib[t.pattern.value] == source
  {
    var t := lib[i].transformation;
    var lib1 := lib[i := lib[i].(transformedPattern := Some([]))];
    assert lib1[t.pattern.value] == lib[t.pattern.value];
    assert GetTransformation(lib1, t.pattern.value) == Resolution(lib1, lib[t.pattern.value]);
    assert [] + TransformSequence(t, lib[t.pattern.value].noteSequence) == TransformSequence(t, lib[t.pattern.value].noteSequence);
  }

  /**
   * A transformation of a transformation: the notes compose, but the
   * intermediate derived pattern has no starting cells, so the outer
   * receiver gains none, while the intermediate receiver gains the
   * mirrored cells of the plain source.
   */
  lemma TransformationOfTransformation(lib: Library, i: nat)
    requires i < |lib| && LinksValid(lib)
    requires !IsPlain(lib[i]) && lib[i].transformedPattern.None?
    requires var j := lib[i].transformation.pattern.value;
             j != i && !IsPlain(lib[j]) && lib[j].transformedPattern.None?
             && lib[j].transformation.pattern.value != i && lib[j].transformation.pattern.value != j
             && IsPlain(lib[lib[j].transformation.pattern.value])
    ensures var ti := lib[i].transformation;
            var j := ti.pattern.value;
            var tj := lib[j].transformation;
            var source := lib[tj.pattern.value];
            var r := GetTransformation(lib, i);
            r.pattern.noteSequence == TransformSequence(ti, TransformSequence(tj, source.noteSequence))
            && r.lib[i].startingLocations == lib[i].startingLocations
            && r.lib[j].startingLocations == lib[j].startingLocations + MirrorLocations(tj, source.startingLocations)
  {
    var ti := lib[i].transformation;
    var j := ti.pattern.value;
    var lib1 := lib[i := lib[i].(transformedPattern := Some([]))];
    TransformationOfPlainSource(lib1, j);
    var from := GetTransformation(lib1, j);
    assert from.pattern.startingLocations == [];
    assert from.lib[i] == lib1[i];
    assert lib[i].startingLocations + MirrorLocations(ti, []) == lib[i].startingLocations;
  }

  //======================================================================
  // Linking by name
  //======================================================================

  /** The first index in lib[..n] with this name, if any. */
  function FirstNamed(lib: Library, name: string, n: nat): (r: Option<nat>)
    requires n <= |lib|
    ensures r.Some? ==> r.value < n && lib[r.value].name == name
                        && forall k :: 0 <= k < r.value ==> lib[k].name != name
    ensures r.None? ==> forall k :: 0 <= k < n ==> lib[k].name != name
  {
    if n == 0 then None
    else
      match FirstNamed(lib, name, n - 1)
      case Some(k) => Some(k)
      case None => if lib[n - 1].name == name then Some(n - 1) else None
  }

  /** The first loop of `mapInto`: `map::insert` of each pattern, which keeps an existing entry. */
  function InsertNames(lib: Library, m: map<string, nat>, n: nat): (r: map<string, nat>)
    requires n <= |lib|
    ensures forall name :: name in r <==> name in m || FirstNamed(lib, name, n).Some?
    ensures forall name :: name in m ==> r[name] == m[name]
    ensures forall name :: name !in m && name in r ==> r[name] == FirstNamed(lib, name, n).value
  {
    if n == 0 then m
    else
      var prev := InsertNames(lib, m, n - 1);
      var name := lib[n - 1].name;
      if name in prev then prev else prev[name := n - 1]
  }

  /** The second loop of `mapInto`: link each transformation whose source name is a key. */
  function LinkPattern(p: Pattern, names: map<string, nat>): (r: Pattern)
    ensures r.(transformation := p.transformation) == p
    ensures r.transformation.(pattern := p.transformation.pattern) == p.transformation
    ensures |p.transformation.patternName| > 0 && p.transformation.patternName in names ==>
              r.transformation.pattern == Some(names[p.transformation.patternName])
    ensures !(|p.transformation.patternName| > 0 && p.transformation.patternName in names) ==> r == p
  {
    var t := p.transformation;
    if |t.patternName| > 0 && t.patternName in names then p.(transformation := t.(pattern := Some(names[t.patternName])))
    else p
  }

  datatype Mapped = Mapped(lib: Library, names: map<string, nat>)

  /**
   * `mapInto`: every name becomes a key (the first pattern with a name wins,
   * and entries already in the map are kept), then links are resolved by name.
   */
  function MapInto(lib: Library, m: map<string, nat>): (r: Mapped)
    ensures forall k :: 0 <= k < |lib| ==> lib[k].name in r.names
    ensures forall name :: name in r.names <==> name in m || exists k :: 0 <= k < |lib| && lib[k].name == name
    ensures forall k :: 0 <= k < |lib| && lib[k].name !in m ==>
              r.names[lib[k].name] <= k && lib[r.names[lib[k].name]].name == lib[k].name
    ensures |r.lib| == |lib|
    ensures forall k :: 0 <= k < |lib| ==> r.lib[k] == LinkPattern(lib[k], r.names)
  {
    var names := InsertNames(lib, m, |lib|);
    forall k | 0 <= k < |lib|
      ensures lib[k].name in names
    {
      assert FirstNamed(lib, lib[k].name, |lib|).Some?;
    }
    forall name | name in m || exists k :: 0 <= k < |lib| && lib[k].name == name
      ensures name in names
    {
    }
    Mapped(seq(|lib|, k requires 0 <= k < |lib| => LinkPattern(lib[k], names)), names)
  }

  /** When the map's entries point into the library and every link did, every link still does. */
  lemma MapIntoLinksValid(lib: Library, m: map<string, nat>)
    requires LinksValid(lib)
    requires forall name :: name in m ==> m[name] < |lib|
    ensures LinksValid(MapInto(lib, m).lib)
  {
    var r := MapInto(lib, m);
    forall k | 0 <= k < |lib| && r.lib[k].transformation.pattern.Some?
      ensures r.lib[k].transformation.pattern.value < |lib|
    {
      var name := lib[k].transformation.patternName;
      if |name| > 0 && name in r.names && name !in m {
        assert FirstNamed(lib, name, |lib|).Some?;
      }
    }
  }
}

=== FILE: pointer_map.dfy ===
/**
 * `PointerMap<K, V>`: a map from keys to owned, possibly null pointers.
 * A stored null pointer is `None`; `get` answers `None` both for a
 * stored null and for a missing key.
 */
module PointerMaps {
  import opened Results

  type PointerMap<K, V> = map<K, Option<V>>

  /** `contains`: whether `key` is present, whatever it points to. */
  predicate Contains<K, V>(m: PointerMap<K, V>, key: K) {
    key in m
  }

  /** `get`: the stored pointer, or null for a missing key; the map is not changed. */
  function Get<K, V>(m: PointerMap<K, V>, key: K): (r: Option<V>)
    ensures Contains(m, key) ==> r == m[key]
    ensures r.Some? ==> Contains(m, key) && m[key] == r
    ensures !Contains(m, key) ==> r == None
  {
    if key in m then m[key] else None
  }

  /** `map[key] = value`, the assignment a PointerMap inherits from `std::map`. */
  function Put<K(!new), V>(m: PointerMap<K, V>, key: K, value: V): (r: PointerMap<K, V>)
    ensures Contains(r, key) && Get(r, key) == Some(value)
    ensures forall k :: k != key ==> (Contains(r, k) <==> Contains(m, k)) && Get(r, k) == Get(m, k)
  {
    m[key := Some(value)]
  }

  /** `eraseAll`: deletes every pointee and clears the map. */
  function EraseAll<K(!new), V>(m: PointerMap<K, V>): (r: PointerMap<K, V>)
    ensures forall k :: !Contains(r, k) && Get(r, k) == None
  {
    map[]
  }
}

=== FILE: preferences.dfy ===
/**
 * The user preferences both programs persist as JSON: the library path,
 * the history of opened directories, and (in the pattern library) the
 * generator's defaults for each difficulty. Reading and writing the file
 * itself, the home directory and the singleton are left out; what is
 * modelled is the JSON each side writes and reads back.
 */
module Preferences {
  import opened Results
  import opened NoteVocabulary
  import opened JsonValues
  import opened StringVectors

  //======================================================================
  // History
  //======================================================================

  /** History entries are allocated by the preferences and are never null. */
  predicate NoNulls(h: StringVector) {
    None !in h
  }

  /** Removing a value leaves only entries that were there, so no null appears. */
  lemma RemoveKeepsNoNulls(h: StringVector, dirName: string)
    requires NoNulls(h)
    ensures NoNulls(Remove(h, dirName))
  {
    assert multiset(Remove(h, dirName))[None] == 0;
  }

  /** `_pushHistory`: the directory moves to (or is added at) the end. */
  function PushHistory(h: StringVector, dirName: string): (r: StringVector)
    ensures |r| > 0 && r[|r| - 1] == Some(dirName)
    ensures multiset(r) == multiset(h) - multiset{Some(dirName)} + multiset{Some(dirName)}
    ensures |r| == if Some(dirName) in h then |h| else |h| + 1
    ensures Some(dirName) !in h ==> r == h + [Some(dirName)]
    ensures Some(dirName) in h ==>
              exists i :: 0 <= i < |h| && Some(dirName) !in h[..i] && h[i] == Some(dirName)
                          && r == h[..i] + h[i + 1..] + [Some(dirName)]
  {
    Remove(h, dirName) + [Some(dirName)]
  }

  lemma PushHistoryKeepsNoNulls(h: StringVector, dirName: string)
    requires NoNulls(h)
    ensures NoNulls(PushHistory(h, dirName))
  {
    RemoveKeepsNoNulls(h, dirName);
  }

  /** Removing the value just appended to a vector without it gives the vector back. */
  lemma RemoveLast(v: StringVector, dirName: string)
    requires Some(dirName) !in v
    ensures Remove(v + [Some(dirName)], dirName) == v
  {
    var p := v + [Some(dirName)];
    var f := FirstIndexOf(p, dirName);
    assert f.Some? by {
      assert p[|v|] == Some(dirName);
    }
    assert forall k :: 0 <= k < |v| ==> p[k] == v[k];
    assert f.value == |v|;
    assert p[..|v|] == v;
  }

  /**
   * Pushing the same directory twice is pushing it once, as long as the
   * history did not already hold it twice (`remove` erases one copy only).
   */
  lemma PushHistoryIdempotent(h: StringVector, dirName: string)
    requires multiset(h)[Some(dirName)] <= 1
    ensures PushHistory(PushHistory(h, dirName), dirName) == PushHistory(h, dirName)
    ensures multiset(PushHistory(h, dirName))[Some(dirName)] == 1
  {
    var removed := Remove(h, dirName);
    assert Some(dirName) !in removed by {
      assert multiset(removed)[Some(dirName)] == 0;
    }
    RemoveLast(removed, dirName);
  }

  function HistoryEntryFromJson(j: Json): (r: Result<Option<string>>)
    ensures r.Ok? <==> j.JString?
    ensures r.Ok? ==> r.value == Some(j.s)
  {
    var s :- AsString(j);
    Ok(Some(s))
  }

  /** One entry per value of the stored array (a non-string throws); null reads as an empty history. */
  function HistoryFromJson(j: Json): (r: Result<StringVector>)
    ensures j.JNull? ==> r == Ok([])
    ensures r.Ok? ==> NoNulls(r.value) && |r.value| == |Elements(j)|
    ensures r.Ok? ==> forall i :: 0 <= i < |Elements(j)| ==> Elements(j)[i] == JString(r.value[i].value)
  {
    if j.JNull? then Ok([])
    else
      var r := AppendAll([], Elements(j), HistoryEntryFromJson);
      assert r.Ok? ==> forall i :: 0 <= i < |r.value| ==> r.value[i] == Some(Elements(j)[i].s) by {
        if r.Ok? {
          forall i | 0 <= i < |r.value|
            ensures r.value[i] == Some(Elements(j)[i].s)
          {
            assert HistoryEntryFromJson(Elements(j)[i]) == Ok(r.value[0 + i]);
          }
        }
      }
      r
  }

  /** The history as an array of strings, oldest first. */
  function HistoryToJson(h: StringVector): (j: Json)
    requires NoNulls(h)
    ensures j.JArray? && |j.items| == |h|
    ensures forall i :: 0 <= i < |h| ==> j.items[i] == JString(h[i].value)
  {
    JArray(seq(|h|, i requires 0 <= i < |h| && h[i].Some? => JString(h[i].value)))
  }

  lemma HistoryRoundTrip(h: StringVector)
    requires NoNulls(h)
    ensures HistoryFromJson(HistoryToJson(h)) == Ok(h)
  {
    var j := HistoryToJson(h);
    var items := Elements(j);
    forall i | 0 <= i < |items|
      ensures HistoryEntryFromJson(items[i]) == Ok(h[i])
    {
      assert h[i] != None;
    }
    AppendAllDecodes([], items, h, HistoryEntryFromJson);
    assert [] + h == h;
  }

  //======================================================================
  // Defaults per difficulty (pattern library only)
  //======================================================================

  datatype DifficultyDefaults = DifficultyDefaults(
    difficulty: LevelDifficulty,
    minimumInitialWhitespace: real,
    minimumDelayBetweenPatterns: real,
    maximumDelayBetweenPatterns: real)

  function DefaultsToJson(dd: DifficultyDefaults): (j: Json)
    ensures Lookup(j, "difficulty") == Some(JString(LevelDifficultyToString(dd.difficulty)))
    ensures Lookup(j, "minimumInitialWhitespace") == Some(JReal(dd.minimumInitialWhitespace))
    ensures Lookup(j, "minimumDelayBetweenPatterns") == Some(JReal(dd.minimumDelayBetweenPatterns))
    ensures Lookup(j, "maximumDelayBetweenPatterns") == Some(JReal(dd.maximumDelayBetweenPatterns))
  {
    var j := Set(EmptyObject, "difficulty", JString(LevelDifficultyToString(dd.difficulty)));
    var j := Set(j, "minimumInitialWhitespace", JReal(dd.minimumInitialWhitespace));
    var j := Set(j, "minimumDelayBetweenPatterns", JReal(dd.minimumDelayBetweenPatterns));
    Set(j, "maximumDelayBetweenPatterns", JReal(dd.maximumDelayBetweenPatterns))
  }

  /** An unknown difficulty name reads as Easy; missing numbers read as 0. */
  function DefaultsFromJson(j: Json): (r: Result<DifficultyDefaults>)
    ensures j == EmptyObject ==> r == Ok(DifficultyDefaults(Easy, 0.0, 0.0, 0.0))
  {
    var name :- StringValue(j, "difficulty");
    var whitespace :- DoubleValue(j, "minimumInitialWhitespace");
    var minimumDelay :- DoubleValue(j, "minimumDelayBetweenPatterns");
    var maximumDelay :- DoubleValue(j, "maximumDelayBetweenPatterns");
    Ok(DifficultyDefaults(ToLevelDifficulty(name), whitespace, minimumDelay, maximumDelay))
  }

  lemma DefaultsRoundTrip(dd: DifficultyDefaults)
    ensures DefaultsFromJson(DefaultsToJson(dd)) == Ok(dd)
  {
    var j := DefaultsToJson(dd);
    assert StringValue(j, "difficulty") == Ok(LevelDifficultyToString(dd.difficulty));
  }

  function LevelOfDefaults(dd: DifficultyDefaults): LevelDifficulty {
    dd.difficulty
  }

  /** The difficulty of each entry, in order. */
  function Levels(v: seq<DifficultyDefaults>): seq<LevelDifficulty> {
    LevelsOf(v, LevelOfDefaults)
  }

  /** `DifficultyDefaults_Vec::find`: the entry for the difficulty, else the entry for All. */
  function Find(v: seq<DifficultyDefaults>, d: LevelDifficulty): (r: Option<nat>)
    ensures r.Some? ==> r.value < |v|
    ensures r.Some? ==> v[r.value].difficulty == d
                        || (v[r.value].difficulty == All && forall k :: 0 <= k < |v| ==> v[k].difficulty != d)
    ensures r.Some? ==> forall k :: 0 <= k < r.value ==> v[k].difficulty != v[r.value].difficulty
    ensures r.None? <==> forall k :: 0 <= k < |v| ==> v[k].difficulty != d && v[k].difficulty != All
    decreases if d == All then 0 else 1
  {
    match FirstLevel(Levels(v), d)
    case Some(i) => Some(i)
    case None => if d != All then Find(v, All) else None
  }

  datatype Built = Built(defaults: seq<DifficultyDefaults>, index: nat)

  /**
   * `getOrBuildDifficultyDefaults`: the entry `find` returns, or a new entry
   * for the difficulty appended at the end. The values a new entry starts
   * with come from the class's initialisers and are a parameter here.
   */
  function GetOrBuild(v: seq<DifficultyDefaults>, d: LevelDifficulty, blank: DifficultyDefaults): (r: Built)
    ensures r.index < |r.defaults| && Find(r.defaults, d) == Some(r.index)
    ensures Find(v, d).Some? ==> r.defaults == v
    ensures Find(v, d).None? ==> r.defaults == v + [blank.(difficulty := d)] && r.index == |v|
  {
    match Find(v, d)
    case Some(i) => Built(v, i)
    case None =>
      var v1 := v + [blank.(difficulty := d)];
      assert FirstLevel(Levels(v1), d) == Some(|v|) by {
        assert v1[|v|].difficulty == d;
      }
      Built(v1, |v|)
  }

  /** Asking twice builds at most once. */
  lemma GetOrBuildIdempotent(v: seq<DifficultyDefaults>, d: LevelDifficulty, blank: DifficultyDefaults)
    ensures GetOrBuild(GetOrBuild(v, d, blank).defaults, d, blank) == GetOrBuild(v, d, blank)
    ensures |GetOrBuild(v, d, blank).defaults| <= |v| + 1
  {
  }

  //======================================================================
  // The pattern library's preferences
  //======================================================================

  datatype LibraryPreferences = LibraryPreferences(
    libraryPath: string,
    levelAuthorName: string,
    history: StringVector,
    difficultyDefaults: seq<DifficultyDefaults>)

  function DefaultsVectorToJson(v: seq<DifficultyDefaults>): Json {
    VectorToJson(v, EmptyArray, DefaultsToJson).value
  }

  /** The four keys `toJSON` writes, from their already serialised values. */
  function LibraryFields(libraryPath: string, levelAuthorName: string, history: Json, defaults: Json): (j: Json)
    ensures Lookup(j, "libraryPath") == Some(JString(libraryPath))
    ensures Lookup(j, "levelAuthorName") == Some(JString(levelAuthorName))
    ensures Lookup(j, "history") == Some(history)
    ensures Lookup(j, "difficultyDefaults") == Some(defaults)
  {
    var j := Set(EmptyObject, "libraryPath", JString(libraryPath));
    var j := Set(j, "levelAuthorName", JString(levelAuthorName));
    var j := Set(j, "history", history);
    Set(j, "difficultyDefaults", defaults)
  }

  /** `Preferences::toJSON`, into the fresh value `_save` passes. */
  function LibraryPreferencesToJson(p: LibraryPreferences): Json
    requires NoNulls(p.history)
  {
    LibraryFields(p.libraryPath, p.levelAuthorName, HistoryToJson(p.history), DefaultsVectorToJson(p.difficultyDefaults))
  }

  /**
   * `Preferences::fromJSON` applied to existing preferences: the history is
   * replaced, but the stored defaults are appended to the ones already held.
   */
  function LibraryPreferencesFromJson(p: LibraryPreferences, j: Json): (r: Result<LibraryPreferences>)
    ensures r.Ok? ==> |r.value.difficultyDefaults| >= |p.difficultyDefaults|
                      && r.value.difficultyDefaults[..|p.difficultyDefaults|] == p.difficultyDefaults
    ensures r.Ok? ==> HistoryFromJson(JsonValue(j, "history")) == Ok(r.value.history)
  {
    var libraryPath :- StringValue(j, "libraryPath");
    var levelAuthorName :- StringValue(j, "levelAuthorName");
    var history :- HistoryFromJson(JsonValue(j, "history"));
    var defaultsJson := JsonValue(j, "difficultyDefaults");
    var defaults :- if defaultsJson.JNull? then Ok(p.difficultyDefaults)
                    else VectorFromJson(p.difficultyDefaults, defaultsJson, DefaultsFromJson);
    Ok(LibraryPreferences(libraryPath, levelAuthorName, history, defaults))
  }

  /**
   * Saving and loading keeps the path, author and history, and appends the
   * saved defaults to those the receiver already holds: loading into fresh
   * preferences restores them exactly.
   */
  lemma LibraryPreferencesRoundTrip(p: LibraryPreferences, into: LibraryPreferences)
    requires NoNulls(p.history)
    ensures LibraryPreferencesFromJson(into, LibraryPreferencesToJson(p))
            == Ok(p.(difficultyDefaults := into.difficultyDefaults + p.difficultyDefaults))
    ensures into.difficultyDefaults == [] ==> LibraryPreferencesFromJson(into, LibraryPreferencesToJson(p)) == Ok(p)
  {
    var h := HistoryToJson(p.history);
    var dj := DefaultsVectorToJson(p.difficultyDefaults);
    var j := LibraryFields(p.libraryPath, p.levelAuthorName, h, dj);
    assert StringValue(j, "libraryPath") == Ok(p.libraryPath);
    assert StringValue(j, "levelAuthorName") == Ok(p.levelAuthorName);
    assert JsonValue(j, "history") == h;
    HistoryRoundTrip(p.history);
    assert JsonValue(j, "difficultyDefaults") == dj;
    DefaultsVectorRoundTrip(into.difficultyDefaults, p.difficultyDefaults);
  }

  /** The stored defaults are appended, in order, after the existing ones. */
  lemma DefaultsVectorRoundTrip(existing: seq<DifficultyDefaults>, v: seq<DifficultyDefaults>)
    ensures !DefaultsVectorToJson(v).JNull?
    ensures VectorFromJson(existing, DefaultsVectorToJson(v), DefaultsFromJson) == Ok(existing + v)
  {
    forall dd ensures DefaultsFromJson(DefaultsToJson(dd)) == Ok(dd) {
      DefaultsRoundTrip(dd);
    }
    VectorRoundTrip(existing, v, DefaultsToJson, DefaultsFromJson);
  }

  //======================================================================
  // The song editor's preferences
  //======================================================================

  /** The editor keeps an author name too, but neither writes nor reads it. */
  datatype EditorPreferences = EditorPreferences(libraryPath: string, levelAuthorName: string, history: StringVector)

  function EditorFields(libraryPath: string, history: Json): (j: Json)
    ensures Lookup(j, "libraryPath") == Some(JString(libraryPath))
    ensures Lookup(j, "history") == Some(history)
    ensures forall k :: k != "libraryPath" && k != "history" ==> Lookup(j, k) == None
  {
    Set(Set(EmptyObject, "libraryPath", JString(libraryPath)), "history", history)
  }

  function EditorPreferencesToJson(p: EditorPreferences): Json
    requires NoNulls(p.history)
  {
    EditorFields(p.libraryPath, HistoryToJson(p.history))
  }

  function EditorPreferencesFromJson(p: EditorPreferences, j: Json): (r: Result<EditorPreferences>)
    ensures r.Ok? ==> r.value.levelAuthorName == p.levelAuthorName
    ensures Lookup(j, "libraryPath") == None && Lookup(j, "history") == None ==> r == Ok(p.(libraryPath := "", history := []))
  {
    var libraryPath :- StringValue(j, "libraryPath");
    var history :- HistoryFromJson(JsonValue(j, "history"));
    Ok(p.(libraryPath := libraryPath, history := history))
  }

  /** Saving and loading keeps path and history; the author name stays whatever the receiver had. */
  lemma EditorPreferencesRoundTrip(p: EditorPreferences, into: EditorPreferences)
    requires NoNulls(p.history)
    ensures EditorPreferencesFromJson(into, EditorPreferencesToJson(p)) == Ok(p.(levelAuthorName := into.levelAuthorName))
  {
    var h := HistoryToJson(p.history);
    var j := EditorFields(p.libraryPath, h);
    assert StringValue(j, "libraryPath") == Ok(p.libraryPath);
    assert JsonValue(j, "history") == h;
    HistoryRoundTrip(p.history);
  }
}

=== FILE: results.dfy ===
/**
 * Failure-compatible wrappers shared by the whole model.
 *
 * `Option` stands for a C++ pointer that may be null (or an absent
 * value); `Result` stands for an operation that may throw (an
 * `std::out_of_range` from `vector::at`, an `nlohmann` type error, ...).
 */
module Results {

  datatype Option<+T> = None | Some(value: T) {
    predicate IsFailure() {
      None?
    }

    function PropagateFailure<U>(): Option<U>
      requires None?
    {
      None
    }

    function Extract(): T
      requires Some?
    {
      value
    }

    function GetOr(default: T): T {
      match this
      case Some(v) => v
      case None => default
    }
  }

  /** The reasons a modelled operation can fail where the C++ would throw or misbehave. */
  datatype Error =
    | TypeError(what: string)      // nlohmann::json::get<T>() on a value of another type
    | OutOfRange(what: string)     // vector::at() with a bad index
    | Undefined(what: string)      // the C++ has undefined behaviour (back() on an empty vector, ...)

  datatype Result<+T> = Ok(value: T) | Err(error: Error) {
    predicate IsFailure() {
      Err?
    }

    function PropagateFailure<U>(): Result<U>
      requires Err?
    {
      Err(error)
    }

    function Extract(): T
      requires Ok?
    {
      value
    }
  }
}

=== FILE: saber_location.dfy ===
/**
 * Where the generator believes each saber is: the cell of the last note it
 * cut and, in the pattern library's tracker, that note's direction and beat.
 */
module SaberLocations {
  import opened NoteVocabulary
  import opened Beatmaps

  /** The pattern library's tracker. */
  datatype SaberLocation = SaberLocation(lastSliceBeat: real, row: int, col: int, lastCutDirection: CutDirection)

  /** A tracker as constructed: the member initialisers. */
  const Fresh: SaberLocation := SaberLocation(0.0, 1, 2, Center)

  /** `reset`: back to the middle row, third column, no cut yet. */
  function Reset(s: SaberLocation): (r: SaberLocation)
    ensures r == Fresh
  {
    s.(row := 1, col := 2, lastSliceBeat := 0.0, lastCutDirection := Center)
  }

  /**
   * `apply`: the saber is now where the note was, moving the way the note
   * is cut, at the given beat.
   */
  function Apply(s: SaberLocation, note: BeatNote, beatNumber: real): (r: SaberLocation)
    ensures r.row == note.lineLayer && r.col == note.lineIndex && r.lastSliceBeat == beatNumber
    ensures forall d :: note.cutDirection == CutDirectionToInt(d) ==> r.lastCutDirection == d
    ensures !(0 <= note.cutDirection <= 8) ==> r.lastCutDirection == Down
    ensures CutDirectionToInt(r.lastCutDirection) == note.cutDirection <==> 0 <= note.cutDirection <= 8
  {
    assert 0 <= note.cutDirection <= 8 ==> forall d :: CutDirectionToInt(d) == note.cutDirection ==> d == ToCutDirectionCode(note.cutDirection) by {
      if 0 <= note.cutDirection <= 8 {
        CutDirectionCodeBijective(note.cutDirection);
      }
    }
    s.(row := note.lineLayer, col := note.lineIndex,
       lastCutDirection := ToCutDirectionCode(note.cutDirection),
       lastSliceBeat := beatNumber)
  }

  /** Resetting twice is resetting once, and a fresh tracker is already reset. */
  lemma ResetIdempotent(s: SaberLocation)
    ensures Reset(Reset(s)) == Reset(s)
    ensures Reset(Fresh) == Fresh
  {
  }

  /** Only the last note applied matters: apply keeps nothing of the earlier state. */
  lemma ApplyLastWins(s: SaberLocation, t: SaberLocation, first: BeatNote, firstBeat: real, note: BeatNote, beatNumber: real)
    ensures Apply(Apply(s, first, firstBeat), note, beatNumber) == Apply(t, note, beatNumber)
  {
  }

  /** The editor's own tracker keeps only the cell. */
  datatype HandLocation = HandLocation(row: int, col: int)

  /** A hand tracker as constructed. */
  const NewHand: HandLocation := HandLocation(1, 2)

  /** `resetBlue`: the right hand, in front. */
  function ResetBlue(h: HandLocation): (r: HandLocation)
    ensures r == NewHand
  {
    h.(row := 1, col := 2)
  }

  /** `resetRed`: the left hand, in front, one column left of the right hand. */
  function ResetRed(h: HandLocation): (r: HandLocation)
    ensures r.row == ResetBlue(h).row && r.col == ResetBlue(h).col - 1
  {
    h.(row := 1, col := 1)
  }
}

=== FILE: string_methods.dfy ===
/**
 * The string helpers of the showpage utility layer: prefix test,
 * whitespace trimming, digit filtering, search-and-replace and the
 * escaping of raw bytes for logging.
 *
 * A C string is modelled by its characters before the terminating NUL.
 * `isspace` and `isdigit` are those of the "C" locale.
 */
module StringMethods {
  import opened Results

  newtype byte = x: int | 0 <= x < 256

  //======================================================================
  // stringStartsWith
  //======================================================================

  /** `stringStartsWith`: walks both C strings until the prefix ends or a character differs. */
  function StartsWith(str: string, prefix: string): (r: bool)
    ensures r <==> prefix <= str
  {
    if |prefix| == 0 then true
    else if |str| == 0 then false   // the NUL ending str differs from prefix[0]
    else if prefix[0] != str[0] then false
    else StartsWith(str[1..], prefix[1..])
  }

  //======================================================================
  // Trimming
  //======================================================================

  /** `isspace` in the "C" locale. */
  predicate IsSpace(c: char) {
    c == ' ' || c == '\t' || c == '\n' || c == '\U{0B}' || c == '\U{0C}' || c == '\r'
  }

  predicate AllSpace(s: string) {
    forall i :: 0 <= i < |s| ==> IsSpace(s[i])
  }

  /** `ltrim`: erases everything before the first non-space character. */
  function LTrim(s: string): (r: string)
    ensures |r| <= |s| && r == s[|s| - |r|..]
    ensures AllSpace(s[..|s| - |r|])
    ensures |r| > 0 ==> !IsSpace(r[0])
    ensures |s| > 0 && !IsSpace(s[0]) ==> r == s
  {
    if |s| == 0 || !IsSpace(s[0]) then s
    else
      var t := s[1..];
      var r := LTrim(t);
      var k := |s| - |r|;
      assert s[k..] == t[k - 1..];
      assert s[..k] == [s[0]] + t[..k - 1];
      AllSpaceCons(s[0], t[..k - 1]);
      r
  }

  lemma AllSpaceCons(c: char, rest: string)
    requires IsSpace(c) && AllSpace(rest)
    ensures AllSpace([c] + rest)
  {
    var all := [c] + rest;
    forall i | 0 <= i < |all|
      ensures IsSpace(all[i])
    {
      if i > 0 { assert all[i] == rest[i - 1]; }
    }
  }

  /** `rtrim`: erases everything after the last non-space character. */
  function RTrim(s: string): (r: string)
    ensures |r| <= |s| && r == s[..|r|]
    ensures AllSpace(s[|r|..])
    ensures |r| > 0 ==> !IsSpace(r[|r| - 1])
    ensures |s| > 0 && !IsSpace(s[|s| - 1]) ==> r == s
  {
    if |s| == 0 || !IsSpace(s[|s| - 1]) then s
    else
      var r := RTrim(s[..|s| - 1]);
      assert s[|r|..] == s[..|s| - 1][|r|..] + [s[|s| - 1]];
      r
  }

  /** `trim`: `rtrim` after `ltrim`. */
  function Trim(s: string): (r: string)
    ensures |r| > 0 ==> !IsSpace(r[0]) && !IsSpace(r[|r| - 1])
  {
    RTrim(LTrim(s))
  }

  /** The trimmed string is a contiguous slice of s with only whitespace cut off either side. */
  lemma TrimIsSlice(s: string)
    ensures exists i, j :: 0 <= i <= j <= |s| && Trim(s) == s[i..j] && AllSpace(s[..i]) && AllSpace(s[j..])
  {
    var l := LTrim(s);
    var r := RTrim(l);
    var i := |s| - |l|;
    var j := i + |r|;
    assert l == s[i..];
    assert r == s[i..j];
    assert s[j..] == l[|r|..];
  }

  /** Trimming twice trims nothing more, and a string of whitespace trims to "". */
  lemma TrimIdempotent(s: string)
    ensures Trim(Trim(s)) == Trim(s)
    ensures AllSpace(s) ==> Trim(s) == ""
  {
    var t := Trim(s);
    if |t| > 0 {
      assert LTrim(t) == t;
      assert RTrim(t) == t;
    }
  }

  //======================================================================
  // digitsOnly
  //======================================================================

  predicate IsDigit(c: char) {
    '0' <= c <= '9'
  }

  predicate AllDigits(s: string) {
    forall i :: 0 <= i < |s| ==> IsDigit(s[i])
  }

  /** What the loop of `digitsOnly` keeps of one character. */
  function Kept(c: char): string {
    if IsDigit(c) then [c] else []
  }

  /** What the loop of `digitsOnly` drops of one character. */
  function Dropped(c: char): string {
    if IsDigit(c) then [] else [c]
  }

  /** The characters of s that are not digits, in order: what `digitsOnly` drops. */
  function NonDigits(s: string): (r: string)
    ensures forall i :: 0 <= i < |r| ==> !IsDigit(r[i])
  {
    if |s| == 0 then "" else Dropped(s[0]) + NonDigits(s[1..])
  }

  /** The loop of `digitsOnly`: each character, in order, appended when it is a digit. */
  function KeepDigits(s: string): string {
    if |s| == 0 then "" else Kept(s[0]) + KeepDigits(s[1..])
  }

  /** The loop keeps only digits and never lengthens the string. */
  lemma {:induction false} KeepDigitsOnlyDigits(s: string)
    ensures AllDigits(KeepDigits(s)) && |KeepDigits(s)| <= |s|
  {
    if |s| > 0 {
      KeepDigitsOnlyDigits(s[1..]);
    }
  }

  /** On a string of digits the loop keeps everything. */
  lemma {:induction false} KeepDigitsOfDigits(s: string)
    requires AllDigits(s)
    ensures KeepDigits(s) == s
  {
    if |s| > 0 {
      KeepDigitsOfDigits(s[1..]);
      assert s == [s[0]] + s[1..];
    }
  }

  /** One character is either kept or dropped. */
  lemma KeptOrDropped(c: char)
    ensures multiset(Kept(c)) + multiset(Dropped(c)) == multiset{c}
  {
  }

  /** Splitting the head and the tail of a string separately splits the whole string. */
  lemma SplitCons(c: char, t: string, kc: string, dc: string, k: string, d: string)
    requires multiset(kc) + multiset(dc) == multiset{c}
    requires multiset(k) + multiset(d) == multiset(t)
    ensures multiset(kc + k) + multiset(dc + d) == multiset([c] + t)
  {
  }

  /** Kept and dropped make up s once they make up its tail. */
  lemma CountsStep(s: string)
    requires |s| > 0
    requires multiset(KeepDigits(s[1..])) + multiset(NonDigits(s[1..])) == multiset(s[1..])
    ensures multiset(KeepDigits(s)) + multiset(NonDigits(s)) == multiset(s)
  {
    var c, t := s[0], s[1..];
    assert s == [c] + t;
    KeptOrDropped(c);
    SplitCons(c, t, Kept(c), Dropped(c), KeepDigits(t), NonDigits(t));
  }

  /** The loop drops exactly the non-digits: kept and dropped together make up s. */
  lemma {:induction false} KeepDigitsCounts(s: string)
    ensures multiset(KeepDigits(s)) + multiset(NonDigits(s)) == multiset(s)
  {
    if |s| > 0 {
      KeepDigitsCounts(s[1..]);
      CountsStep(s);
    }
  }

  lemma {:induction false} KeepDigitsAppend(a: string, b: string)
    ensures KeepDigits(a + b) == KeepDigits(a) + KeepDigits(b)
  {
    if |a| == 0 {
      assert a + b == b;
    } else {
      var c, t := a[0], a[1..];
      assert (a + b)[0] == c;
      assert (a + b)[1..] == t + b;
      KeepDigitsAppend(t, b);
      calc {
        KeepDigits(a + b);
        Kept(c) + KeepDigits(t + b);
        Kept(c) + (KeepDigits(t) + KeepDigits(b));
        (Kept(c) + KeepDigits(t)) + KeepDigits(b);
        KeepDigits(a) + KeepDigits(b);
      }
    }
  }

  /** `digitsOnly`: the digit characters of s, in order. */
  function DigitsOnly(s: string): (r: string)
    ensures AllDigits(r)
    ensures |r| <= |s|
    ensures AllDigits(s) ==> r == s
    ensures multiset(r) + multiset(NonDigits(s)) == multiset(s)
  {
    KeepDigitsOnlyDigits(s);
    if AllDigits(s) then
      KeepDigitsOfDigits(s);
      KeepDigitsCounts(s);
      KeepDigits(s)
    else
      KeepDigitsCounts(s);
      KeepDigits(s)
  }

  /** Filtering distributes over concatenation, so no digit is lost, added or reordered. */
  lemma DigitsOnlyAppend(a: string, b: string)
    ensures DigitsOnly(a + b) == DigitsOnly(a) + DigitsOnly(b)
  {
    KeepDigitsAppend(a, b);
  }

  /** `digitsOnly` is idempotent, and the identity exactly on all-digit strings. */
  lemma DigitsOnlyIdempotent(s: string)
    ensures DigitsOnly(DigitsOnly(s)) == DigitsOnly(s)
    ensures DigitsOnly(s) == s <==> AllDigits(s)
  {
  }

  //======================================================================
  // replaceAll
  //======================================================================

  predicate OccursAt(s: string, pattern: string, i: nat) {
    i + |pattern| <= |s| && s[i..i + |pattern|] == pattern
  }

  predicate Contains(s: string, pattern: string) {
    exists i: nat :: i <= |s| && OccursAt(s, pattern, i)
  }

  /** `std::string::find(pattern, pos)`: the first occurrence starting at or after pos. */
  function Find(s: string, pattern: string, pos: nat): (r: Option<nat>)
    ensures r.Some? ==> pos <= r.value && OccursAt(s, pattern, r.value)
    ensures r.Some? ==> forall j: nat :: pos <= j < r.value ==> !OccursAt(s, pattern, j)
    ensures r.None? ==> forall j: nat :: pos <= j ==> !OccursAt(s, pattern, j)
    decreases |s| + 1 - pos
  {
    if pos + |pattern| > |s| then None
    else if s[pos..pos + |pattern|] == pattern then Some(pos)
    else Find(s, pattern, pos + 1)
  }

  /** `std::string::replace(pos, |pattern|, with)` at an occurrence. */
  function Splice(s: string, pos: nat, len: nat, with: string): (r: string)
    requires pos + len <= |s|
    ensures |r| == |s| - len + |with|
    ensures r[..pos] == s[..pos] && r[pos..pos + |with|] == with && r[pos + |with|..] == s[pos + len..]
  {
    s[..pos] + with + s[pos + len..]
  }

  /**
   * The loop of `replaceAll`, resuming the search at the start of the
   * replacement just made. `fuel` bounds the number of replacements;
   * `None` means it ran out, which stands for a loop that does not end.
   */
  function ReplaceFrom(s: string, searchFor: string, replaceWith: string, pos: nat, fuel: nat): Option<string>
    decreases fuel
  {
    match Find(s, searchFor, pos)
    case None => Some(s)
    case Some(p) =>
      if fuel == 0 then None
      else ReplaceFrom(Splice(s, p, |searchFor|, replaceWith), searchFor, replaceWith, p, fuel - 1)
  }

  /** `replaceAll` with at most `fuel` replacements. */
  function ReplaceAll(input: string, searchFor: string, replaceWith: string, fuel: nat): (r: Option<string>)
    ensures !Contains(input, searchFor) ==> r == Some(input)
  {
    ReplaceFrom(input, searchFor, replaceWith, 0, fuel)
  }

  /** No occurrence of the pattern starts at or after q. */
  predicate NoneFrom(s: string, pattern: string, q: nat) {
    forall j: nat :: q <= j <= |s| ==> !OccursAt(s, pattern, j)
  }

  /**
   * Some replacement made at or after pos is still in place in r, and no
   * occurrence of the pattern starts at or after it: the last turn of a loop
   * that finished.
   */
  ghost predicate ClearAfterReplacement(r: string, pattern: string, with: string, pos: nat) {
    exists q: nat :: pos <= q && q + |with| <= |r| && r[q..q + |with|] == with && NoneFrom(r, pattern, q)
  }

  /**
   * What a finished loop started at pos leaves of s: the text before pos is
   * untouched, and either s had no occurrence from pos and comes back as it
   * was, or the last replacement is in place with no occurrence after it.
   */
  ghost predicate Settled(r: string, s: string, pattern: string, with: string, pos: nat) {
    pos <= |r| && pos <= |s| && r[..pos] == s[..pos]
    && ((r == s && NoneFrom(s, pattern, pos)) || ClearAfterReplacement(r, pattern, with, pos))
  }

  /** One turn of the loop: a found occurrence is replaced and the search resumes there. */
  lemma ReplaceFromStep(s: string, searchFor: string, replaceWith: string, pos: nat, fuel: nat, p: nat)
    requires Find(s, searchFor, pos) == Some(p) && fuel > 0
    ensures p + |searchFor| <= |s|
    ensures ReplaceFrom(s, searchFor, replaceWith, pos, fuel)
            == ReplaceFrom(Splice(s, p, |searchFor|, replaceWith), searchFor, replaceWith, p, fuel - 1)
  {
  }

  /** With an occurrence left and no fuel, the loop has not finished. */
  lemma ReplaceFromOutOfFuel(s: string, searchFor: string, replaceWith: string, pos: nat)
    requires Find(s, searchFor, pos).Some?
    ensures ReplaceFrom(s, searchFor, replaceWith, pos, 0) == None
  {
  }

  /** A turn whose continuation never finishes does not finish either. */
  lemma ReplaceFromDivergesStep(s: string, searchFor: string, replaceWith: string, pos: nat, fuel: nat, p: nat, t: string)
    requires Find(s, searchFor, pos) == Some(p) && fuel > 0
    requires p + |searchFor| <= |s| && t == Splice(s, p, |searchFor|, replaceWith)
    requires ReplaceFrom(t, searchFor, replaceWith, p, fuel - 1) == None
    ensures ReplaceFrom(s, searchFor, replaceWith, pos, fuel) == None
  {
    ReplaceFromStep(s, searchFor, replaceWith, pos, fuel, p);
  }

  /**
   * When t holds a replacement at p and r settles t from p, r keeps the text
   * of s before any earlier pos and ends clear after a replacement.
   */
  lemma SettledEarlier(r: string, t: string, s: string, pattern: string, with: string, pos: nat, p: nat)
    requires Settled(r, t, pattern, with, p)
    requires p + |with| <= |t| && t[p..p + |with|] == with
    requires pos <= p <= |s| && t[..p] == s[..p]
    ensures pos <= |r| && r[..pos] == s[..pos] && ClearAfterReplacement(r, pattern, with, pos)
  {
    assert r[..pos] == r[..p][..pos];
    assert s[..pos] == s[..p][..pos];
    if r == t && NoneFrom(t, pattern, p) {
      assert p <= p && p + |with| <= |r| && r[p..p + |with|] == with && NoneFrom(r, pattern, p);
    } else {
      var q: nat :| p <= q && q + |with| <= |r| && r[q..q + |with|] == with && NoneFrom(r, pattern, q);
      assert pos <= q;
    }
  }

  /** A turn settles s from pos once its continuation settles the spliced string from p. */
  lemma SettlesStep(s: string, searchFor: string, replaceWith: string, pos: nat, fuel: nat, p: nat, t: string)
    requires pos <= |s| && Find(s, searchFor, pos) == Some(p) && fuel > 0
    requires p + |searchFor| <= |s| && t == Splice(s, p, |searchFor|, replaceWith)
    requires var r := ReplaceFrom(t, searchFor, replaceWith, p, fuel - 1);
             r.Some? ==> Settled(r.value, t, searchFor, replaceWith, p)
    ensures var r := ReplaceFrom(s, searchFor, replaceWith, pos, fuel);
            r.Some? ==> pos <= |r.value| && r.value[..pos] == s[..pos]
                        && ClearAfterReplacement(r.value, searchFor, replaceWith, pos)
  {
    ReplaceFromStep(s, searchFor, replaceWith, pos, fuel, p);
    var r := ReplaceFrom(t, searchFor, replaceWith, p, fuel - 1);
    if r.Some? {
      SettledEarlier(r.value, t, s, searchFor, replaceWith, pos, p);
    }
  }

  /** The string a turn leaves: the text before the occurrence is kept and the replacement follows it. */
  lemma FoundSplice(s: string, searchFor: string, replaceWith: string, pos: nat, p: nat) returns (t: string)
    requires Find(s, searchFor, pos) == Some(p)
    ensures p + |searchFor| <= |s| && t == Splice(s, p, |searchFor|, replaceWith)
    ensures p <= |t| && t[..p] == s[..p]
    ensures p + |replaceWith| <= |t| && t[p..p + |replaceWith|] == replaceWith
  {
    t := Splice(s, p, |searchFor|, replaceWith);
  }

  /** Starting the loop at the next occurrence instead of before it changes nothing. */
  lemma ResumeAtFirst(s: string, searchFor: string, replaceWith: string, pos: nat, fuel: nat, p: nat)
    requires Find(s, searchFor, pos) == Some(p)
    ensures p <= |s| && Find(s, searchFor, p) == Some(p)
    ensures ReplaceFrom(s, searchFor, replaceWith, pos, fuel) == ReplaceFrom(s, searchFor, replaceWith, p, fuel)
  {
  }

  /** With no occurrence left from pos, the loop is done and returns s itself. */
  lemma ReplaceFromDone(s: string, searchFor: string, replaceWith: string, pos: nat, fuel: nat)
    requires Find(s, searchFor, pos).None?
    ensures ReplaceFrom(s, searchFor, replaceWith, pos, fuel) == Some(s)
    ensures NoneFrom(s, searchFor, pos)
  {
  }

  /** A finished loop settles the string from where it started. */
  lemma {:induction false} ReplaceFromSettles(s: string, searchFor: string, replaceWith: string, pos: nat, fuel: nat)
    requires pos <= |s|
    ensures var r := ReplaceFrom(s, searchFor, replaceWith, pos, fuel);
            r.Some? ==> Settled(r.value, s, searchFor, replaceWith, pos)
    decreases fuel, 1
  {
    var found := Find(s, searchFor, pos);
    if found.None? {
      ReplaceFromDone(s, searchFor, replaceWith, pos, fuel);
    } else if fuel == 0 {
      ReplaceFromOutOfFuel(s, searchFor, replaceWith, pos);
    } else {
      SettlesTurn(s, searchFor, replaceWith, pos, fuel, found.value);
    }
  }

  /** One turn of a finishing loop: the replacement at p is followed by a loop settling from p. */
  lemma {:induction false} SettlesTurn(s: string, searchFor: string, replaceWith: string, pos: nat, fuel: nat, p: nat)
    requires pos <= |s| && Find(s, searchFor, pos) == Some(p) && fuel > 0
    ensures var r := ReplaceFrom(s, searchFor, replaceWith, pos, fuel);
            r.Some? ==> pos <= |r.value| && r.value[..pos] == s[..pos]
                        && ClearAfterReplacement(r.value, searchFor, replaceWith, pos)
    decreases fuel, 0
  {
    var t := FoundSplice(s, searchFor, replaceWith, pos, p);
    ReplaceFromSettles(t, searchFor, replaceWith, p, fuel - 1);
    SettlesStep(s, searchFor, replaceWith, pos, fuel, p, t);
  }

  /**
   * `replaceAll` on a string that holds the pattern, first at i: when the
   * loop finishes, everything before i is as it was, and some replacement at
   * or after i is still in place with no occurrence of the pattern from there on.
   */
  lemma ReplaceAllResult(input: string, searchFor: string, replaceWith: string, fuel: nat, i: nat)
    requires Find(input, searchFor, 0) == Some(i)
    ensures var r := ReplaceAll(input, searchFor, replaceWith, fuel);
            r.Some? ==> i <= |r.value| && r.value[..i] == input[..i]
                        && exists q: nat :: i <= q && q + |replaceWith| <= |r.value|
                                            && r.value[q..q + |replaceWith|] == replaceWith
                                            && NoneFrom(r.value, searchFor, q)
  {
    ResumeAtFirst(input, searchFor, replaceWith, 0, fuel, i);
    if fuel == 0 {
      ReplaceFromOutOfFuel(input, searchFor, replaceWith, i);
    } else {
      SettlesTurn(input, searchFor, replaceWith, i, fuel, i);
    }
  }

  /**
   * The search resumes at the start of the replacement, so the loop reads
   * its own output: replacing "ab" by "a" in "abb" gives "a", not "ab".
   */
  lemma ReplaceAllRereads()
    ensures ReplaceAll("abb", "ab", "a", 5) == Some("a")
  {
    assert Find("abb", "ab", 0) == Some(0);
    assert Splice("abb", 0, 2, "a") == "ab";
    assert Find("ab", "ab", 0) == Some(0);
    assert Splice("ab", 0, 2, "a") == "a";
    assert Find("a", "ab", 0) == None;
  }

  /** Any occurrence at or after pos makes `find` succeed. */
  lemma FindFinds(s: string, pattern: string, pos: nat, i: nat)
    requires pos <= i && OccursAt(s, pattern, i)
    ensures Find(s, pattern, pos).Some?
  {
  }

  /** An empty `searchFor` is found at every position, so the loop never ends. */
  lemma {:induction false} ReplaceAllEmptyDiverges(s: string, replaceWith: string, pos: nat, fuel: nat)
    requires pos <= |s|
    ensures ReplaceFrom(s, "", replaceWith, pos, fuel) == None
    decreases fuel
  {
    assert OccursAt(s, "", pos);
    FindFinds(s, "", pos, pos);
    var p := Find(s, "", pos).value;
    if fuel > 0 {
      ReplaceAllEmptyDiverges(Splice(s, p, 0, replaceWith), replaceWith, p, fuel - 1);
    }
  }

  /** When the inserted text contains the pattern, a search from the splice point finds it. */
  lemma FindInSplice(s: string, pos: nat, len: nat, with: string, pattern: string)
    requires pos + len <= |s| && Contains(with, pattern)
    ensures Find(Splice(s, pos, len, with), pattern, pos).Some?
  {
    var t := Splice(s, pos, len, with);
    var k: nat :| k <= |with| && OccursAt(with, pattern, k);
    assert t[pos + k..pos + k + |pattern|] == t[pos..pos + |with|][k..k + |pattern|];
    FindFinds(t, pattern, pos, pos + k);
  }

  /**
   * When `replaceWith` contains `searchFor`, the search resumed at the
   * replacement finds it again, so once one occurrence exists the loop never ends.
   */
  lemma {:induction false} ReplaceAllSelfContainingDiverges(s: string, searchFor: string, replaceWith: string, pos: nat, fuel: nat)
    requires Find(s, searchFor, pos).Some?
    requires Contains(replaceWith, searchFor)
    ensures ReplaceFrom(s, searchFor, replaceWith, pos, fuel) == None
    decreases fuel
  {
    var p := Find(s, searchFor, pos).value;
    if fuel == 0 {
      ReplaceFromOutOfFuel(s, searchFor, replaceWith, pos);
    } else {
      var t := SelfContainingSplice(s, searchFor, replaceWith, pos, p);
      ReplaceAllSelfContainingDiverges(t, searchFor, replaceWith, p, fuel - 1);
      ReplaceFromDivergesStep(s, searchFor, replaceWith, pos, fuel, p, t);
    }
  }

  /** After a self-containing replacement at p, the search from p finds the pattern again. */
  lemma SelfContainingSplice(s: string, searchFor: string, replaceWith: string, pos: nat, p: nat) returns (t: string)
    requires Find(s, searchFor, pos) == Some(p)
    requires Contains(replaceWith, searchFor)
    ensures p + |searchFor| <= |s| && t == Splice(s, p, |searchFor|, replaceWith)
    ensures Find(t, searchFor, p).Some?
  {
    FindInSplice(s, p, |searchFor|, replaceWith, searchFor);
    t := Splice(s, p, |searchFor|, replaceWith);
  }

  /** A strictly shorter replacement shrinks the string each time, so |s| replacements suffice. */
  lemma {:induction false} ReplaceAllShrinkingTerminates(s: string, searchFor: string, replaceWith: string, pos: nat, fuel: nat)
    requires |replaceWith| < |searchFor|
    requires fuel >= |s|
    ensures ReplaceFrom(s, searchFor, replaceWith, pos, fuel).Some?
    decreases fuel
  {
    match Find(s, searchFor, pos)
    case None =>
    case Some(p) =>
      ReplaceAllShrinkingTerminates(Splice(s, p, |searchFor|, replaceWith), searchFor, replaceWith, p, fuel - 1);
  }

  //======================================================================
  // controlStringFromBytes
  //======================================================================

  const Letters: string := "ABCDEFGHIJKLMNOPQRSTUVWXYZ"

  /** Bytes copied as themselves: 32 (space) through 126 ('~'). */
  predicate IsPrintable(c: byte) {
    32 <= c < 127
  }

  /** The text one byte becomes; `hex` stands for `hexString`, which is not part of this model. */
  function Escape(c: byte, hex: byte -> string): (r: string)
    ensures |r| >= 1
    ensures IsPrintable(c) ==> r == [c as char]
    ensures c == 0 ==> r == "\\00"
    ensures c == 13 ==> r == "\\r"
    ensures c == 10 ==> r == "\\n"
    ensures 1 <= c <= 26 && c != 10 && c != 13 ==> r == ['^', Letters[c - 1]]
    ensures 26 < c < 32 || c >= 127 ==> r == "\\" + hex(c)
  {
    if c == 0 then "\\00"
    else if c == 13 then "\\r"
    else if c == 10 then "\\n"
    else if c <= 26 then "^" + [Letters[c - 1]]
    else if c < 32 then "\\" + hex(c)
    else if c < 127 then [c as char]
    else "\\" + hex(c)
  }

  /** The escapes of a run of bytes, concatenated in order. */
  function EscapeAll(data: seq<byte>, hex: byte -> string): (r: string)
    ensures |r| >= |data|
  {
    if |data| == 0 then "" else Escape(data[0], hex) + EscapeAll(data[1..], hex)
  }

  /** `controlStringFromBytes`: null data gives "", otherwise the first `length` bytes, escaped. */
  function ControlStringFromBytes(data: Option<seq<byte>>, length: int, hex: byte -> string): (r: string)
    requires data.Some? ==> length <= |data.value|
    ensures data.None? || length <= 0 ==> r == ""
    ensures data.Some? && length > 0 ==> r == EscapeAll(data.value[..length], hex)
    ensures data.Some? ==> |r| >= length
  {
    if data.None? || length <= 0 then "" else EscapeAll(data.value[..length], hex)
  }

  /** Escaping works byte by byte: the escape of a concatenation is the concatenation of the escapes. */
  lemma {:induction false} EscapeAllAppend(a: seq<byte>, b: seq<byte>, hex: byte -> string)
    ensures EscapeAll(a + b, hex) == EscapeAll(a, hex) + EscapeAll(b, hex)
  {
    if |a| == 0 {
      assert a + b == b;
    } else {
      assert (a + b)[1..] == a[1..] + b;
      EscapeAllAppend(a[1..], b, hex);
    }
  }

  /** A single byte escapes as `Escape` says; with EscapeAllAppend this fixes EscapeAll on every input. */
  lemma EscapeAllOne(c: byte, hex: byte -> string)
    ensures EscapeAll([], hex) == ""
    ensures EscapeAll([c], hex) == Escape(c, hex)
  {
  }

  /** Printable bytes come through unchanged. */
  lemma {:induction false} EscapeAllPrintable(data: seq<byte>, hex: byte -> string)
    requires forall i :: 0 <= i < |data| ==> IsPrintable(data[i])
    ensures EscapeAll(data, hex) == seq(|data|, i requires 0 <= i < |data| => data[i] as char)
  {
    if |data| > 0 {
      EscapeAllPrintable(data[1..], hex);
    }
  }
}

=== FILE: string_vector.dfy ===
/**
 * `StringVector`: a vector of owned, possibly null string pointers, with
 * removal of the first copy of a value and `strtok_r`-style tokenizing.
 */
module StringVectors {
  import opened Results

  type StringVector = seq<Option<string>>

  //======================================================================
  // remove
  //======================================================================

  /** The index of the first non-null element equal to value. */
  function FirstIndexOf(v: StringVector, value: string): (r: Option<nat>)
    ensures r.Some? ==> r.value < |v| && v[r.value] == Some(value)
    ensures r.Some? ==> forall j :: 0 <= j < r.value ==> v[j] != Some(value)
    ensures r.None? ==> forall j :: 0 <= j < |v| ==> v[j] != Some(value)
  {
    if |v| == 0 then None
    else if v[0] == Some(value) then Some(0)
    else
      match FirstIndexOf(v[1..], value)
      case None => None
      case Some(i) => Some(i + 1)
  }

  /** `remove`: erases the first non-null element equal to value, if any. */
  function Remove(v: StringVector, value: string): (r: StringVector)
    ensures Some(value) in v <==> |r| == |v| - 1
    ensures Some(value) !in v ==> r == v
    ensures Some(value) in v ==>
              exists i :: 0 <= i < |v| && Some(value) !in v[..i] && v[i] == Some(value) && r == v[..i] + v[i + 1..]
    ensures multiset(r) == multiset(v) - multiset{Some(value)}
  {
    match FirstIndexOf(v, value)
    case None =>
      assert multiset(v)[Some(value)] == 0;
      v
    case Some(i) =>
      assert v == v[..i] + [v[i]] + v[i + 1..];
      assert Some(value) !in v[..i];
      v[..i] + v[i + 1..]
  }

  //======================================================================
  // tokenize
  //======================================================================

  /** Length of the leading run of non-delimiter characters. */
  function RunLength(s: string, splitter: string): (n: nat)
    ensures n <= |s|
    ensures forall i :: 0 <= i < n ==> s[i] !in splitter
    ensures n < |s| ==> s[n] in splitter
  {
    if |s| == 0 || s[0] in splitter then 0 else 1 + RunLength(s[1..], splitter)
  }

  /**
   * The tokens `strtok_r` returns on successive calls: delimiters are
   * skipped, and each token is a maximal run of other characters.
   */
  function Tokens(s: string, splitter: string): (r: seq<string>)
    ensures forall t :: t in r ==> |t| > 0 && forall i :: 0 <= i < |t| ==> t[i] !in splitter
    decreases |s|
  {
    if |s| == 0 then []
    else if s[0] in splitter then Tokens(s[1..], splitter)
    else
      var n := RunLength(s, splitter);
      [s[..n]] + Tokens(s[n..], splitter)
  }

  /** `tokenize`: appends each token, in order, to the existing contents. */
  function Tokenize(v: StringVector, s: string, splitter: string): (r: StringVector)
    ensures |r| >= |v| && r[..|v|] == v
    ensures forall i :: |v| <= i < |r| ==> r[i].Some? && |r[i].value| > 0
    ensures |r| == |v| + |Tokens(s, splitter)|
    ensures forall i :: 0 <= i < |Tokens(s, splitter)| ==> r[|v| + i] == Some(Tokens(s, splitter)[i])
  {
    var toks := Tokens(s, splitter);
    v + seq(|toks|, i requires 0 <= i < |toks| => Some(toks[i]))
  }

  /** A leading run stops where the first part's run stops, or carries on into the second part. */
  lemma {:induction false} RunLengthAppend(a: string, b: string, splitter: string)
    ensures RunLength(a + b, splitter) == if RunLength(a, splitter) < |a| then RunLength(a, splitter)
                                          else |a| + RunLength(b, splitter)
    decreases |a|
  {
    if |a| == 0 {
      assert a + b == b;
    } else if a[0] !in splitter {
      assert (a + b)[1..] == a[1..] + b;
      RunLengthAppend(a[1..], b, splitter);
    }
  }

  /** A non-empty string with no delimiter is one token. */
  lemma TokensOfRun(s: string, splitter: string)
    requires |s| > 0 && forall i :: 0 <= i < |s| ==> s[i] !in splitter
    ensures Tokens(s, splitter) == [s]
  {
    assert s[..|s|] == s;
    assert s[|s|..] == [];
  }

  /**
   * Tokens are maximal runs: a delimiter always ends a token, so cutting
   * the string at a delimiter cuts the token list there too.
   */
  lemma {:induction false} TokensSplit(a: string, d: char, b: string, splitter: string)
    requires d in splitter
    ensures Tokens(a + [d] + b, splitter) == Tokens(a, splitter) + Tokens(b, splitter)
    decreases |a|
  {
    var s := a + [d] + b;
    if |a| == 0 {
      assert s == [d] + b;
      assert s[1..] == b;
    } else if a[0] in splitter {
      assert s[1..] == a[1..] + [d] + b;
      TokensSplit(a[1..], d, b, splitter);
    } else {
      var m := RunLength(a, splitter);
      RunLengthAppend(a, [d] + b, splitter);
      assert s == a + ([d] + b);
      assert RunLength(s, splitter) == m;
      assert s[..m] == a[..m];
      assert s[m..] == a[m..] + [d] + b;
      TokensSplit(a[m..], d, b, splitter);
      assert ([a[..m]] + Tokens(a[m..], splitter)) + Tokens(b, splitter)
          == [a[..m]] + (Tokens(a[m..], splitter) + Tokens(b, splitter));
    }
  }

  /** The characters of s that are not delimiters, in order. */
  function Kept(s: string, splitter: string): string {
    if |s| == 0 then "" else (if s[0] in splitter then "" else [s[0]]) + Kept(s[1..], splitter)
  }

  function Concat(ts: seq<string>): string {
    if |ts| == 0 then "" else ts[0] + Concat(ts[1..])
  }

  lemma {:induction false} KeptAppend(a: string, b: string, splitter: string)
    ensures Kept(a + b, splitter) == Kept(a, splitter) + Kept(b, splitter)
  {
    if |a| == 0 {
      assert a + b == b;
    } else {
      assert (a + b)[1..] == a[1..] + b;
      KeptAppend(a[1..], b, splitter);
    }
  }

  lemma {:induction false} KeptOfRun(s: string, splitter: string)
    requires forall i :: 0 <= i < |s| ==> s[i] !in splitter
    ensures Kept(s, splitter) == s
  {
    if |s| > 0 {
      KeptOfRun(s[1..], splitter);
    }
  }

  /** Tokenizing loses no character but the delimiters: the tokens concatenate to the kept characters. */
  lemma {:induction false} TokensConcat(s: string, splitter: string)
    ensures Concat(Tokens(s, splitter)) == Kept(s, splitter)
    decreases |s|
  {
    if |s| == 0 {
    } else if s[0] in splitter {
      TokensConcat(s[1..], splitter);
    } else {
      var n := RunLength(s, splitter);
      assert s == s[..n] + s[n..];
      KeptAppend(s[..n], s[n..], splitter);
      KeptOfRun(s[..n], splitter);
      TokensConcat(s[n..], splitter);
      assert ([s[..n]] + Tokens(s[n..], splitter))[1..] == Tokens(s[n..], splitter);
    }
  }

  /** A string made only of delimiters has no tokens. */
  lemma {:induction false} TokensOfDelimiters(s: string, splitter: string)
    requires forall i :: 0 <= i < |s| ==> s[i] in splitter
    ensures Tokens(s, splitter) == []
    decreases |s|
  {
    if |s| > 0 {
      TokensOfDelimiters(s[1..], splitter);
    }
  }

  /** The tokens joined with one delimiter between each. */
  function Join(ts: seq<string>, d: char): string {
    if |ts| == 0 then ""
    else if |ts| == 1 then ts[0]
    else ts[0] + [d] + Join(ts[1..], d)
  }

  lemma RunLengthOfToken(t: string, rest: string, splitter: string)
    requires forall i :: 0 <= i < |t| ==> t[i] !in splitter
    requires |rest| == 0 || rest[0] in splitter
    ensures RunLength(t + rest, splitter) == |t|
  {
    RunLengthAppend(t, rest, splitter);
  }

  /** Joining non-empty, delimiter-free tokens with a delimiter and tokenizing again gives the tokens back. */
  lemma {:induction false} TokensOfJoin(ts: seq<string>, d: char, splitter: string)
    requires d in splitter
    requires forall t :: t in ts ==> |t| > 0 && forall i :: 0 <= i < |t| ==> t[i] !in splitter
    ensures Tokens(Join(ts, d), splitter) == ts
    decreases |ts|
  {
    if |ts| == 0 {
    } else {
      var t := ts[0];
      var rest := if |ts| == 1 then "" else [d] + Join(ts[1..], d);
      assert Join(ts, d) == t + rest;
      RunLengthOfToken(t, rest, splitter);
      var s := t + rest;
      assert s[..|t|] == t;
      assert s[|t|..] == rest;
      if |ts| > 1 {
        assert rest[1..] == Join(ts[1..], d);
        TokensOfJoin(ts[1..], d, splitter);
        assert Tokens(rest, splitter) == ts[1..];
      }
      assert ts == [t] + ts[1..];
    }
  }
}
